=== FILE: README.md ===
# hienoi core in Dafny

A model of the sequential core of hienoi, a particle simulation that is
rendered live. It covers five pieces:

- **DynamicArray** (`dynamic_array.dfy`). This is the growable
  `std::vector`-style array with an explicit size and capacity. It grows by
  a factor of 1.5 to no fewer than 4 slots.
- **OrderedBuffer** (`ordered_buffer.dfy`). This is the bucketed, append-only
  staging buffer.
  - A push goes into the current fixed-capacity bucket if it fits there.
  - Otherwise it is kept out of line as a *bunch*, tagged with the current
    bucket position.
  - `chunks` rebuilds the insertion order by interleaving the bucket slices
    with the bunches.
  - An element is never moved once written.
- **KDTree** (`geometry.dfy`, `kdtree.dfy`, `kdtree_search.dfy`). A static
  k-d tree.
  - The build splits at the middle of the longest side of the bounding box
    and stops at the bucket size.
  - The tree is an inductive datatype. A flattening gives the contiguous
    pre-order layout with subtree sizes.
  - There are two searches: the bounded k-nearest search and the
    every-point-within-a-radius search. The k-nearest search prunes with
    the near squared distance from a point to a box. The all-within
    search prunes with the near distance too, and takes a whole box at
    once when its far distance is within the radius.
  - `kdtree_ranking.dfy` relates the two searches. When no two points are
    equally far from the query and none lies exactly on the radius, a
    sorted search for `count` points returns the first `count` entries of
    the sorted brute-force answer, whichever path the count selects.
  - `kdtree_fixture.dfy` works out the repository's first search test
    suite on exact reals.
- **ParticleSimulation** (`dynamics.dfy`). The engine.
  - Particle ids are handed out in increasing order.
  - New particles are staged in the ordered buffer.
  - `consolidate` filters the live particles of the store and of the
    buffer's chunks into the store, which stays sorted by id.
  - `get_particle` is a binary search over the store.
  - `step` advances the clock and runs an explicit Euler integration
    between the two user callbacks.
  - The k-d tree over the positions is built lazily and cached.
- **The application workers** (`application.dfy`, `pipeline.dfy`).
  - Each loop body is a transition function: the main process, the particle
    simulation worker, the GUI worker and the process wrapper.
  - The message table and the inter-process callbacks are modelled too.
  - `pipeline.dfy` composes the simulation worker and the GUI worker over
    their two pipes, in any interleaving. It proves the flow control holds:
    - at most one update request is outstanding;
    - one update is sent per request;
    - the k-th update carries the time k steps in;
    - so, for a positive time step, the GUI's assertion on the update's
      time never fails.

`wrappers.dfy` holds `Option` and `Result`; an `Error` value stands for each
exception the source raises. `seqs.dfy` holds sequence helpers.

Coordinates, masses and times are `real`. Raised exceptions are `Failure`
results. Where the source would loop forever, the result is
`Failure(Diverges)`.

## Model

| member | source | states |
|---|---|---|
| DynamicArray.New | hienoi/_dynamicarray.py:27-40 | a new array is valid, holds no element and has exactly the requested capacity |
| DynamicArray.GrowthTarget | hienoi/_dynamicarray.py:60-62 | the capacity chosen on reallocation is the largest of the request, floor(1.5 × capacity) and 4, so it always covers the request |
| DynamicArray.Grow | hienoi/_dynamicarray.py:55-69 | a request within the capacity changes nothing at all; otherwise the new capacity is the growth target and strictly larger, the data survive when copying, and the size drops to 0 when not |
| DynamicArray.Resize | hienoi/_dynamicarray.py:71-74 | the size becomes exactly the request, the capacity never shrinks, and the common prefix of old and new data survives when copying or when no reallocation happens |
| DynamicArray.Append | hienoi/_dynamicarray.py:76-83 | the data become the old data followed by the element, the element is handed back, and the capacity is kept while there is room |
| DynamicArray.Extend | hienoi/_dynamicarray.py:85-92 | the data become the old data followed by the new elements in order, and the slice handed back is exactly the inserted data |
| DynamicArray.Clear | hienoi/_dynamicarray.py:94-96 | no data remain and the allocation is kept |
| DynamicArray.CopyFrom | hienoi/_dynamicarray.py:46-53 | the size becomes the length of the source, and each element is the corresponding source record projected onto this array's fields |
| DynamicArray.ExtendIsRepeatedAppend | hienoi/_dynamicarray.py:76-92 | one extend stores the same data as one append per element, namely the old data followed by the new ones |
| DynamicArray.AppendAllKeepsSufficientCapacity | hienoi/_dynamicarray.py:55-58 | once the capacity covers the final size, no append in a series reallocates |
| OrderedBuffer.New | hienoi/_orderedbuffer.py:31-41 | construction fails exactly when the bucket capacity is below 1; a new buffer is valid, empty and has no chunks |
| OrderedBuffer.Push | hienoi/_orderedbuffer.py:94-111 | the handed-back slice reads back the pushed data and the length grows by its size; a fitting push is written at the current slot and moves to the next bucket exactly when the bucket fills; a push that does not fit becomes a bunch at an unchanged position; no earlier slot or bunch is overwritten |
| OrderedBuffer.Append | hienoi/_orderedbuffer.py:77-79 | the handed-back slice reads back the one element and the length grows by 1 |
| OrderedBuffer.Extend | hienoi/_orderedbuffer.py:81-87 | an empty extend hands back nothing and leaves the buffer as it was; any other extend hands back a slice that reads back the data, and the length grows by their count |
| OrderedBuffer.Clear | hienoi/_orderedbuffer.py:89-92 | the length drops to 0 and there are no chunks, while the allocated buckets are kept for reuse |
| OrderedBuffer.PushKeepsWrittenSlices | hienoi/_orderedbuffer.py:97-109 | a slice handed out since the last clear still reads the same contents after any later push |
| OrderedBuffer.PushAppendsToContents | hienoi/_orderedbuffer.py:47-67 | after a push, the concatenated chunks are the previous ones followed by the pushed data |
| OrderedBuffer.ChunksAreInsertionOrder | hienoi/_orderedbuffer.py:43-67 | `Chunks`, which interleaves bucket slices and bunches: after any series of pushes, the concatenated chunks are the earlier contents followed by every pushed element in push order, and the length counts them |
| OrderedBuffer.ChunksMatchLength | hienoi/_orderedbuffer.py:43-67 | the length formula counts exactly the elements the chunks hold, and no chunk is empty |
| Geometry.DistanceBounds | hienoi/_kdtree.py:275-284 | for `NearDist` and `FarDist`, the per-axis gap sums: for any point inside a box, the near distance to the box is at most its squared distance and the far distance at least |
| Geometry.NearDistInside | hienoi/_kdtree.py:275-278 | a point inside a box is at near distance 0 from it |
| Geometry.BoundsOf | hienoi/_kdtree.py:94-96 | the box is the tightest one around the points: each side is attained by some point and holds every point |
| KDTree.Partition | hienoi/_kdtree.py:103-114 | the split sends coordinates at or below the middle left and those above right, and together the two sides are a permutation of the node's indices |
| KDTree.Build | hienoi/_kdtree.py:81-128 | a built tree's boxes hold their points, and every leaf holds at most a bucket of points; the leaves' indices are a permutation of the input, and the root box is the input's bounding box; only a node over more than a bucket of points can fail |
| KDTree.BuildSucceedsIff | hienoi/_kdtree.py:97-114 | the build finishes exactly when no location holds more than a bucket of the points; otherwise the split sends every point to one side and never ends |
| KDTree.New | hienoi/_kdtree.py:40-61 | a bucket size below 1 raises the source's ValueError and empty data fail; a constructed tree is valid over exactly the given data, with leaves partitioning the indices 0..n-1 |
| KDTree.NewSucceedsIff | hienoi/_kdtree.py:40-61 | with a usable bucket size and some data, construction finishes exactly when few enough points coincide |
| KDTree.BuildShaped | hienoi/_kdtree.py:89-114 | in a built tree every node's box is the bounding box of exactly its own points; a node is split only when it holds more than a bucket of points; its left points lie at or below the middle of the box's longest side (first on ties) and its right points above |
| KDTree.NewShaped | hienoi/_kdtree.py:81-114 | a constructed tree is shaped that way from the root down, and the root box is the bounding box of all the data |
| KDTree.Layout | hienoi/_kdtree.py:116-128 | in the pre-order layout each size counts the subtree; a node is a leaf exactly when its size is 1; the children sit at i + 1 and i + 1 + size[i + 1]; the buckets concatenate to the tree's indices |
| KDTreeSearch.AllWithinIsFilter | hienoi/_kdtree.py:192-266 | `AllWithin`, the pruned traversal, finds the same neighbours, with the same multiplicities, as filtering every point under the node for squared distance within the radius (boundary included) |
| KDTreeSearch.FilterPermutation | hienoi/_kdtree.py:261-266 | filtering two permutations of the same indices gives permutations of the same neighbours |
| KDTreeSearch.KNearestCorrect | hienoi/_kdtree.py:130-190 | the k-nearest search (`Nearest` offering each leaf's points to the bounded heap with `Offer`) returns distinct points strictly within the radius with their true squared distances, min(count, number of such points) of them, and no point left out is strictly nearer than one returned |
| KDTreeSearch.Sort | hienoi/_kdtree.py:186-188 | the sorted output is ascending by squared distance (index breaking ties) and a permutation of the input |
| KDTreeSearch.SortedUnique | hienoi/_kdtree.py:268-270 | two sorted permutations of the same neighbours are equal, so the sorted answer is fully determined |
| KDTreeSearch.Search | hienoi/_kdtree.py:63-79 | a count below 1 or a negative radius gives nothing, and a sorted search gives an ascending answer |
| KDTreeSearch.SearchAllWithin | hienoi/_kdtree.py:63-79 | with no count, or a count of at least the number of points, the search returns exactly the brute-force neighbours within the radius; sorted, it is the sorted brute-force answer |
| KDTreeSearch.SearchNearest | hienoi/_kdtree.py:76-79 | with fewer points asked for than stored, the answer is the k-nearest result, and no point left out is strictly nearer than one returned |
| KDTreeRanking.RankedFacts | hienoi/_kdtree.py:192-270 | without ties, the sorted brute-force answer carries true squared distances, strictly increases, has distinct indices and holds exactly the points within the radius |
| KDTreeRanking.NearestIsRankedPrefix | hienoi/_kdtree.py:130-190 | without ties and with no point on the radius, the sorted k-nearest answer is the first count entries of the sorted brute-force answer, or all of it when that is shorter |
| KDTreeRanking.EverySearchIsRanked | hienoi/_kdtree.py:76-79 | a sorted search asking for at least as many points as are stored returns the sorted brute-force answer |
| KDTreeRanking.SearchIsRankedPrefix | hienoi/_kdtree.py:63-79 | without ties and with no point on the radius, a sorted search for count points returns the first count entries of the sorted brute-force answer, whichever search path the count selects |
| KDTreeFixture.PointsBuild | tests/test__kdtree.py:54 | a tree over the suite's five points builds for every bucket size of at least 1, because no two of the points coincide |
| KDTreeFixture.FarQuery | tests/test__kdtree.py:28-31 | a sorted search from (2.0, 4.0) without a radius, for any count, returns the first count of indices 0, 4, 3, 1, 2 with squared distances 7.06, 14.5, 16.4, 32.0, 43.38 |
| KDTreeFixture.LowQuery | tests/test__kdtree.py:33-36 | a sorted search from (0.6, -0.7) without a radius, for any count, returns the first count of indices 1, 4, 2, 0, 3 with squared distances 1.17, 1.45, 4.61, 5.09, 10.25 |
| KDTreeFixture.NearQuery | tests/test__kdtree.py:38-51 | a sorted search from (-0.2, 0.4) for all points returns index 4 (0.5) within radius 1.0, indices 4, 0, 3 (0.5, 2.9, 3.4) within radius 2.0, and indices 4, 0, 3, 2, 1 (adding 5.62, 5.96) within radius 3.0 |
| KDTreeFixture.SearchSuite | tests/test__kdtree.py:17-57 | for every bucket size from 1 and every count from 0 to 5, the tree is built and all five searches of the suite give the listed indices and squared distances |
| Dynamics.New | hienoi/dynamics.py:168-198 | a negative initial capacity or a bucket capacity below 1 fails; otherwise the simulation is valid and empty at time 0 with last id −1 and the requested capacities |
| Dynamics.Initialize | hienoi/dynamics.py:199-202 | with an initialising callback the new simulation is consolidated, so nothing is left pending; without one it is the plain new simulation |
| Dynamics.AddParticle | hienoi/dynamics.py:220-240 | the particle gets id last id + 1, whatever id the caller gave; it is staged after all earlier particles but not yet stored; its handle reads it back; the last id advances by 1 |
| Dynamics.AddParticles | hienoi/dynamics.py:242-261 | a negative count fails and a count of 0 fails on the last-id lookup; otherwise count default particles get the next consecutive ids, are staged after all earlier particles, and each handle reads its particle |
| Dynamics.Modify | hienoi/dynamics.py:116-125 | the corrected write (see "## Findings"; `ModifyAsWritten` is the source's): a write through a live handle replaces the particle, except its read-only id, and keeps every id in place; every other stored and pending particle is left as it was (a store write changes only that slot of the stored list and none of the pending list, a buffer write leaves the stored list alone); a valid simulation stays valid, so a cached tree never outlives the positions it was built from; a dangling handle changes nothing |
| Dynamics.ModifyAsWritten | hienoi/dynamics.py:54-57 | the write as the source performs it, in place: the same records as the corrected write, with the cached tree kept |
| Dynamics.Consolidate | hienoi/dynamics.py:312-355 | the store becomes the live particles of the store followed by those of the buffer, in order and sorted by id; the buffer empties and the tree is dropped; with nothing pending and nothing dead the simulation is left as it was |
| Dynamics.GetParticle | hienoi/dynamics.py:263-282 | the lookup succeeds exactly when a stored particle has the id, and then returns its position in the store; otherwise it raises ValueError, including for an id still pending in the buffer (the source's conversion of ids outside the 32-bit range is not modelled, see "## Left out") |
| Dynamics.PendingNotFound | hienoi/dynamics.py:276-282 | a particle still waiting in the buffer cannot be looked up by id |
| Dynamics.TreeFor | hienoi/dynamics.py:286-287 | a cached tree is used as it is; otherwise a tree is built over the stored positions with the default bucket size, which fails on an empty store |
| Dynamics.GetNeighbours | hienoi/dynamics.py:284-291 | a query caches a tree and changes nothing else; with no tree and no stored particle it fails; with a cached tree it always answers |
| Dynamics.GetNeighboursCacheTransparent | hienoi/dynamics.py:286-289 | on a valid simulation, answering with the cached tree gives the same result as building the tree afresh |
| Dynamics.SoleParticleQuery | hienoi/dynamics.py:286-289 | with one stored particle a query always answers, because a tree over one point always builds |
| Dynamics.GetNeighboursAllWithin | hienoi/dynamics.py:284-291 | asking for every particle within a radius returns exactly the brute-force answer over the current positions, sorted when asked |
| Dynamics.GetNeighboursNearest | hienoi/dynamics.py:284-291 | asking for fewer particles than stored returns particles strictly within the radius with their squared distances, none farther than a particle left out |
| Dynamics.Apply | hienoi/dynamics.py:220-291 | one call a callback makes (adding one or many particles, writing through a handle, consolidating, querying neighbours) keeps the simulation sound, and valid when it was, and leaves the clock and the template alone |
| Dynamics.ApplyAll | hienoi/dynamics.py:300-301 | a callback's calls run in order and the first failure aborts the rest; the simulation stays sound, valid when it was, and its clock is untouched |
| Dynamics.RunCallback | hienoi/dynamics.py:300-302 | with no callback the simulation is left as it is; otherwise the callback's calls run and consolidation follows, so nothing is left pending |
| Dynamics.Integrate | hienoi/dynamics.py:358-363 | an Euler step changes only the velocity and position and clears the force |
| Dynamics.EulerStep | hienoi/dynamics.py:358-363 | mass times the velocity change is the force times the step, and the displacement is the new velocity times the step |
| Dynamics.Inertia | hienoi/dynamics.py:358-363 | with no force, the velocity is kept and the particle drifts by velocity times step |
| Dynamics.TwoSteps | hienoi/dynamics.py:293-310 | from rest under a unit force, two half-unit steps give velocity 0.5 and then positions 0.25 and 0.5 |
| Dynamics.Solve | hienoi/dynamics.py:304-306 | the corrected solve (see "## Findings"; `SolveAsWritten` is the source's): every stored particle is integrated and its force cleared, the buffered particles are untouched, and the cached tree is discarded |
| Dynamics.Step | hienoi/dynamics.py:293-310 | the corrected step (see "## Findings"; `StepAsWritten` is the source's): the clock advances by one time step and the simulation stays valid, including a cached tree that matches the positions; with no callbacks, each stored particle is integrated and nothing else changes |
| Dynamics.StepAsWritten | hienoi/dynamics.py:293-310 | the step as written keeps a cached tree while the positions it was built from move |
| Dynamics.StaleTreeMissesMovedParticle | hienoi/dynamics.py:286-310 | after the step as written, a query at the particle's new position finds nothing, while the brute-force answer is the particle itself |
| Dynamics.FreshTreeFindsMovedParticle | hienoi/dynamics.py:286-310 | with the corrected step the same query answers, and finds the particle at distance 0 |
| Dynamics.StaleTreeMissesWrittenParticle | hienoi/dynamics.py:284-291 | after a query cached the tree, writing the particle's position to (10, 0) in place and querying there with radius 1 finds nothing, while the brute-force answer is the particle itself |
| Dynamics.WrittenParticleFound | hienoi/dynamics.py:284-291 | with the corrected write the same query answers, and finds the particle at distance 0 |
| Application.MessageTable | hienoi/application.py:186-232 | every message kind has a structure, the codes run from 0 to the last one, and two messages share a code exactly when they are of the same kind |
| Application.MainLoop | hienoi/application.py:396-404 | the loop returns exactly once an error or quit arrives, with FAILURE exactly when the first such message is an error |
| Application.MainProcess | hienoi/application.py:394-411 | on return the status is FAILURE exactly when an error came before any quit, and one stop message goes out per worker process |
| Application.ProcessWrapper | hienoi/application.py:577-594 | a worker that raises sends exactly one error message, carrying its id, name and the traceback text with trailing white space removed; one that returns sends none |
| Application.RStrip | hienoi/application.py:592 | the result is the longest prefix not ending in white space, and only white space was removed |
| Application.WorkerErrorFailsMain | hienoi/application.py:394-411 | an error from a wrapped worker that arrives before any other error or quit makes the main process return FAILURE |
| Application.RunCallbackListConcat | hienoi/application.py:602-607 | running a list of callbacks runs them in order, stopping at the first failure |
| Application.CountRequestsConcat | hienoi/application.py:459-462 | request counts add up over concatenated message lists, and are positive exactly when a request is present |
| Application.DrainSpec | hienoi/application.py:523-530 | `Drain`, reading the GUI's messages, sets the send flag exactly when one was set or a request arrived, and the last callbacks message wins |
| Application.Advance | hienoi/application.py:532-539 | the pending callbacks run in order, then consolidation, then the step; a failure anywhere is the result; on success the clock has advanced one step and the simulation is valid |
| Application.Publish | hienoi/application.py:541-550 | the update carries the simulation's time and the rendering attributes of every stored particle, in order; only the staging array changes |
| Application.SimIteration | hienoi/application.py:505-552 | a stop ends the loop; a worker due to step runs the last callbacks once and steps, its simulation becoming exactly what `Advance` gives, and then clears them; a worker not due keeps its simulation; an update goes out exactly when one was asked for, carries the simulation's time and its particles' rendering attributes, and makes the worker due to step |
| Application.IsSceneStateComplete | hienoi/application.py:597-599 | a partial state is complete exactly when it has both a time and particles |
| Application.SceneStateOf | hienoi/renderer.py:315-319 | a complete, well-formed partial state converts into a scene state whose fields are exactly the partial state's |
| Application.GuiStart | hienoi/application.py:424-434 | the GUI starts on the initial state at time 0, assembling the state one time step later, with a request armed |
| Application.Fetch | hienoi/application.py:459-473 | while no next state is ready, a request goes out exactly when one is armed, and the flag is disarmed; the update read is added only while particles are missing; the assertion fails exactly when the update's time does not match the state under assembly |
| Application.NonPositiveStepFailsFirstUpdate | hienoi/application.py:429-470 | with a time step of 0 or less, the first simulation update fails the GUI's time assertion even when it carries exactly the time step as its time, since the bound `time_step * 0.1` is then not positive |
| Application.Complete | hienoi/application.py:475-477 | a complete partial state becomes the next state and re-arms the request; an incomplete one changes nothing |
| Application.Show | hienoi/application.py:479-485 | when due with a next state ready, that state is shown and assembly starts one time step after it; otherwise nothing changes |
| Application.GuiIteration | hienoi/application.py:414-502 | a stop ends the loop and closing the window also sends quit; otherwise the callbacks go first, then at most one request; the iteration fails exactly when the time check of the update read fails |
| Pipeline.SimTurnKeepsInv | hienoi/application.py:505-552 | a simulation iteration, whatever the GUI's messages have reached it, keeps the flow-control invariant |
| Pipeline.GuiTurnKeepsInv | hienoi/application.py:441-498 | a GUI iteration never fails its time assertion, and it keeps the flow-control invariant |
| Pipeline.Run | hienoi/application.py:441-550 | any interleaving of the two workers' iterations, with any delivery delays, keeps the flow-control invariant |
| Pipeline.FlowControl | hienoi/application.py:459-550 | from the start, the simulation has sent no more updates than it was asked for and at most one fewer, and the j-th update carries the time j steps in |

## Left out

- Processes, queues and pipes. Each worker's loop body is a transition
  function. The pipes are in-order message sequences delivered after an
  arbitrary delay, and the scheduler is any sequence of turns. Blocking,
  closing, flushing and joining are not modelled.
- Serialisation. `_send_buffer`, `_receive_buffer`, `_array_to_buffer`,
  `_buffer_to_array` and `DynamicArray.from_buffer` pack numpy bytes. A
  simulation update is delivered as the message paired with the rendered
  particles.
- Clocks, rendering, snapshot capture, profiling and logging. The GUI's
  frame accumulator becomes a `due` input to each iteration.
- Floating point. Coordinates, masses, times and distances are `real`.
  NaN and infinity are not modelled: an absent radius is an unbounded
  limit.
- The numpy structured dtypes and element views. A particle is a plain
  record, and `extras` stands for user-declared attributes. A reference to
  a particle is an index into the store or a position in the buffer.
- User callbacks. A callback is a script of calls to the simulation's
  public operations: adding particles, writing through a handle,
  consolidating and querying neighbours. The script is decided from the
  simulation the callback is given. A query caches the tree as
  `get_neighbour_particles` does, but its answer cannot steer the later
  calls of the same callback. Arbitrary Python code is not modelled.
- Dynamics.Step and Dynamics.Modify are the corrected step and write of
  "## Findings". `Application.Advance`, and every application and
  pipeline theorem above it, use these corrected versions.
  `Dynamics.StepAsWritten` and `Dynamics.ModifyAsWritten` model the
  source and serve only to exhibit the findings.
- Pipeline.Run: quit and stop messages are not part of the composed
  model, because they only end the loops. A worker iteration that raises
  ends the run.
- Dynamics.Integrate: a particle of mass 0 keeps its velocity, where numpy
  would produce infinity or NaN.
- Dynamics.AddParticle: ids are unbounded integers. The source's 32-bit id
  field would wrap after 2^31 particles.
- Dynamics.GetParticle: the error text is fixed. The source formats the
  requested id into the message. The requested id is an unbounded
  integer. The source first converts it to the id field's 32-bit signed
  type. Depending on the numpy version, an id outside that range is
  wrapped (so 2^32 finds id 0) or raises OverflowError. Neither is
  modelled: such an id is looked up as it is, among ids that are
  themselves unbounded (see Dynamics.AddParticle).
- Application.ProcessWrapper: the traceback text is a parameter. The
  `traceback` module formats the call stack, which the model does not
  have. Only the stripping of trailing white space is modelled.
- KDTreeSearch.KNearestCorrect: which of several equally distant points
  the bounded heap keeps is not fixed. The contract states what holds for
  any choice.
- KDTreeSearch.Search: with `sort` false, the k-nearest answer is given
  in the order the points were kept. The source returns the binary-heap
  layout that `heapq` leaves, which is not modelled. Only the contents
  and the sorted order are stated.
- KDTreeSearch.AllWithin and KDTreeSearch.Nearest are written as
  recursive traversals in the same child order as the source's explicit
  stack.
- The all-within search fills its distances in a separate NaN-marked
  pass. The model computes each distance where the point is found, which
  gives the same result.
- KDTreeFixture: the first k-d tree test suite is worked out on exact
  reals, where the source stores float32 coordinates and compares rounded
  squared distances. The second suite is not worked out.
- KDTreeRanking.SearchIsRankedPrefix: requires that no two points tie and
  that none lies exactly on the radius. There the k-nearest path (strict
  radius, either of two tied points) and the every-point path (inclusive
  radius) can give different answers, which `KDTreeSearch.KNearestCorrect`
  and `KDTreeSearch.SearchAllWithin` describe separately.
- `Dynamics.ConsolidateIdempotent` and `Pipeline.FlowControl` follow
  directly from the contracts of `Dynamics.Consolidate` and
  `Pipeline.Run`, where their proofs are. `Application.MessageTable`
  follows from the definitions of the message table (`StructFields`,
  `TypeOf`, `FieldsOf`); it is the check the source itself makes at
  application.py:232. `Application.UnsetArgumentsAreEmpty` and
  `KDTreeRanking.FewerSearchIsNearest` follow from the definitions of
  `Application.RunCallbackList` and `KDTreeSearch.Search`. They are
  helpers and state nothing of their own.
- Pipeline.FlowControl: requires a positive time step. The source does
  not check the configured time step. With a time step of 0 or less the
  GUI's time assertion fails on the first update, even one carrying
  exactly the expected time, because a non-negative difference is never
  below a non-positive bound. `Application.NonPositiveStepFailsFirstUpdate`
  states this.
- The renderer, the GUI, the vector classes, the numeric lookup tables,
  the demos, the benchmarks and `setup.py` are not part of this model.

## Findings

| source | as written | input that shows it | evidently intended | confidence | as-written member | corrected member |
|---|---|---|---|---|---|---|
| hienoi/dynamics.py:293-310 | `step` moves every particle but never drops the cached k-d tree. Only a `consolidate` that has work to do resets it (lines 338-355), so a later `get_neighbour_particles` prunes with boxes built from the old positions | one particle at (0, 0) with velocity (10, 0), time step 1. Query once, so the tree is cached, then step. A query at (10, 0) with radius 1 returns nothing; the particle is there at distance 0 | the step discards the cached tree once positions change, as `consolidate` does | not executed | Dynamics.StaleTreeMissesMovedParticle | Dynamics.FreshTreeFindsMovedParticle |
| hienoi/dynamics.py:54-57 | the class promises that a write to a particle takes effect at once. The write goes into the stored record in place, but nothing drops the cached k-d tree (lines 286-287), whose boxes keep the old positions | one particle at (0, 0). Query once, so the tree is cached, then write its position to (10, 0). A query at (10, 0) with radius 1 returns nothing; the particle is there at distance 0 | a write that moves a stored particle discards the cached tree, as `consolidate` does | not executed | Dynamics.StaleTreeMissesWrittenParticle | Dynamics.WrittenParticleFound |

=== FILE: application.dfy ===
/** The application's processes and the messages between them: the main
    process that waits for an error or a quit request and then stops the
    workers, the wrapper that reports a worker's exception upwards, the
    particle simulation worker that steps on demand, and the GUI worker
    that asks for one simulation update at a time.

    Processes, queues and pipes are not modelled as such: each worker is
    a state and a function computing one iteration of its loop from the
    messages it finds waiting, returning the messages it sends. */
module Application {
  import opened Wrappers
  import DA = DynamicArray
  import D = Dynamics

  // ---------------------------------------------------------------------
  // Return status

  const SUCCESS: int := 0
  const FAILURE: int := 1

  // ---------------------------------------------------------------------
  // Messages

  const MESSAGE_ERROR: int := 0
  const MESSAGE_STOP: int := 1
  const MESSAGE_QUIT: int := 2
  const MESSAGE_REQUEST_SIM_UPDATE: int := 3
  const MESSAGE_SIM_UPDATE: int := 4
  const MESSAGE_RUN_CALLBACKS: int := 5
  const MESSAGE_LAST: int := MESSAGE_RUN_CALLBACKS

  type Args = seq<real>
  type Kwargs = map<string, real>

  /** An inter-process callback: a function of the simulation and of the
      extra arguments, each of which may be left unset. */
  datatype InterCallback = InterCallback(
    fn: (D.Sim, Args, Kwargs) -> seq<D.Action>,
    args: Option<Args> := None,
    kwargs: Option<Kwargs> := None)

  datatype Message =
    | ErrorMessage(processId: int, processName: string, text: string)
    | Stop
    | Quit
    | RequestSimUpdate
    | SimUpdate(time: real)
    | RunCallbacks(callbacks: seq<InterCallback>)

  /** The `type` field every message carries. */
  function TypeOf(m: Message): int {
    match m
    case ErrorMessage(_, _, _) => MESSAGE_ERROR
    case Stop => MESSAGE_STOP
    case Quit => MESSAGE_QUIT
    case RequestSimUpdate => MESSAGE_REQUEST_SIM_UPDATE
    case SimUpdate(_) => MESSAGE_SIM_UPDATE
    case RunCallbacks(_) => MESSAGE_RUN_CALLBACKS
  }

  /** The record each message type is built with, as its field names after
      `type`; no record for a code outside the enumeration. */
  function StructFields(code: int): Option<seq<string>> {
    if code == MESSAGE_ERROR then Some(["process_id", "process_name", "message"])
    else if code == MESSAGE_STOP || code == MESSAGE_QUIT || code == MESSAGE_REQUEST_SIM_UPDATE then Some([])
    else if code == MESSAGE_SIM_UPDATE then Some(["time"])
    else if code == MESSAGE_RUN_CALLBACKS then Some(["callbacks"])
    else None
  }

  /** The field names a message value carries after `type`. */
  function FieldsOf(m: Message): seq<string> {
    match m
    case ErrorMessage(_, _, _) => ["process_id", "process_name", "message"]
    case SimUpdate(_) => ["time"]
    case RunCallbacks(_) => ["callbacks"]
    case _ => []
  }

  predicate SameKind(a: Message, b: Message) {
    && a.ErrorMessage? == b.ErrorMessage?
    && a.Stop? == b.Stop?
    && a.Quit? == b.Quit?
    && a.RequestSimUpdate? == b.RequestSimUpdate?
    && a.SimUpdate? == b.SimUpdate?
    && a.RunCallbacks? == b.RunCallbacks?
  }

  /** The record table covers exactly the codes 0 to the last one, every
      message is built with the record of its own code, and the code
      tells the kinds of message apart. */
  lemma MessageTable(a: Message, b: Message)
    ensures forall code :: StructFields(code).Some? <==> MESSAGE_ERROR <= code <= MESSAGE_LAST
    ensures 0 <= TypeOf(a) <= MESSAGE_LAST
    ensures StructFields(TypeOf(a)) == Some(FieldsOf(a))
    ensures TypeOf(a) == TypeOf(b) <==> SameKind(a, b)
  {
  }

  // ---------------------------------------------------------------------
  // The main process

  /** A message that ends the main process's wait. */
  predicate Ends(m: Message) {
    m.ErrorMessage? || m.Quit?
  }

  /** The blocking receive loop: the status it returns once an error or a
      quit request arrives, or None while it is still waiting. */
  function MainLoop(inbox: seq<Message>): (r: Option<int>)
    ensures r.Some? <==> exists i :: 0 <= i < |inbox| && Ends(inbox[i])
    ensures r.Some? ==> r.value == SUCCESS || r.value == FAILURE
    ensures r == Some(FAILURE) <==>
      exists i :: 0 <= i < |inbox| && inbox[i].ErrorMessage? && forall j :: 0 <= j < i ==> !Ends(inbox[j])
    decreases |inbox|
  {
    if |inbox| == 0 then None
    else if inbox[0].ErrorMessage? then Some(FAILURE)
    else if inbox[0].Quit? then Some(SUCCESS)
    else
      var r := MainLoop(inbox[1..]);
      assert forall i :: 1 <= i < |inbox| ==> inbox[i] == inbox[1..][i - 1];
      r
  }

  datatype MainOutcome =
    | Returned(status: int, downwards: seq<Message>)
    | Waiting

  /** The main process: it returns once an error or a quit request
      arrives, failing on an error, and on the way out sends one stop
      message per worker process. */
  function MainProcess(inbox: seq<Message>, processCount: nat): (r: MainOutcome)
    ensures r.Returned? <==> exists i :: 0 <= i < |inbox| && Ends(inbox[i])
    ensures r.Returned? ==>
      && (r.status == SUCCESS || r.status == FAILURE)
      && |r.downwards| == processCount
      && forall i :: 0 <= i < |r.downwards| ==> r.downwards[i].Stop?
    ensures r.Returned? ==>
      (r.status == FAILURE <==>
         exists i :: 0 <= i < |inbox| && inbox[i].ErrorMessage? && forall j :: 0 <= j < i ==> !Ends(inbox[j]))
  {
    match MainLoop(inbox)
    case None => Waiting
    case Some(status) => Returned(status, seq(processCount, _ => Stop))
  }

  // ---------------------------------------------------------------------
  // The process wrapper

  /** The characters `str.isspace` accepts. */
  predicate IsSpace(c: char) {
    var n := c as int;
    || 9 <= n <= 13 || 28 <= n <= 32 || n == 0x85 || n == 0xA0 || n == 0x1680
    || 0x2000 <= n <= 0x200A || n == 0x2028 || n == 0x2029 || n == 0x202F
    || n == 0x205F || n == 0x3000
  }

  /** `str.rstrip()`: the longest prefix not ending in whitespace, such
      that only whitespace was removed. */
  function RStrip(s: string): (r: string)
    ensures |r| <= |s| && r == s[..|r|]
    ensures |r| == 0 || !IsSpace(r[|r| - 1])
    ensures forall i :: |r| <= i < |s| ==> IsSpace(s[i])
    decreases |s|
  {
    if |s| > 0 && IsSpace(s[|s| - 1]) then RStrip(s[..|s| - 1]) else s
  }

  /** What a wrapped process sends upwards: nothing when it returns (or
      never returns), one error message with the stripped traceback text
      when it raises. The traceback is the text the `traceback` module
      formats for the exception raised, which depends on the call stack
      the model does not have; it is passed in. */
  function ProcessWrapper<T>(outcome: Result<T>, processId: int, processName: string, traceback: string)
    : (sent: seq<Message>)
    ensures |sent| <= 1
    ensures |sent| == 1 <==> outcome.Failure? && !outcome.error.Diverges?
    ensures |sent| == 1 ==>
      && sent[0].ErrorMessage?
      && sent[0].processId == processId && sent[0].processName == processName
      && sent[0].text == RStrip(traceback)
      && (|sent[0].text| == 0 || !IsSpace(sent[0].text[|sent[0].text| - 1]))
  {
    if outcome.Success? || outcome.error.Diverges? then []
    else Report(processId, processName, traceback)
  }

  function Report(processId: int, processName: string, traceback: string): (sent: seq<Message>)
    ensures |sent| == 1 && sent[0] == ErrorMessage(processId, processName, RStrip(traceback))
  {
    [ErrorMessage(processId, processName, RStrip(traceback))]
  }

  /** A worker's exception makes the main process fail, unless an error
      or a quit request reached it first. */
  lemma {:induction false} WorkerErrorFailsMain<T>(
    before: seq<Message>, outcome: Result<T>, processId: int, processName: string, traceback: string, processCount: nat)
    requires outcome.Failure? && !outcome.error.Diverges?
    requires forall i :: 0 <= i < |before| ==> !Ends(before[i])
    ensures MainProcess(before + ProcessWrapper(outcome, processId, processName, traceback), processCount).Returned?
    ensures MainProcess(before + ProcessWrapper(outcome, processId, processName, traceback), processCount).status == FAILURE
  {
    var inbox := before + ProcessWrapper(outcome, processId, processName, traceback);
    assert inbox[|before|].ErrorMessage?;
    assert forall j :: 0 <= j < |before| ==> inbox[j] == before[j];
  }

  // ---------------------------------------------------------------------
  // Running inter-process callbacks

  /** Call each callback in order with the simulation and its arguments,
      unset arguments standing for none; the first failing call aborts. */
  function RunCallbackList(s: D.Sim, callbacks: seq<InterCallback>): (r: Result<D.Sim>)
    requires D.Sound(s)
    ensures r.Success? ==> D.Sound(r.value)
    ensures r.Success? && D.Valid(s) ==> D.Valid(r.value)
    ensures r.Success? ==> r.value.time == s.time && r.value.timeStep == s.timeStep
    decreases |callbacks|
  {
    if |callbacks| == 0 then Success(s)
    else
      var c := callbacks[0];
      var s' :- D.ApplyAll(s, c.fn(s, c.args.GetOr([]), c.kwargs.GetOr(map[])));
      RunCallbackList(s', callbacks[1..])
  }

  /** Running a list of callbacks is running its first part and then,
      unless that failed, the rest. */
  lemma {:induction false} RunCallbackListConcat(s: D.Sim, a: seq<InterCallback>, b: seq<InterCallback>)
    requires D.Sound(s)
    ensures RunCallbackList(s, a + b) ==
      match RunCallbackList(s, a)
      case Failure(e) => Failure(e)
      case Success(s') => RunCallbackList(s', b)
    decreases |a|
  {
    if |a| == 0 {
      assert a + b == b;
    } else {
      assert (a + b)[0] == a[0];
      assert (a + b)[1..] == a[1..] + b;
      var c := a[0];
      match D.ApplyAll(s, c.fn(s, c.args.GetOr([]), c.kwargs.GetOr(map[])))
      case Failure(_) =>
      case Success(s') => RunCallbackListConcat(s', a[1..], b);
    }
  }

  /** An unset argument list or keyword map is an empty one. */
  lemma UnsetArgumentsAreEmpty(s: D.Sim, c: InterCallback)
    requires D.Sound(s)
    ensures RunCallbackList(s, [c]) == RunCallbackList(s, [c.(args := Some(c.args.GetOr([])), kwargs := Some(c.kwargs.GetOr(map[])))])
  {
  }

  // ---------------------------------------------------------------------
  // The particle simulation worker

  /** The rendering attributes of a particle, the part sent to the GUI. */
  datatype RenderParticle = RenderParticle(position: D.Vec2, size: real, color: D.Color)

  function Render(p: D.Particle): RenderParticle {
    RenderParticle(p.position, p.size, p.color)
  }

  /** An update message followed by the buffer of rendering attributes,
      which the worker sends back to back. */
  datatype Delivery = Delivery(message: Message, particles: seq<RenderParticle>)

  datatype SimWorker = SimWorker(
    sim: D.Sim,
    presolve: Option<D.Callback>,
    postsolve: Option<D.Callback>,
    staging: DA.DynArray<RenderParticle>,
    callbacks: Option<seq<InterCallback>>,
    step: bool,
    send: bool)

  predicate SimWorkerValid(w: SimWorker) {
    D.Valid(w.sim) && w.staging.Valid()
  }

  /** The worker as its loop starts: it steps before its first update,
      since the GUI already holds the initial state. */
  function SimWorkerStart(sim: D.Sim, presolve: Option<D.Callback>, postsolve: Option<D.Callback>, blank: RenderParticle)
    : (w: SimWorker)
    requires D.Valid(sim)
    ensures SimWorkerValid(w) && w.sim == sim
    ensures w.step && !w.send && w.callbacks.None?
  {
    SimWorker(sim, presolve, postsolve, DA.New(0, blank), None, true, false)
  }

  /** Some waiting message asks for an update. */
  predicate HasRequest(inbox: seq<Message>) {
    exists i :: 0 <= i < |inbox| && inbox[i].RequestSimUpdate?
  }

  /** How many waiting messages ask for an update. */
  function CountRequests(ms: seq<Message>): nat
    decreases |ms|
  {
    if |ms| == 0 then 0 else (if ms[0].RequestSimUpdate? then 1 else 0) + CountRequests(ms[1..])
  }

  /** Counting distributes over concatenation and is positive exactly
      when some message asks for an update. */
  lemma {:induction false} CountRequestsConcat(a: seq<Message>, b: seq<Message>)
    ensures CountRequests(a + b) == CountRequests(a) + CountRequests(b)
    ensures CountRequests(a) > 0 <==> HasRequest(a)
    decreases |a|
  {
    if |a| == 0 {
      assert a + b == b;
    } else {
      assert (a + b)[0] == a[0];
      assert (a + b)[1..] == a[1..] + b;
      CountRequestsConcat(a[1..], b);
      assert HasRequest(a) <==> a[0].RequestSimUpdate? || HasRequest(a[1..]) by {
        if HasRequest(a[1..]) {
          var i :| 0 <= i < |a[1..]| && a[1..][i].RequestSimUpdate?;
          assert a[i + 1] == a[1..][i];
        }
        if HasRequest(a) && !a[0].RequestSimUpdate? {
          var i :| 0 <= i < |a| && a[i].RequestSimUpdate?;
          assert a[1..][i - 1] == a[i];
        }
      }
    }
  }

  /** The callbacks of the last callback message, if any. */
  function LastCallbacks(inbox: seq<Message>): Option<seq<InterCallback>>
    decreases |inbox|
  {
    if |inbox| == 0 then None
    else if inbox[|inbox| - 1].RunCallbacks? then Some(inbox[|inbox| - 1].callbacks)
    else LastCallbacks(inbox[..|inbox| - 1])
  }

  /** Read every waiting message, in order: an update request sets the
      send flag, a callback message replaces the pending callbacks. */
  function Drain(send: bool, callbacks: Option<seq<InterCallback>>, inbox: seq<Message>)
    : (r: (bool, Option<seq<InterCallback>>))
    decreases |inbox|
  {
    if |inbox| == 0 then (send, callbacks)
    else
      var m := inbox[0];
      Drain(send || m.RequestSimUpdate?, if m.RunCallbacks? then Some(m.callbacks) else callbacks, inbox[1..])
  }

  lemma {:induction false} LastCallbacksCons(m: Message, rest: seq<Message>)
    ensures LastCallbacks([m] + rest) ==
      if LastCallbacks(rest).Some? then LastCallbacks(rest)
      else if m.RunCallbacks? then Some(m.callbacks)
      else None
    decreases |rest|
  {
    var all := [m] + rest;
    if |rest| > 0 {
      assert all[..|all| - 1] == [m] + rest[..|rest| - 1];
      assert all[|all| - 1] == rest[|rest| - 1];
      LastCallbacksCons(m, rest[..|rest| - 1]);
    }
  }

  /** Draining sends exactly when a request was already pending or is
      waiting, and the last waiting callback message wins. */
  lemma {:induction false} DrainSpec(send: bool, callbacks: Option<seq<InterCallback>>, inbox: seq<Message>)
    ensures Drain(send, callbacks, inbox).0 == (send || HasRequest(inbox))
    ensures Drain(send, callbacks, inbox).1 ==
      if LastCallbacks(inbox).Some? then LastCallbacks(inbox) else callbacks
    decreases |inbox|
  {
    if |inbox| > 0 {
      var m := inbox[0];
      var rest := inbox[1..];
      assert inbox == [m] + rest;
      DrainSpec(send || m.RequestSimUpdate?, if m.RunCallbacks? then Some(m.callbacks) else callbacks, rest);
      LastCallbacksCons(m, rest);
      assert HasRequest(inbox) <==> m.RequestSimUpdate? || HasRequest(rest) by {
        if HasRequest(rest) {
          var i :| 0 <= i < |rest| && rest[i].RequestSimUpdate?;
          assert inbox[i + 1] == rest[i];
        }
        if HasRequest(inbox) && !m.RequestSimUpdate? {
          var i :| 0 <= i < |inbox| && inbox[i].RequestSimUpdate?;
          assert rest[i - 1] == inbox[i];
        }
      }
    }
  }

  /** Run the pending callbacks, if any, and consolidate, then step. */
  function Advance(sim: D.Sim, callbacks: Option<seq<InterCallback>>, presolve: Option<D.Callback>, postsolve: Option<D.Callback>)
    : (r: Result<D.Sim>)
    requires D.Valid(sim)
    ensures r.Success? ==> D.Valid(r.value)
    ensures r.Success? ==> r.value.time == sim.time + sim.timeStep && r.value.timeStep == sim.timeStep
    ensures callbacks.None? ==> r == D.Step(sim, presolve, postsolve)
    ensures callbacks.Some? ==>
      match RunCallbackList(sim, callbacks.value)
      case Failure(e) => r == Failure(e)
      case Success(s) => r == D.Step(D.Consolidate(s), presolve, postsolve)
  {
    var ready :-
      if callbacks.Some? then
        var s :- RunCallbackList(sim, callbacks.value);
        Success(D.Consolidate(s))
      else Success(sim);
    D.Step(ready, presolve, postsolve)
  }

  /** An update for `sim`: its time, then the rendering attributes of
      every particle, in order. */
  predicate IsUpdateOf(d: Delivery, sim: D.Sim)
    requires sim.store.Valid()
  {
    && d.message == SimUpdate(sim.time)
    && |d.particles| == |D.Stored(sim)|
    && forall i :: 0 <= i < |d.particles| ==> d.particles[i] == Render(D.Stored(sim)[i])
  }

  /** Copy the rendering attributes into the staging array and send them
      after the time. */
  function Publish(w: SimWorker): (r: (SimWorker, Delivery))
    requires w.staging.Valid() && w.sim.store.Valid()
    ensures r.0 == w.(staging := r.0.staging) && r.0.staging.Valid()
    ensures IsUpdateOf(r.1, w.sim)
  {
    var staging := DA.CopyFrom(w.staging, D.Stored(w.sim), Render);
    (w.(staging := staging), Delivery(SimUpdate(w.sim.time), staging.Data()))
  }

  datatype SimTurn =
    | SimStopped
    | SimRunning(worker: SimWorker, sent: seq<Delivery>)

  /** One iteration of the worker's loop, given the message from the main
      process (if any) and the messages waiting from the GUI. A stop
      message ends the loop. Otherwise the worker drains the GUI's
      messages; if it is due to step it runs the pending callbacks and
      steps; if an update was asked for it sends the time and the
      rendering attributes of the particles and becomes due to step. */
  function SimIteration(w: SimWorker, downward: Option<Message>, inbox: seq<Message>): (r: Result<SimTurn>)
    requires SimWorkerValid(w)
    ensures downward.Some? && downward.value.Stop? ==> r == Success(SimStopped)
    ensures !(downward.Some? && downward.value.Stop?) ==> r.Failure? || r.value.SimRunning?
    ensures !w.step && !(downward.Some? && downward.value.Stop?) ==> r.Success?
    ensures r.Success? && r.value.SimRunning? ==>
      var w' := r.value.worker;
      var sent := r.value.sent;
      && SimWorkerValid(w')
      && w'.sim.timeStep == w.sim.timeStep
      && w'.presolve == w.presolve && w'.postsolve == w.postsolve
      && w'.sim.time == (if w.step then w.sim.time + w.sim.timeStep else w.sim.time)
      && (w.step ==>
            var pending := if LastCallbacks(inbox).Some? then LastCallbacks(inbox) else w.callbacks;
            Advance(w.sim, pending, w.presolve, w.postsolve) == Success(w'.sim))
      && (!w.step ==> w'.sim == w.sim)
      && !w'.send
      && (w.step ==> w'.callbacks.None?)
      && (!w.step ==> w'.callbacks == if LastCallbacks(inbox).Some? then LastCallbacks(inbox) else w.callbacks)
      && |sent| <= 1
      && (|sent| == 1 <==> w.send || HasRequest(inbox))
      && w'.step == (|sent| == 1)
      && (|sent| == 1 ==> IsUpdateOf(sent[0], w'.sim))
  {
    if downward.Some? && downward.value.Stop? then Success(SimStopped)
    else
      var (send, callbacks) := Drain(w.send, w.callbacks, inbox);
      DrainSpec(w.send, w.callbacks, inbox);
      var sim :- if w.step then Advance(w.sim, callbacks, w.presolve, w.postsolve) else Success(w.sim);
      // Either it just stepped or it was not due to: no longer due either way.
      var w1 := w.(sim := sim, callbacks := if w.step then None else callbacks, step := false);
      if send then
        var (w2, update) := Publish(w1);
        Success(SimRunning(w2.(step := true, send := false), [update]))
      else
        Success(SimRunning(w1.(send := false), []))
  }

  // ---------------------------------------------------------------------
  // The GUI worker

  datatype SceneState = SceneState(time: real, particles: seq<RenderParticle>)

  /** A value of a partially assembled scene state. */
  datatype Field = TimeField(t: real) | ParticlesField(ps: seq<RenderParticle>)

  /** A scene state under assembly, keyed by field name. */
  type PartialState = map<string, Field>

  const SCENE_FIELDS: seq<string> := ["time", "particles"]

  /** Every field of a scene state is present. */
  function IsSceneStateComplete(state: PartialState): (r: bool)
    ensures r <==> "time" in state && "particles" in state
  {
    assert SCENE_FIELDS[0] == "time" && SCENE_FIELDS[1] == "particles";
    forall i :: 0 <= i < |SCENE_FIELDS| ==> SCENE_FIELDS[i] in state
  }

  /** The time is always present, the particles may be, and each field
      holds a value of its kind. */
  predicate WellFormed(state: PartialState) {
    && state.Keys <= {"time", "particles"}
    && "time" in state && state["time"].TimeField?
    && ("particles" in state ==> state["particles"].ParticlesField?)
  }

  function FieldsOfScene(s: SceneState): PartialState {
    map["time" := TimeField(s.time), "particles" := ParticlesField(s.particles)]
  }

  /** The scene state a complete partial state spells out, field for
      field. */
  function SceneStateOf(state: PartialState): (s: SceneState)
    requires WellFormed(state) && IsSceneStateComplete(state)
    ensures FieldsOfScene(s) == state
  {
    SceneState(state["time"].t, state["particles"].ps)
  }

  datatype GuiWorker = GuiWorker(
    timeStep: real,
    current: SceneState,
    partial: PartialState,
    next: Option<SceneState>,
    requestSimUpdates: bool)

  predicate GuiWorkerValid(g: GuiWorker) {
    WellFormed(g.partial)
  }

  /** The GUI as its loop starts: it shows the initial state at time 0 and
      assembles the next one, due one time step later. */
  function GuiStart(timeStep: real, initial: seq<RenderParticle>): (g: GuiWorker)
    ensures GuiWorkerValid(g) && !IsSceneStateComplete(g.partial)
    ensures g.current == SceneState(0.0, initial) && g.next.None? && g.requestSimUpdates
    ensures g.partial["time"].t == timeStep
  {
    GuiWorker(timeStep, SceneState(0.0, initial), map["time" := TimeField(timeStep)], None, true)
  }

  /** What one iteration of the GUI's loop depends on besides its state:
      whether the window was closed, the callbacks the events produced,
      what a non-blocking read of the simulation's pipe would return, and
      whether enough time has elapsed to show the next state. */
  datatype GuiInput = GuiInput(
    quit: bool,
    callbacks: seq<InterCallback>,
    incoming: Option<Delivery>,
    due: bool)

  datatype GuiTurn =
    | GuiStopped(upward: seq<Message>)
    | GuiRunning(worker: GuiWorker, toSim: seq<Message>, consumed: bool)

  function Abs(x: real): real {
    if x < 0.0 then -x else x
  }

  /** The update's time matches the state under assembly to within a
      tenth of a step. */
  predicate Matches(g: GuiWorker, time: real)
    requires GuiWorkerValid(g)
  {
    Abs(time - g.partial["time"].t) < g.timeStep * 0.1
  }

  /** While no next state is ready: ask for an update if none is asked for
      yet, and, while the particles are missing, read what the simulation
      sent. Returns the new state, the request sent and whether a message
      was read. */
  function Fetch(g: GuiWorker, incoming: Option<Delivery>): (r: Result<(GuiWorker, seq<Message>, bool)>)
    requires GuiWorkerValid(g)
    ensures r.Failure? <==>
      && g.next.None? && "particles" !in g.partial
      && incoming.Some? && incoming.value.message.SimUpdate?
      && !Matches(g, incoming.value.message.time)
    ensures r.Success? ==>
      var (g1, request, consumed) := r.value;
      && GuiWorkerValid(g1) && g1.timeStep == g.timeStep && g1.next == g.next
      && (consumed <==> g.next.None? && "particles" !in g.partial && incoming.Some?)
      && request == (if g.next.None? && g.requestSimUpdates then [RequestSimUpdate] else [])
      && g1.requestSimUpdates == (g.requestSimUpdates && g.next.Some?)
      && g1.partial ==
           if consumed && incoming.value.message.SimUpdate?
           then g.partial["particles" := ParticlesField(incoming.value.particles)]
           else g.partial
  {
    if g.next.Some? then Success((g, [], false))
    else
      var request := if g.requestSimUpdates then [RequestSimUpdate] else [];
      var g1 := g.(requestSimUpdates := false);
      if "particles" in g.partial || incoming.None? then Success((g1, request, false))
      else if !incoming.value.message.SimUpdate? then Success((g1, request, true))
      else if !Matches(g, incoming.value.message.time) then Failure(AssertionError)
      else Success((g1.(partial := g.partial["particles" := ParticlesField(incoming.value.particles)]), request, true))
  }

  /** The time check needs a positive time step: otherwise the first
      update fails it even when it carries exactly the time expected. */
  lemma NonPositiveStepFailsFirstUpdate(timeStep: real, initial: seq<RenderParticle>, particles: seq<RenderParticle>)
    requires timeStep <= 0.0
    ensures Fetch(GuiStart(timeStep, initial), Some(Delivery(SimUpdate(timeStep), particles))) == Failure(AssertionError)
  {
    var g := GuiStart(timeStep, initial);
    assert !Matches(g, timeStep);
  }

  /** A state under assembly with every field present becomes the next
      state, and another update may be asked for. */
  function Complete(g: GuiWorker): (g': GuiWorker)
    requires GuiWorkerValid(g)
    ensures GuiWorkerValid(g') && g'.timeStep == g.timeStep && g'.partial == g.partial
    ensures IsSceneStateComplete(g.partial) ==>
      g'.next == Some(SceneStateOf(g.partial)) && g'.requestSimUpdates
    ensures !IsSceneStateComplete(g.partial) ==> g' == g
  {
    if IsSceneStateComplete(g.partial) then g.(next := Some(SceneStateOf(g.partial)), requestSimUpdates := true)
    else g
  }

  /** When it is time and a next state is ready, show it and start
      assembling the one a time step after it. */
  function Show(g: GuiWorker, due: bool): (g': GuiWorker)
    requires GuiWorkerValid(g)
    ensures GuiWorkerValid(g') && g'.timeStep == g.timeStep && g'.requestSimUpdates == g.requestSimUpdates
    ensures due && g.next.Some? ==>
      && g'.current == g.next.value && g'.next.None?
      && g'.partial == map["time" := TimeField(g.next.value.time + g.timeStep)]
    ensures !(due && g.next.Some?) ==> g' == g
  {
    if due && g.next.Some? then
      g.(current := g.next.value, partial := map["time" := TimeField(g.next.value.time + g.timeStep)], next := None)
    else g
  }

  /** One iteration of the GUI's loop. A stop message from the main
      process ends it; so does closing the window, which also tells the
      main process to quit. Otherwise the callbacks the events produced go
      to the simulation, an update is asked for and read (the state under
      assembly must carry the update's time), a completed state becomes
      the next one and re-arms the request, and when it is time the next
      state is shown and assembly starts on the one after it. */
  function GuiIteration(g: GuiWorker, downward: Option<Message>, input: GuiInput): (r: Result<GuiTurn>)
    requires GuiWorkerValid(g)
    ensures downward.Some? && downward.value.Stop? ==> r == Success(GuiStopped([]))
    ensures !(downward.Some? && downward.value.Stop?) && input.quit ==>
      r.Success? && r.value.GuiStopped? && |r.value.upward| == 1 && r.value.upward[0].Quit?
    ensures !(downward.Some? && downward.value.Stop?) && !input.quit ==> r.Failure? || r.value.GuiRunning?
    ensures r.Failure? <==>
      && !(downward.Some? && downward.value.Stop?) && !input.quit
      && g.next.None? && "particles" !in g.partial
      && input.incoming.Some? && input.incoming.value.message.SimUpdate?
      && !Matches(g, input.incoming.value.message.time)
    ensures r.Success? && r.value.GuiRunning? ==>
      var g' := r.value.worker;
      var toSim := r.value.toSim;
      && GuiWorkerValid(g') && g'.timeStep == g.timeStep
      && (r.value.consumed <==> g.next.None? && "particles" !in g.partial && input.incoming.Some?)
      && |toSim| == (if |input.callbacks| > 0 then 1 else 0) + (if g.next.None? && g.requestSimUpdates then 1 else 0)
      && (|input.callbacks| > 0 ==> toSim[0] == RunCallbacks(input.callbacks))
      && (g.next.None? && g.requestSimUpdates ==> toSim[|toSim| - 1].RequestSimUpdate?)
      && (forall i :: 0 <= i < |toSim| ==> toSim[i].RunCallbacks? || toSim[i].RequestSimUpdate?)
      && CountRequests(toSim) == (if g.next.None? && g.requestSimUpdates then 1 else 0)
  {
    if downward.Some? && downward.value.Stop? then Success(GuiStopped([]))
    else if input.quit then Success(GuiStopped([Quit]))
    else
      var run := if |input.callbacks| > 0 then [RunCallbacks(input.callbacks)] else [];
      var (g1, request, consumed) :- Fetch(g, input.incoming);
      CountRequestsConcat(run, request);
      Success(GuiRunning(Show(Complete(g1), input.due), run + request, consumed))
  }
}

=== FILE: dynamic_array.dfy ===
/** A growable contiguous array in the style of `std::vector`: a backing
    store of `Capacity()` slots of which the first `size` hold the data.

    Slots that numpy allocates without initialising hold `blank`, which
    stands for the unspecified bytes of a fresh allocation; no contract
    depends on its value. */
module DynamicArray {
  import opened Seqs

  /** Growth factor 1.5, applied as floor(capacity * 3 / 2). */
  const GROW_NUMERATOR: nat := 3
  const GROW_DENOMINATOR: nat := 2

  /** ceil(1 / (1.5 - 1)) * 2: the smallest capacity a reallocation yields. */
  const MIN_CAPACITY: nat := 4

  datatype DynArray<T> = DynArray(slots: seq<T>, size: nat, blank: T)
  {
    /** The class invariant: the size never exceeds the capacity. */
    predicate Valid() {
      size <= |slots|
    }

    function Capacity(): nat {
      |slots|
    }

    /** The live prefix of the backing store (`data` in the source). */
    function Data(): seq<T>
      requires Valid()
    {
      slots[..size]
    }
  }

  /** A backing store of `n` fresh (unspecified) slots. */
  function Fresh<T>(n: nat, blank: T): (s: seq<T>)
    ensures |s| == n
  {
    seq(n, _ => blank)
  }

  /** A new, empty array of the requested capacity. */
  function New<T>(capacity: nat, blank: T): (a: DynArray<T>)
    ensures a.Valid()
    ensures a.size == 0 && a.Data() == []
    ensures a.Capacity() == capacity
  {
    DynArray(Fresh(capacity, blank), 0, blank)
  }

  /** The capacity chosen when `requested` exceeds `capacity`. */
  function GrowthTarget(capacity: nat, requested: nat): (c: nat)
    ensures c >= requested
    ensures c >= capacity * GROW_NUMERATOR / GROW_DENOMINATOR
    ensures c >= MIN_CAPACITY
    ensures c == requested || c == capacity * GROW_NUMERATOR / GROW_DENOMINATOR || c == MIN_CAPACITY
  {
    Max(requested, Max(capacity * GROW_NUMERATOR / GROW_DENOMINATOR, MIN_CAPACITY))
  }

  /** Increase the capacity if needed, keeping the data when `copy` holds
      and dropping it (size 0) otherwise. */
  function Grow<T>(a: DynArray<T>, requested: nat, copy: bool): (r: DynArray<T>)
    requires a.Valid()
    ensures r.Valid()
    ensures r.Capacity() >= requested
    ensures requested <= a.Capacity() ==> r == a
    ensures requested > a.Capacity() ==>
      && r.Capacity() == GrowthTarget(a.Capacity(), requested)
      && r.Capacity() >= a.Capacity() * GROW_NUMERATOR / GROW_DENOMINATOR
      && r.Capacity() >= MIN_CAPACITY
      && r.Capacity() > a.Capacity()
      && (copy ==> r.Data() == a.Data())
      && (!copy ==> r.size == 0)
    ensures r.Capacity() >= a.Capacity()
    ensures r.blank == a.blank
  {
    if requested <= a.Capacity() then
      a
    else
      var capacity := GrowthTarget(a.Capacity(), requested);
      var store := Fresh(capacity, a.blank);
      if copy then
        DynArray(a.Data() + store[a.size..], a.size, a.blank)
      else
        DynArray(store, 0, a.blank)
  }

  /** Set the size to exactly `requested`, growing first. */
  function Resize<T>(a: DynArray<T>, requested: nat, copy: bool): (r: DynArray<T>)
    requires a.Valid()
    ensures r.Valid()
    ensures r.size == requested
    ensures r.Capacity() >= requested && r.Capacity() >= a.Capacity()
    ensures requested <= a.Capacity() ==> r.Capacity() == a.Capacity()
    ensures copy || requested <= a.Capacity() ==>
      r.Data()[..Min(a.size, requested)] == a.Data()[..Min(a.size, requested)]
  {
    Grow(a, requested, copy).(size := requested)
  }

  /** Append one element; also returns the element as stored. */
  function Append<T>(a: DynArray<T>, x: T): (r: (DynArray<T>, T))
    requires a.Valid()
    ensures r.0.Valid()
    ensures r.0.Data() == a.Data() + [x]
    ensures r.1 == x
    ensures a.size + 1 <= a.Capacity() ==> r.0.Capacity() == a.Capacity()
  {
    var g := Grow(a, a.size + 1, true);
    (DynArray(g.slots[a.size := x], a.size + 1, g.blank), x)
  }

  /** Append several elements; also returns the stored slice. */
  function Extend<T>(a: DynArray<T>, xs: seq<T>): (r: (DynArray<T>, seq<T>))
    requires a.Valid()
    ensures r.0.Valid()
    ensures r.0.Data() == a.Data() + xs
    ensures r.1 == r.0.Data()[a.size..]
    ensures r.1 == xs
    ensures a.size + |xs| <= a.Capacity() ==> r.0.Capacity() == a.Capacity()
  {
    var g := Grow(a, a.size + |xs|, true);
    var slots := g.slots[..a.size] + xs + g.slots[a.size + |xs|..];
    var r := DynArray(slots, a.size + |xs|, g.blank);
    assert r.Data() == a.Data() + xs;
    (r, xs)
  }

  /** Drop the data, keeping the allocation. */
  function Clear<T>(a: DynArray<T>): (r: DynArray<T>)
    requires a.Valid()
    ensures r.Valid()
    ensures r.Data() == []
    ensures r.Capacity() == a.Capacity()
  {
    a.(size := 0)
  }

  /** Replace the data by a copy of `d`, each element projected onto this
      array's fields by `project`. */
  function CopyFrom<S, T>(a: DynArray<T>, d: seq<S>, project: S -> T): (r: DynArray<T>)
    requires a.Valid()
    ensures r.Valid()
    ensures |r.Data()| == |d|
    ensures forall i :: 0 <= i < |d| ==> r.Data()[i] == project(d[i])
    ensures |d| <= a.Capacity() ==> r.Capacity() == a.Capacity()
  {
    var g := Grow(a, |d|, false);
    var written := seq(|d|, i requires 0 <= i < |d| => project(d[i]));
    DynArray(written + g.slots[|d|..], |d|, g.blank)
  }

  /** Overwrite the element at `i`, as a write through the `data` view
      does. */
  function Put<T>(a: DynArray<T>, i: nat, x: T): (r: DynArray<T>)
    requires a.Valid() && i < a.size
    ensures r.Valid()
    ensures r.Data() == a.Data()[i := x]
    ensures r.Capacity() == a.Capacity() && r.size == a.size
  {
    var r := a.(slots := a.slots[i := x]);
    assert r.Data() == a.Data()[i := x];
    r
  }

  /** Transform every element in place, as a whole-array write through the
      `data` view does; the slots past the size are untouched. */
  function MapData<T>(a: DynArray<T>, f: T -> T): (r: DynArray<T>)
    requires a.Valid()
    ensures r.Valid()
    ensures |r.Data()| == |a.Data()|
    ensures forall i :: 0 <= i < |a.Data()| ==> r.Data()[i] == f(a.Data()[i])
    ensures r.Capacity() == a.Capacity()
  {
    var slots := seq(|a.slots|, i requires 0 <= i < |a.slots| => if i < a.size then f(a.slots[i]) else a.slots[i]);
    DynArray(slots, a.size, a.blank)
  }

  /** Appending the elements one by one. */
  function AppendAll<T>(a: DynArray<T>, xs: seq<T>): (r: DynArray<T>)
    requires a.Valid()
    ensures r.Valid()
    decreases |xs|
  {
    if |xs| == 0 then a else AppendAll(Append(a, xs[0]).0, xs[1..])
  }

  /** One `extend` stores the same data as one `append` per element, and
      neither ever loses the earlier data. */
  lemma {:induction false} ExtendIsRepeatedAppend<T>(a: DynArray<T>, xs: seq<T>)
    requires a.Valid()
    ensures AppendAll(a, xs).Data() == Extend(a, xs).0.Data()
    ensures AppendAll(a, xs).Data() == a.Data() + xs
    decreases |xs|
  {
    if |xs| > 0 {
      var b := Append(a, xs[0]).0;
      ExtendIsRepeatedAppend(b, xs[1..]);
      assert a.Data() + [xs[0]] + xs[1..] == a.Data() + xs;
    }
  }

  /** Repeated appends reallocate at most as often as they cross the
      capacity: once the capacity covers the final size, no append changes
      it. */
  lemma {:induction false} AppendAllKeepsSufficientCapacity<T>(a: DynArray<T>, xs: seq<T>)
    requires a.Valid()
    requires a.size + |xs| <= a.Capacity()
    ensures AppendAll(a, xs).Capacity() == a.Capacity()
    decreases |xs|
  {
    if |xs| > 0 {
      AppendAllKeepsSufficientCapacity(Append(a, xs[0]).0, xs[1..]);
    }
  }
}

=== FILE: dynamics.dfy ===
/** The particle simulation. Simulated particles live in a dynamic array,
    sorted by id; particles added since the last consolidation wait in an
    ordered buffer. A step advances the clock, runs the user's callbacks
    and integrates the stored particles with explicit Euler. Neighbour
    queries go through a k-d tree over the stored positions, built on
    demand and cached. */
module Dynamics {
  import opened Wrappers
  import opened Seqs
  import DA = DynamicArray
  import OB = OrderedBuffer
  import KD = KDTree
  import KS = KDTreeSearch
  import Geometry

  datatype Vec2 = Vec2(x: real, y: real)

  const ZERO: Vec2 := Vec2(0.0, 0.0)

  function Plus(a: Vec2, b: Vec2): Vec2 {
    Vec2(a.x + b.x, a.y + b.y)
  }

  function Times(a: Vec2, c: real): Vec2 {
    Vec2(a.x * c, a.y * c)
  }

  datatype Color = Color(r: real, g: real, b: real, a: real)

  /** One particle record. `extras` stands for the attributes a user
      declares on top of the built-in ones. */
  datatype Particle = Particle(
    id: int,
    alive: bool,
    position: Vec2,
    velocity: Vec2,
    force: Vec2,
    mass: real,
    size: real,
    color: Color,
    extras: seq<real>)

  /** The id a record carries before the simulation numbers it. */
  const UNNUMBERED: int := -1

  /** The record every new particle starts from: the declared defaults,
      plus the defaults of the user's extra attributes. */
  function DefaultParticle(extras: seq<real>): (p: Particle)
    ensures p.id == UNNUMBERED && p.alive
    ensures p.velocity == ZERO && p.force == ZERO
    ensures p.mass == 1.0 && p.size == 1.0
  {
    Particle(UNNUMBERED, true, ZERO, ZERO, ZERO, 1.0, 1.0, Color(1.0, 1.0, 1.0, 1.0), extras)
  }

  /** The k-d tree over the positions uses the default bucket size. */
  const TREE_BUCKET_SIZE: nat := KD.DEFAULT_BUCKET_SIZE

  datatype Sim = Sim(
    timeStep: real,
    time: real,
    lastId: int,
    template: Particle,
    store: DA.DynArray<Particle>,
    buffer: OB.Buffer<Particle>,
    tree: Option<KD.Tree>)

  // ---------------------------------------------------------------------
  // Views and invariants

  /** The simulated particles (the `particles` property). */
  function Stored(s: Sim): seq<Particle>
    requires s.store.Valid()
  {
    s.store.Data()
  }

  /** The particles added since the last consolidation, oldest first. */
  function Pending(s: Sim): seq<Particle>
    requires OB.Valid(s.buffer)
  {
    Flatten(OB.Chunks(s.buffer))
  }

  /** Every particle the simulation holds, in id order. */
  function Contents(s: Sim): seq<Particle>
    requires s.store.Valid() && OB.Valid(s.buffer)
  {
    Stored(s) + Pending(s)
  }

  predicate IdsIncreasing(ps: seq<Particle>) {
    forall i, j :: 0 <= i < j < |ps| ==> ps[i].id < ps[j].id
  }

  /** Every id was handed out: it lies between 0 and the last id. */
  predicate IdsIssued(ps: seq<Particle>, lastId: int) {
    forall i :: 0 <= i < |ps| ==> 0 <= ps[i].id <= lastId
  }

  function ToPoint(v: Vec2): (p: Geometry.Point)
    ensures |p| == 2
  {
    [v.x, v.y]
  }

  /** The stored positions, as the points the k-d tree indexes. */
  function Positions(s: Sim): (pts: seq<Geometry.Point>)
    requires s.store.Valid()
    ensures |pts| == |Stored(s)|
    ensures Geometry.AllDim(pts, 2)
  {
    seq(|Stored(s)|, i requires 0 <= i < |Stored(s)| => ToPoint(Stored(s)[i].position))
  }

  /** The state invariant every public operation keeps: the containers are
      well formed, ids increase through the store and then the buffer, and
      a cached tree can be walked over the current positions. */
  predicate Sound(s: Sim) {
    && s.store.Valid()
    && OB.Valid(s.buffer)
    && s.lastId >= -1
    && IdsIncreasing(Contents(s))
    && IdsIssued(Contents(s), s.lastId)
    && (s.tree.Some? ==> KD.Walkable(Positions(s), 2, s.tree.value))
  }

  /** The cached tree, if any, is the one a fresh build over the current
      positions would give. */
  predicate TreeCurrent(s: Sim)
    requires s.store.Valid()
  {
    s.tree.Some? ==>
      KD.New(Positions(s), 2, TREE_BUCKET_SIZE)
        == Success(KD.KDTree(Positions(s), 2, TREE_BUCKET_SIZE, s.tree.value))
  }

  predicate Valid(s: Sim) {
    Sound(s) && TreeCurrent(s)
  }

  /** Walking a tree needs only the number of points, not where they are. */
  lemma {:induction false} WalkableSameLength(a: seq<Geometry.Point>, b: seq<Geometry.Point>, k: nat, t: KD.Tree)
    requires |a| == |b| && KD.Walkable(a, k, t)
    ensures KD.Walkable(b, k, t)
    decreases t
  {
    if t.Node? {
      WalkableSameLength(a, b, k, t.left);
      WalkableSameLength(a, b, k, t.right);
    }
  }

  // ---------------------------------------------------------------------
  // Construction

  /** A new simulation. A negative initial capacity is rejected by the
      array allocation, a bucket capacity below 1 by the buffer. */
  function New(timeStep: real, initialCapacity: int, bucketCapacity: int, extras: seq<real>): (r: Result<Sim>)
    ensures initialCapacity < 0 ==> r.Failure?
    ensures initialCapacity >= 0 && bucketCapacity < 1 ==> r.Failure?
    ensures initialCapacity >= 0 && bucketCapacity >= 1 ==> r.Success?
    ensures r.Success? ==>
      && Valid(r.value)
      && Contents(r.value) == []
      && r.value.time == 0.0 && r.value.timeStep == timeStep
      && r.value.lastId == -1
      && r.value.store.Capacity() == initialCapacity
      && r.value.buffer.bucketCapacity == bucketCapacity
  {
    var template := DefaultParticle(extras);
    if initialCapacity < 0 then
      Failure(ValueError("negative dimensions are not allowed"))
    else
      var buffer :- OB.New(bucketCapacity, template);
      Success(Sim(timeStep, 0.0, -1, template, DA.New(initialCapacity, template), buffer, None))
  }

  // ---------------------------------------------------------------------
  // Adding particles

  /** Where a particle can be reached for reading and writing: a slot of
      the store or a slot of the buffer. */
  datatype Handle = InStore(index: nat) | InBuffer(ref: OB.Ref)

  /** The particle a handle designates, if it addresses a live slot. */
  function Get(s: Sim, h: Handle): Option<Particle>
    requires s.store.Valid()
  {
    match h
    case InStore(i) => if i < |Stored(s)| then Some(Stored(s)[i]) else None
    case InBuffer(ref) => OB.Get(s.buffer, ref)
  }

  /** The handle on the first element of a buffer slice. */
  function SlotOf(slice: OB.Slice, m: nat): OB.Ref {
    match slice
    case BucketSlice(i, j, _) => OB.BucketSlot(i, j + m)
    case BunchSlice(k) => OB.BunchSlot(k, m)
  }

  /** Push records that continue the id sequence into the buffer. */
  function Enqueue(s: Sim, ps: seq<Particle>): (r: (Sim, OB.Slice))
    requires Sound(s) && |ps| >= 1
    requires IdsIncreasing(Contents(s) + ps) && IdsIssued(Contents(s) + ps, s.lastId + |ps|)
    ensures Sound(r.0)
    ensures Contents(r.0) == Contents(s) + ps
    ensures Stored(r.0) == Stored(s) && r.0.tree == s.tree
    ensures r.0.lastId == s.lastId + |ps|
    ensures r.0.time == s.time && r.0.timeStep == s.timeStep && r.0.template == s.template
    ensures forall m :: 0 <= m < |ps| ==> Get(r.0, InBuffer(SlotOf(r.1, m))) == Some(ps[m])
    ensures Valid(s) ==> Valid(r.0)
  {
    var (buffer, slice) := OB.Push(s.buffer, ps);
    var r := s.(buffer := buffer, lastId := s.lastId + |ps|);
    OB.PushAppendsToContents(s.buffer, ps);
    assert Contents(r) == Contents(s) + ps;
    assert Positions(r) == Positions(s);
    SlotsOfSlice(buffer, slice, ps);
    (r, slice)
  }

  /** Each element of a slice handed out by a push is reachable by its
      own handle. */
  lemma SlotsOfSlice(b: OB.Buffer<Particle>, slice: OB.Slice, ps: seq<Particle>)
    requires OB.Read(b, slice) == Some(ps)
    ensures forall m :: 0 <= m < |ps| ==> OB.Get(b, SlotOf(slice, m)) == Some(ps[m])
  {
    match slice
    case BucketSlice(i, j, n) =>
      forall m | 0 <= m < |ps|
        ensures OB.Get(b, SlotOf(slice, m)) == Some(ps[m])
      {
        assert b.buckets[i][j..j + n][m] == b.buckets[i][j + m];
      }
    case BunchSlice(k) =>
  }

  /** Add one particle: the given record numbered with the next id, which
      overrides any id it carried. It waits in the buffer. */
  function AddParticle(s: Sim, q: Particle): (r: (Sim, Handle))
    requires Sound(s)
    ensures Sound(r.0)
    ensures Contents(r.0) == Contents(s) + [q.(id := s.lastId + 1)]
    ensures Stored(r.0) == Stored(s) && r.0.tree == s.tree
    ensures r.0.lastId == s.lastId + 1
    ensures r.0.time == s.time && r.0.timeStep == s.timeStep && r.0.template == s.template
    ensures Get(r.0, r.1) == Some(q.(id := s.lastId + 1))
    ensures Valid(s) ==> Valid(r.0)
  {
    var p := q.(id := s.lastId + 1);
    var (r, slice) := Enqueue(s, [p]);
    (r, InBuffer(SlotOf(slice, 0)))
  }

  /** The records `AddParticles` creates: copies of the template numbered
      from `first`. */
  function Numbered(template: Particle, first: int, count: nat): (ps: seq<Particle>)
    ensures |ps| == count
    ensures forall m :: 0 <= m < count ==> ps[m] == template.(id := first + m)
  {
    seq(count, m requires 0 <= m < count => template.(id := first + m))
  }

  /** Add `count` default particles with consecutive ids. A negative count
      fails as the array allocation does; a count of zero fails because
      the last id of an empty result is looked up. Either way the
      simulation is left as it was. */
  function AddParticles(s: Sim, count: int): (r: Result<(Sim, seq<Handle>)>)
    requires Sound(s)
    ensures count < 0 ==> r == Failure(ValueError("negative dimensions are not allowed"))
    ensures count == 0 ==> r == Failure(IndexError)
    ensures count > 0 ==> r.Success?
    ensures r.Success? ==>
      var (s', hs) := r.value;
      && Sound(s')
      && Contents(s') == Contents(s) + Numbered(s.template, s.lastId + 1, count)
      && Stored(s') == Stored(s) && s'.tree == s.tree
      && s'.lastId == s.lastId + count
      && s'.time == s.time && s'.timeStep == s.timeStep && s'.template == s.template
      && |hs| == count
      && (forall m :: 0 <= m < count ==> Get(s', hs[m]) == Some(s.template.(id := s.lastId + 1 + m)))
      && (Valid(s) ==> Valid(s'))
  {
    if count < 0 then
      Failure(ValueError("negative dimensions are not allowed"))
    else if count == 0 then
      Failure(IndexError)
    else
      var ps := Numbered(s.template, s.lastId + 1, count);
      var (r, slice) := Enqueue(s, ps);
      var hs := seq(count, m requires 0 <= m < count => InBuffer(SlotOf(slice, m)));
      Success((r, hs))
  }

  // ---------------------------------------------------------------------
  // Writing through a handle

  /** Overwrite the particle a handle designates with `q`, keeping its id
      (the id is read-only). A dangling handle changes nothing. Writing a
      stored particle drops the cached tree, so that a later query sees
      the write at once; the source keeps the tree (see `ModifyAsWritten`
      below). */
  function Modify(s: Sim, h: Handle, q: Particle): (r: Sim)
    requires Sound(s)
    ensures Sound(r)
    ensures Valid(s) ==> Valid(r)
    ensures Get(s, h).Some? ==> Get(r, h) == Some(q.(id := Get(s, h).value.id))
    ensures Get(s, h).None? ==> r == s
    ensures forall h' :: h' != h ==> Get(r, h') == Get(s, h')
    ensures h.InStore? && h.index < |Stored(s)| ==>
      Stored(r) == Stored(s)[h.index := q.(id := Stored(s)[h.index].id)]
    ensures h.InStore? ==> Pending(r) == Pending(s)
    ensures h.InBuffer? ==> Stored(r) == Stored(s)
    ensures |Stored(r)| == |Stored(s)| && |Pending(r)| == |Pending(s)|
    ensures forall i :: 0 <= i < |Contents(s)| ==> Contents(r)[i].id == Contents(s)[i].id
    ensures r.lastId == s.lastId && r.time == s.time && r.timeStep == s.timeStep
    ensures r.template == s.template
  {
    match h
    case InStore(i) =>
      if i < |Stored(s)| then
        var r := s.(store := DA.Put(s.store, i, q.(id := Stored(s)[i].id)), tree := None);
        RelabelKeepsSound(s, r);
        r
      else s
    case InBuffer(ref) =>
      match OB.Get(s.buffer, ref)
      case None => s
      case Some(prev) =>
        var r := s.(buffer := OB.Set(s.buffer, ref, q.(id := prev.id)));
        SetKeepsPendingIds(s.buffer, ref, q.(id := prev.id));
        RelabelKeepsSound(s, r);
        r
  }

  /** The write as the source performs it: in place, through a view of the
      record, leaving the cached tree (built from the old positions) as it
      was. Otherwise it is the write above. */
  function ModifyAsWritten(s: Sim, h: Handle, q: Particle): (r: Sim)
    requires Sound(s)
    ensures Sound(r)
    ensures r == Modify(s, h, q).(tree := s.tree)
  {
    match h
    case InStore(i) =>
      if i < |Stored(s)| then
        var r := s.(store := DA.Put(s.store, i, q.(id := Stored(s)[i].id)));
        RelabelKeepsSound(s, r);
        r
      else s
    case InBuffer(_) => Modify(s, h, q)
  }

  /** Overwriting a buffered particle with one of the same id leaves the
      pending ids as they were. */
  lemma SetKeepsPendingIds(b: OB.Buffer<Particle>, ref: OB.Ref, x: Particle)
    requires OB.Valid(b) && OB.Get(b, ref).Some? && x.id == OB.Get(b, ref).value.id
    ensures |Flatten(OB.Chunks(OB.Set(b, ref, x)))| == |Flatten(OB.Chunks(b))|
    ensures forall j :: 0 <= j < |Flatten(OB.Chunks(b))| ==>
              Flatten(OB.Chunks(OB.Set(b, ref, x)))[j].id == Flatten(OB.Chunks(b))[j].id
  {
    var b' := OB.Set(b, ref, x);
    OB.SetPreservesView((p: Particle) => p.id, b, ref, x);
    OB.ChunksMatchLength(b);
    OB.ChunksMatchLength(b');
    var ids := OB.MapSeq((p: Particle) => p.id, Flatten(OB.Chunks(b)));
    forall j | 0 <= j < |Flatten(OB.Chunks(b))|
      ensures Flatten(OB.Chunks(b'))[j].id == Flatten(OB.Chunks(b))[j].id
    {
      assert OB.MapSeq((p: Particle) => p.id, Flatten(OB.Chunks(b')))[j] == ids[j];
    }
  }

  /** A state whose particles carry the same ids, in the same places, as a
      sound one, and whose cached tree (if any) is the old one, is sound. */
  lemma RelabelKeepsSound(s: Sim, r: Sim)
    requires Sound(s)
    requires r.store.Valid() && OB.Valid(r.buffer) && r.lastId == s.lastId
    requires |Stored(r)| == |Stored(s)| && |Pending(r)| == |Pending(s)|
    requires forall j :: 0 <= j < |Stored(s)| ==> Stored(r)[j].id == Stored(s)[j].id
    requires forall j :: 0 <= j < |Pending(s)| ==> Pending(r)[j].id == Pending(s)[j].id
    requires r.tree.Some? ==> r.tree == s.tree
    ensures forall j :: 0 <= j < |Contents(s)| ==> Contents(r)[j].id == Contents(s)[j].id
    ensures Sound(r)
  {
    if r.tree.Some? {
      WalkableSameLength(Positions(s), Positions(r), 2, r.tree.value);
    }
  }

  // ---------------------------------------------------------------------
  // Consolidation

  /** The particles still alive, in order. */
  function Live(ps: seq<Particle>): (r: seq<Particle>)
    ensures |r| <= |ps|
    ensures forall i :: 0 <= i < |r| ==> r[i].alive
    decreases |ps|
  {
    if |ps| == 0 then []
    else (if ps[0].alive then [ps[0]] else []) + Live(ps[1..])
  }

  /** Filtering keeps exactly the live particles: every kept particle comes
      from the input, and every live input particle is kept. */
  lemma {:induction false} LiveMembers(ps: seq<Particle>)
    ensures forall p :: p in Live(ps) <==> p in ps && p.alive
    decreases |ps|
  {
    if |ps| > 0 {
      LiveMembers(ps[1..]);
      assert forall p :: p in ps <==> p == ps[0] || p in ps[1..];
    }
  }

  /** Filtering keeps the relative order, so increasing ids stay
      increasing. */
  lemma {:induction false} LiveIncreasing(ps: seq<Particle>)
    requires IdsIncreasing(ps)
    ensures IdsIncreasing(Live(ps))
    decreases |ps|
  {
    if |ps| > 0 {
      LiveIncreasing(ps[1..]);
      LiveMembers(ps[1..]);
      if ps[0].alive {
        var rest := Live(ps[1..]);
        forall j | 0 <= j < |rest|
          ensures ps[0].id < rest[j].id
        {
          assert rest[j] in ps[1..];
          var m :| 0 <= m < |ps[1..]| && ps[1..][m] == rest[j];
          assert ps[m + 1] == rest[j];
        }
      }
    }
  }

  lemma LiveIssued(ps: seq<Particle>, lastId: int)
    requires IdsIssued(ps, lastId)
    ensures IdsIssued(Live(ps), lastId)
  {
    LiveMembers(ps);
    forall i | 0 <= i < |Live(ps)|
      ensures 0 <= Live(ps)[i].id <= lastId
    {
      assert Live(ps)[i] in ps;
    }
  }

  /** Nothing is dropped exactly when every particle is alive, and then
      the filter is the identity. */
  lemma {:induction false} LiveAllAlive(ps: seq<Particle>)
    ensures |Live(ps)| == |ps| <==> forall i :: 0 <= i < |ps| ==> ps[i].alive
    ensures |Live(ps)| == |ps| ==> Live(ps) == ps
    decreases |ps|
  {
    if |ps| > 0 {
      LiveAllAlive(ps[1..]);
      assert forall i :: 1 <= i < |ps| ==> ps[i] == ps[1..][i - 1];
    }
  }

  /** Consolidation: the store becomes every live particle, stored ones
      first then buffered ones in insertion order, and the buffer is
      emptied. When the buffer is empty and no stored particle died the
      call returns at once; otherwise it also drops the cached tree. */
  function Consolidate(s: Sim): (r: Sim)
    requires Sound(s)
    ensures Sound(r)
    ensures Valid(s) ==> Valid(r)
    ensures Stored(r) == Live(Contents(s))
    ensures Pending(r) == [] && OB.Length(r.buffer) == 0
    ensures forall i :: 0 <= i < |Stored(r)| ==> Stored(r)[i].alive
    ensures r.lastId == s.lastId && r.time == s.time && r.timeStep == s.timeStep
    ensures r.template == s.template
    ensures r == s || r.tree == None
    ensures OB.Length(s.buffer) == 0 && (forall i :: 0 <= i < |Stored(s)| ==> Stored(s)[i].alive) ==> r == s
  {
    var all := Contents(s);
    var live := Live(all);
    OB.ChunksMatchLength(s.buffer);
    LiveIncreasing(all);
    LiveIssued(all, s.lastId);
    if OB.Length(s.buffer) == 0 && |Live(Stored(s))| == |Stored(s)| then
      assert Pending(s) == [];
      assert all == Stored(s);
      LiveAllAlive(Stored(s));
      s
    else
      var store := DA.CopyFrom(s.store, live, (p: Particle) => p);
      var r := s.(store := store, buffer := OB.Clear(s.buffer), tree := None);
      assert Stored(r) == live;
      assert Contents(r) == live;
      LiveAllAlive(Stored(s));
      r
  }

  /** Consolidating twice is consolidating once. */
  lemma ConsolidateIdempotent(s: Sim)
    requires Sound(s)
    ensures Consolidate(Consolidate(s)) == Consolidate(s)
  {
  }

  // ---------------------------------------------------------------------
  // Lookup by id

  function StoredIds(s: Sim): set<int>
    requires s.store.Valid()
  {
    set i | 0 <= i < |Stored(s)| :: Stored(s)[i].id
  }

  /** Find a stored particle by id with a binary search over the sorted
      ids (the leftmost slot whose id is not smaller). A particle still in
      the buffer is not found. */
  method GetParticle(s: Sim, id: int) returns (r: Result<nat>)
    requires Sound(s)
    ensures r.Success? <==> id in StoredIds(s)
    ensures r.Success? ==> r.value < |Stored(s)| && Stored(s)[r.value].id == id
    ensures r.Failure? ==> r == Failure(ValueError("No particle found with this ID."))
  {
    var data := Stored(s);
    assert IdsIncreasing(data) by {
      assert forall i :: 0 <= i < |data| ==> data[i] == Contents(s)[i];
    }
    var lo, hi := 0, |data|;
    while lo < hi
      invariant 0 <= lo <= hi <= |data|
      invariant forall i :: 0 <= i < lo ==> data[i].id < id
      invariant forall i :: hi <= i < |data| ==> data[i].id >= id
    {
      var mid := (lo + hi) / 2;
      if data[mid].id < id {
        lo := mid + 1;
      } else {
        hi := mid;
      }
    }
    if lo < |data| && data[lo].id == id {
      return Success(lo);
    }
    return Failure(ValueError("No particle found with this ID."));
  }

  /** A particle waiting in the buffer cannot be looked up by id. */
  lemma PendingNotFound(s: Sim, j: nat)
    requires Sound(s) && j < |Pending(s)|
    ensures Pending(s)[j].id !in StoredIds(s)
  {
    var c := Contents(s);
    assert c[|Stored(s)| + j] == Pending(s)[j];
    forall i | 0 <= i < |Stored(s)|
      ensures Stored(s)[i].id < Pending(s)[j].id
    {
      assert c[i] == Stored(s)[i];
    }
  }

  // ---------------------------------------------------------------------
  // Neighbour queries

  /** The tree to search: the cached one, or a new one over the stored
      positions. Building fails on an empty store. */
  function TreeFor(s: Sim): (r: Result<KD.Tree>)
    requires Sound(s)
    ensures r.Success? ==> KD.Walkable(Positions(s), 2, r.value)
    ensures s.tree.Some? ==> r == Success(s.tree.value)
    ensures s.tree.None? && |Stored(s)| == 0 ==> r == Failure(EmptyInput)
    ensures s.tree.None? && r.Success? ==>
      KD.New(Positions(s), 2, TREE_BUCKET_SIZE) == Success(KD.KDTree(Positions(s), 2, TREE_BUCKET_SIZE, r.value))
  {
    if s.tree.Some? then Success(s.tree.value)
    else
      var t :- KD.New(Positions(s), 2, TREE_BUCKET_SIZE);
      Success(t.root)
  }

  /** The stored particles near a point, with their squared distances;
      each result's index addresses `Stored`. The tree is cached on the
      returned simulation. */
  function GetNeighbours(s: Sim, point: Vec2, count: Option<int>, radius: Option<real>, sort: bool)
    : (r: Result<(Sim, seq<KS.Neighbour>)>)
    requires Sound(s)
    ensures r.Success? ==>
      && Sound(r.value.0)
      && r.value.0 == s.(tree := r.value.0.tree)
      && r.value.0.tree.Some?
      && (Valid(s) ==> Valid(r.value.0))
    ensures s.tree.None? && |Stored(s)| == 0 ==> r == Failure(EmptyInput)
    ensures s.tree.Some? ==> r.Success?
  {
    var root :- TreeFor(s);
    var t := KD.KDTree(Positions(s), 2, TREE_BUCKET_SIZE, root);
    var found := KS.Search(t, ToPoint(point), count, radius, sort);
    var s' := s.(tree := Some(root));
    assert Positions(s') == Positions(s);
    Success((s', found))
  }

  /** The cache is invisible: on a valid simulation a query answers as if
      the tree were built afresh. This is what `TreeCurrent`, part of
      `Valid`, is for: the cached tree is the one a fresh build gives. */
  lemma GetNeighboursCacheTransparent(s: Sim, point: Vec2, count: Option<int>, radius: Option<real>, sort: bool)
    requires Valid(s)
    ensures var cold := s.(tree := None);
      && Sound(cold)
      && (GetNeighbours(s, point, count, radius, sort).Success? <==> GetNeighbours(cold, point, count, radius, sort).Success?)
      && (GetNeighbours(s, point, count, radius, sort).Success? ==>
            GetNeighbours(s, point, count, radius, sort).value.1 == GetNeighbours(cold, point, count, radius, sort).value.1)
  {
    var cold := s.(tree := None);
    assert Positions(cold) == Positions(s);
    if s.tree.Some? {
      assert |Positions(s)| >= 1;
    }
  }

  /** Asking a valid simulation for every particle within a radius gives
      exactly the brute-force answer over the current positions. */
  lemma GetNeighboursAllWithin(s: Sim, point: Vec2, radius: Option<real>, sort: bool)
    requires Valid(s)
    requires radius.None? || radius.value >= 0.0
    requires GetNeighbours(s, point, None, radius, sort).Success?
    ensures var found := GetNeighbours(s, point, None, radius, sort).value.1;
      var brute := KS.WithinFilter(Positions(s), ToPoint(point), KS.BoundOf(radius), KD.Range(|Stored(s)|));
      && multiset(found) == multiset(brute)
      && (sort ==> found == KS.Sort(brute))
  {
    var t := QueriedTree(s, point, None, radius, sort);
    KS.SearchAllWithin(t, ToPoint(point), None, radius, sort);
  }

  /** On a valid simulation a query searches a valid tree over the current
      positions. */
  lemma QueriedTree(s: Sim, point: Vec2, count: Option<int>, radius: Option<real>, sort: bool) returns (t: KD.KDTree)
    requires Valid(s)
    requires GetNeighbours(s, point, count, radius, sort).Success?
    ensures KD.Valid(t) && t.data == Positions(s) && t.k == 2 && |t.data| >= 1
    ensures GetNeighbours(s, point, count, radius, sort).value.1 == KS.Search(t, ToPoint(point), count, radius, sort)
  {
    t := KD.KDTree(Positions(s), 2, TREE_BUCKET_SIZE, TreeFor(s).value);
  }

  /** Asking a valid simulation for fewer particles than it stores gives
      particles strictly within the radius, each with its squared distance
      to the point, and no particle left out is strictly nearer than one
      returned. */
  lemma GetNeighboursNearest(s: Sim, point: Vec2, count: int, radius: Option<real>, sort: bool)
    requires Valid(s)
    requires 1 <= count < |Stored(s)|
    requires radius.None? || radius.value >= 0.0
    requires GetNeighbours(s, point, Some(count), radius, sort).Success?
    ensures var found := GetNeighbours(s, point, Some(count), radius, sort).value.1;
      && (forall j :: 0 <= j < |found| ==>
            && found[j].index < |Stored(s)|
            && found[j].sqDist == Geometry.SqDist(ToPoint(point), Positions(s)[found[j].index])
            && KS.Below(found[j].sqDist, KS.BoundOf(radius)))
      && (forall j, i :: 0 <= j < |found| && 0 <= i < |Stored(s)| && i !in KS.KeptIndices(found) ==>
            found[j].sqDist <= Geometry.SqDist(ToPoint(point), Positions(s)[i]))
  {
    var t := QueriedTree(s, point, Some(count), radius, sort);
    KS.SearchNearest(t, ToPoint(point), count, radius, sort);
  }

  // ---------------------------------------------------------------------
  // Callbacks

  /** What a callback does to the simulation, one call at a time. */
  datatype Action =
    | AddOne(overrides: Particle)
    | AddMany(count: int)
    | Write(handle: Handle, value: Particle)
    | ConsolidateNow
    | Query(point: Vec2, limit: Option<int>, radius: Option<real>, sort: bool)

  /** A callback: the calls it makes, decided from the simulation it is
      handed. */
  type Callback = Sim -> seq<Action>

  function Apply(s: Sim, a: Action): (r: Result<Sim>)
    requires Sound(s)
    ensures r.Success? ==> Sound(r.value)
    ensures r.Success? && Valid(s) ==> Valid(r.value)
    ensures r.Success? ==> r.value.time == s.time && r.value.timeStep == s.timeStep && r.value.template == s.template
    ensures r.Success? ==> r.value.lastId >= s.lastId
  {
    match a
    case AddOne(q) => Success(AddParticle(s, q).0)
    case AddMany(n) =>
      var (s', _) :- AddParticles(s, n);
      Success(s')
    case Write(h, q) => Success(Modify(s, h, q))
    case ConsolidateNow => Success(Consolidate(s))
    case Query(point, count, radius, sort) =>
      var (s', _) :- GetNeighbours(s, point, count, radius, sort);
      Success(s')
  }

  /** Perform the calls in order; the first failure aborts the rest. */
  function ApplyAll(s: Sim, actions: seq<Action>): (r: Result<Sim>)
    requires Sound(s)
    ensures r.Success? ==> Sound(r.value)
    ensures r.Success? && Valid(s) ==> Valid(r.value)
    ensures r.Success? ==> r.value.time == s.time && r.value.timeStep == s.timeStep && r.value.template == s.template
    ensures r.Success? ==> r.value.lastId >= s.lastId
    decreases |actions|
  {
    if |actions| == 0 then Success(s)
    else
      var s' :- Apply(s, actions[0]);
      ApplyAll(s', actions[1..])
  }

  /** Run a callback if one is set, then consolidate. */
  function RunCallback(s: Sim, callback: Option<Callback>): (r: Result<Sim>)
    requires Sound(s)
    ensures callback.None? ==> r == Success(s)
    ensures r.Success? ==> Sound(r.value)
    ensures r.Success? && Valid(s) ==> Valid(r.value)
    ensures r.Success? ==> r.value.time == s.time && r.value.timeStep == s.timeStep && r.value.template == s.template
    ensures r.Success? && callback.Some? ==> Pending(r.value) == [] && OB.Length(r.value.buffer) == 0
  {
    if callback.None? then Success(s)
    else
      var s' :- ApplyAll(s, callback.value(s));
      Success(Consolidate(s'))
  }

  /** A new simulation whose initialising callback has run and been
      consolidated. */
  function Initialize(timeStep: real, initialCapacity: int, bucketCapacity: int, extras: seq<real>, initialize: Option<Callback>)
    : (r: Result<Sim>)
    ensures r.Success? ==> Valid(r.value) && r.value.time == 0.0 && r.value.timeStep == timeStep
    ensures r.Success? && initialize.Some? ==> Pending(r.value) == []
    ensures initialize.None? ==> r == New(timeStep, initialCapacity, bucketCapacity, extras)
  {
    var s :- New(timeStep, initialCapacity, bucketCapacity, extras);
    RunCallback(s, initialize)
  }

  // ---------------------------------------------------------------------
  // Integration

  /** One explicit Euler step for one particle: the velocity takes the
      acceleration, the position takes the new velocity, and the force is
      cleared. */
  function Integrate(p: Particle, dt: real): (q: Particle)
    ensures q.id == p.id && q.alive == p.alive && q.mass == p.mass
    ensures q.size == p.size && q.color == p.color && q.extras == p.extras
    ensures q.force == ZERO
  {
    var v := if p.mass == 0.0 then p.velocity else Plus(p.velocity, Times(p.force, dt / p.mass));
    p.(velocity := v, position := Plus(p.position, Times(v, dt)), force := ZERO)
  }

  /** The Euler step in physical terms: the change of momentum is the
      impulse (mass times velocity change equals force times step), and
      the displacement is the new velocity times the step. */
  lemma EulerStep(p: Particle, dt: real)
    requires p.mass != 0.0
    ensures var q := Integrate(p, dt);
      && (q.velocity.x - p.velocity.x) * p.mass == p.force.x * dt
      && (q.velocity.y - p.velocity.y) * p.mass == p.force.y * dt
      && q.position.x - p.position.x == q.velocity.x * dt
      && q.position.y - p.position.y == q.velocity.y * dt
  {
    var a := dt / p.mass;
    assert a * p.mass == dt;
    assert (p.force.x * a) * p.mass == p.force.x * (a * p.mass);
    assert (p.force.y * a) * p.mass == p.force.y * (a * p.mass);
  }

  /** With no force acting, a particle keeps its velocity and drifts by
      velocity times step. */
  lemma Inertia(p: Particle, dt: real)
    requires p.force == ZERO
    ensures Integrate(p, dt).velocity == p.velocity
    ensures Integrate(p, dt).position == Plus(p.position, Times(p.velocity, dt))
  {
  }

  /** The stored particles integrated; buffered ones are left alone. */
  function SolveStore(s: Sim): (store: DA.DynArray<Particle>)
    requires Sound(s)
    ensures store.Valid() && store.Capacity() == s.store.Capacity()
    ensures |store.Data()| == |Stored(s)|
    ensures forall i :: 0 <= i < |Stored(s)| ==> store.Data()[i] == Integrate(Stored(s)[i], s.timeStep)
  {
    DA.MapData(s.store, (p: Particle) => Integrate(p, s.timeStep))
  }

  /** Integrate the stored particles. Positions move, so the cached tree
      is dropped. */
  function Solve(s: Sim): (r: Sim)
    requires Sound(s)
    ensures Valid(r)
    ensures |Stored(r)| == |Stored(s)|
    ensures forall i :: 0 <= i < |Stored(s)| ==> Stored(r)[i] == Integrate(Stored(s)[i], s.timeStep)
    ensures Pending(r) == Pending(s) && r.buffer == s.buffer
    ensures r.lastId == s.lastId && r.time == s.time && r.timeStep == s.timeStep && r.template == s.template
    ensures r.tree == None
  {
    var r := s.(store := SolveStore(s), tree := None);
    assert forall i :: 0 <= i < |Contents(s)| ==> Contents(r)[i].id == Contents(s)[i].id;
    r
  }

  /** One step: advance the clock, run the presolve callback and
      consolidate, integrate the stored particles, run the postsolve
      callback and consolidate. */
  function Step(s: Sim, presolve: Option<Callback>, postsolve: Option<Callback>): (r: Result<Sim>)
    requires Valid(s)
    ensures r.Success? ==> Valid(r.value)
    ensures r.Success? ==> r.value.time == s.time + s.timeStep && r.value.timeStep == s.timeStep
    ensures presolve.None? && postsolve.None? ==>
      && r.Success?
      && |Stored(r.value)| == |Stored(s)|
      && (forall i :: 0 <= i < |Stored(s)| ==> Stored(r.value)[i] == Integrate(Stored(s)[i], s.timeStep))
      && Pending(r.value) == Pending(s)
      && r.value.lastId == s.lastId
  {
    var s1 := s.(time := s.time + s.timeStep);
    var s2 :- RunCallback(s1, presolve);
    RunCallback(Solve(s2), postsolve)
  }

  /** Two steps of a half time unit under a unit force on a unit mass, as
      the step test of the repository exercises: the first step gives
      the particle velocity 0.5 and position 0.25 and clears the force,
      the second keeps the velocity and reaches 0.5. */
  lemma TwoSteps()
    ensures var p := DefaultParticle([]).(id := 0, force := Vec2(1.0, 0.0));
      var p1 := Integrate(p, 0.5);
      var p2 := Integrate(p1, 0.5);
      && p1.velocity == Vec2(0.5, 0.0) && p1.position == Vec2(0.25, 0.0) && p1.force == ZERO
      && p2.velocity == Vec2(0.5, 0.0) && p2.position == Vec2(0.5, 0.0)
  {
    var p := DefaultParticle([]).(id := 0, force := Vec2(1.0, 0.0));
    assert p.mass == 1.0 && p.velocity == ZERO && p.position == ZERO;
    var p1 := Integrate(p, 0.5);
    assert p1.velocity == Plus(ZERO, Times(Vec2(1.0, 0.0), 0.5 / 1.0));
    assert p1.position == Plus(ZERO, Times(Vec2(0.5, 0.0), 0.5));
    var p2 := Integrate(p1, 0.5);
    assert p2.velocity == Plus(Vec2(0.5, 0.0), Times(ZERO, 0.5 / 1.0));
  }

  // ---------------------------------------------------------------------
  // The step as written: the cached tree survives the integration

  /** Integrate the stored particles and keep the cached tree, whose boxes
      were computed from the old positions. */
  function SolveAsWritten(s: Sim): (r: Sim)
    requires Sound(s)
    ensures Sound(r)
    ensures Stored(r) == Stored(Solve(s)) && r.tree == s.tree
  {
    var r := s.(store := SolveStore(s));
    assert forall i :: 0 <= i < |Contents(s)| ==> Contents(r)[i].id == Contents(s)[i].id;
    if s.tree.Some? then
      WalkableSameLength(Positions(s), Positions(r), 2, s.tree.value);
      r
    else r
  }

  function StepAsWritten(s: Sim, presolve: Option<Callback>, postsolve: Option<Callback>): (r: Result<Sim>)
    requires Sound(s)
    ensures r.Success? ==> Sound(r.value)
    ensures r.Success? ==> r.value.time == s.time + s.timeStep
    ensures presolve.None? && postsolve.None? ==>
      && r.Success?
      && |Stored(r.value)| == |Stored(s)|
      && (forall i :: 0 <= i < |Stored(s)| ==> Stored(r.value)[i] == Integrate(Stored(s)[i], s.timeStep))
      && r.value.tree == s.tree
  {
    var s1 := s.(time := s.time + s.timeStep);
    var s2 :- RunCallback(s1, presolve);
    RunCallback(SolveAsWritten(s2), postsolve)
  }

  /** The particle of the example below: at the origin, moving along x at
      10 units per time unit. */
  function Mover(): Particle {
    DefaultParticle([]).(id := 0, velocity := Vec2(10.0, 0.0))
  }

  /** A simulation holding only `Mover`, with no tree cached yet. */
  function MoverOnly(): (s: Sim)
    ensures Valid(s) && Stored(s) == [Mover()] && Positions(s) == [[0.0, 0.0]] && s.tree.None?
  {
    var p := Mover();
    var buffer := OB.Buffer(1, [], OB.Pos(0, 0), [], p);
    var s := Sim(1.0, 0.0, 0, p, DA.DynArray([p], 1, p), buffer, None);
    assert OB.Chunks(buffer) == [];
    assert Contents(s) == [p];
    assert Positions(s) == [[0.0, 0.0]];
    s
  }

  /** The box a tree over the single point at the origin gets. */
  const ORIGIN_BOX: Geometry.Box := Geometry.Box([0.0, 0.0], [0.0, 0.0])

  lemma OriginTree()
    ensures TreeFor(MoverOnly()) == Success(KD.Leaf(ORIGIN_BOX, [0]))
  {
    var data := Positions(MoverOnly());
    var pts := KD.Gather(data, KD.Range(1));
    assert pts == [[0.0, 0.0]];
    var box := Geometry.BoundsOf(pts, 2);
    assert box.lower == [0.0, 0.0] by {
      assert Geometry.MinAt(pts, 0) == 0 && Geometry.MinAt(pts, 1) == 0;
    }
    assert box.upper == [0.0, 0.0] by {
      assert Geometry.MaxAt(pts, 0) == 0 && Geometry.MaxAt(pts, 1) == 0;
    }
    assert box == ORIGIN_BOX;
    assert KD.Range(1) == [0];
    assert KD.Build(data, 2, KD.Range(1), TREE_BUCKET_SIZE) == Success(KD.Leaf(ORIGIN_BOX, [0]));
  }

  /** The same simulation after a query at the origin cached the tree. */
  function Moving(): (s: Sim)
    ensures Valid(s) && Stored(s) == [Mover()] && s.tree == Some(KD.Leaf(ORIGIN_BOX, [0])) && s.timeStep == 1.0
  {
    QueryCachesOriginTree();
    GetNeighbours(MoverOnly(), ZERO, Some(1), None, false).value.0
  }

  /** The first query on `MoverOnly` builds and caches the tree over the
      origin, and changes nothing else. */
  lemma QueryCachesOriginTree()
    ensures GetNeighbours(MoverOnly(), ZERO, Some(1), None, false).Success?
    ensures GetNeighbours(MoverOnly(), ZERO, Some(1), None, false).value.0
         == MoverOnly().(tree := Some(KD.Leaf(ORIGIN_BOX, [0])))
  {
    var s := MoverOnly();
    OriginTree();
    var root := TreeFor(s).value;
    assert GetNeighbours(s, ZERO, Some(1), None, false).value.0 == s.(tree := Some(root));
  }

  /** A simulation like `Moving`: one particle `Mover`, a unit time step,
      and the tree over the origin cached. */
  predicate LikeMoving(s: Sim) {
    Sound(s) && Stored(s) == [Mover()] && s.tree == Some(KD.Leaf(ORIGIN_BOX, [0])) && s.timeStep == 1.0
  }

  /** The query point of the example, where the particle is after a step. */
  const TARGET: Geometry.Point := [10.0, 0.0]

  lemma TargetFarFromOriginBox()
    ensures Geometry.NearDist(TARGET, ORIGIN_BOX) == 100.0
  {
    assert Geometry.NearDist(TARGET[1..], Geometry.Box([0.0], [0.0])) == 0.0;
  }

  /** The brute-force answer at the target, once the particle is there: the
      particle itself at distance 0. */
  lemma BruteForceAtTarget(s: Sim)
    requires s.store.Valid() && Positions(s) == [TARGET]
    ensures KS.WithinFilter(Positions(s), TARGET, KS.BoundOf(Some(1.0)), KD.Range(1)) == [KS.Neighbour(0.0, 0)]
  {
    assert KD.Range(1) == [0];
    assert Geometry.SqDist(TARGET[1..], TARGET[1..]) == 0.0;
    assert Geometry.SqDist(TARGET, Positions(s)[0]) == 0.0;
  }

  /** A query for every particle within `radius` answers nothing when the
      cached root box lies beyond the radius, wherever the particles are. */
  lemma PrunedAtRoot(s: Sim, point: Vec2, radius: real)
    requires Sound(s) && s.tree.Some? && radius >= 0.0
    requires Geometry.NearDist(ToPoint(point), s.tree.value.box) > radius * radius
    ensures GetNeighbours(s, point, None, Some(radius), false) == Success((s, []))
  {
    var t := KD.KDTree(Positions(s), 2, TREE_BUCKET_SIZE, s.tree.value);
    assert KS.AllWithin(Positions(s), 2, s.tree.value, ToPoint(point), KS.AtMost(radius * radius)) == [];
    if |Stored(s)| >= 1 {
      assert KS.Search(t, ToPoint(point), None, Some(radius), false) == [];
    }
  }

  /** A query at the position of the only stored particle finds exactly
      that particle, at distance 0. */
  lemma FindsSoleParticle(s: Sim, point: Vec2, radius: real)
    requires Valid(s) && Positions(s) == [ToPoint(point)] && radius >= 0.0
    requires GetNeighbours(s, point, None, Some(radius), false).Success?
    ensures GetNeighbours(s, point, None, Some(radius), false).value.1 == [KS.Neighbour(0.0, 0)]
  {
    var p := ToPoint(point);
    GetNeighboursAllWithin(s, point, Some(radius), false);
    assert KD.Range(1) == [0];
    assert Geometry.SqDist(p[1..], p[1..]) == 0.0;
    assert Geometry.SqDist(p, Positions(s)[0]) == 0.0;
    assert KS.WithinFilter(Positions(s), p, KS.BoundOf(Some(radius)), KD.Range(1)) == [KS.Neighbour(0.0, 0)];
    var found := GetNeighbours(s, point, None, Some(radius), false).value.1;
    assert multiset(found) == multiset{KS.Neighbour(0.0, 0)};
    assert |found| == 1 by {
      assert |multiset(found)| == 1;
    }
    assert found[0] in multiset(found);
  }

  /** After one step the particle sits at (10, 0). Queried there with
      radius 1, the stale tree still bounds it by the box at the origin,
      squared distance 100 away, and answers nothing; the brute-force
      answer is the particle itself at distance 0. */
  lemma StaleTreeMissesMovedParticle(s: Sim)
    requires LikeMoving(s)
    ensures StepAsWritten(s, None, None).Success?
    ensures var s' := StepAsWritten(s, None, None).value;
      && Positions(s') == [TARGET]
      && GetNeighbours(s', Vec2(10.0, 0.0), None, Some(1.0), false) == Success((s', []))
      && KS.WithinFilter(Positions(s'), TARGET, KS.BoundOf(Some(1.0)), KD.Range(1)) == [KS.Neighbour(0.0, 0)]
  {
    var s' := StepAsWritten(s, None, None).value;
    MovedPositions(s');
    BruteForceAtTarget(s');
    TargetFarFromOriginBox();
    PrunedAtRoot(s', Vec2(10.0, 0.0), 1.0);
  }

  /** One step moves `Mover` to (10, 0). */
  lemma MovedPositions(after: Sim)
    requires after.store.Valid() && |Stored(after)| == 1
    requires Stored(after)[0] == Integrate(Mover(), 1.0)
    ensures Positions(after) == [TARGET]
  {
    var q := Integrate(Mover(), 1.0);
    assert q.velocity == Plus(Vec2(10.0, 0.0), Times(ZERO, 1.0 / 1.0));
    assert q.position == Vec2(10.0, 0.0);
  }

  /** With the corrected step the same query finds the particle. */
  lemma FreshTreeFindsMovedParticle(s: Sim)
    requires Valid(s) && Stored(s) == [Mover()] && s.timeStep == 1.0
    ensures Step(s, None, None).Success?
    ensures var s' := Step(s, None, None).value;
      && Positions(s') == [TARGET]
      && GetNeighbours(s', Vec2(10.0, 0.0), None, Some(1.0), false).Success?
      && GetNeighbours(s', Vec2(10.0, 0.0), None, Some(1.0), false).value.1 == [KS.Neighbour(0.0, 0)]
  {
    var s' := Step(s, None, None).value;
    MovedPositions(s');
    SoleParticleQuery(s', Vec2(10.0, 0.0), None, Some(1.0), false);
    FindsSoleParticle(s', Vec2(10.0, 0.0), 1.0);
  }

  /** A tree over a single point always builds, so a query on a
      simulation storing one particle always answers. */
  lemma SoleParticleQuery(s: Sim, point: Vec2, count: Option<int>, radius: Option<real>, sort: bool)
    requires Sound(s) && |Stored(s)| == 1
    ensures GetNeighbours(s, point, count, radius, sort).Success?
  {
    var data := Positions(s);
    KD.NewSucceedsIff(data, 2, TREE_BUCKET_SIZE);
    assert KD.FewCoincident(data, KD.Range(1), TREE_BUCKET_SIZE) by {
      KD.MultiplicityBound(data, KD.Range(1), data[0]);
    }
  }

  // ---------------------------------------------------------------------
  // The write as written: the cached tree survives a change of position

  /** `Mover` carried to (10, 0) by a write instead of a step. */
  function Carried(): Particle {
    Mover().(position := Vec2(10.0, 0.0))
  }

  /** Writing the stored particle's position to (10, 0) after a query
      cached the tree: queried there with radius 1, the stale tree still
      bounds it by the box at the origin and answers nothing, while the
      brute-force answer is the particle itself at distance 0. */
  lemma StaleTreeMissesWrittenParticle(s: Sim)
    requires LikeMoving(s)
    ensures var s' := ModifyAsWritten(s, InStore(0), Carried());
      && Positions(s') == [TARGET]
      && GetNeighbours(s', Vec2(10.0, 0.0), None, Some(1.0), false) == Success((s', []))
      && KS.WithinFilter(Positions(s'), TARGET, KS.BoundOf(Some(1.0)), KD.Range(1)) == [KS.Neighbour(0.0, 0)]
  {
    var s' := ModifyAsWritten(s, InStore(0), Carried());
    assert Stored(s') == [Carried()];
    assert Positions(s') == [TARGET];
    BruteForceAtTarget(s');
    TargetFarFromOriginBox();
    PrunedAtRoot(s', Vec2(10.0, 0.0), 1.0);
  }

  /** With the corrected write the same query finds the particle, whatever
      tree was cached before. */
  lemma WrittenParticleFound(s: Sim)
    requires Valid(s) && Stored(s) == [Mover()]
    ensures var s' := Modify(s, InStore(0), Carried());
      && Positions(s') == [TARGET]
      && GetNeighbours(s', Vec2(10.0, 0.0), None, Some(1.0), false).Success?
      && GetNeighbours(s', Vec2(10.0, 0.0), None, Some(1.0), false).value.1 == [KS.Neighbour(0.0, 0)]
  {
    var s' := Modify(s, InStore(0), Carried());
    assert Stored(s') == [Carried()];
    assert Positions(s') == [TARGET];
    SoleParticleQuery(s', Vec2(10.0, 0.0), None, Some(1.0), false);
    FindsSoleParticle(s', Vec2(10.0, 0.0), 1.0);
  }
}

=== FILE: geometry.dfy ===
/** Points, axis-aligned boxes and the squared distances the k-d tree
    compares: point to point, and the nearest and farthest a box can be
    from a point. */
module Geometry {

  /** A point of some dimension k, one coordinate per axis. */
  type Point = seq<real>

  /** An axis-aligned box, given by its lower and upper corners. */
  datatype Box = Box(lower: Point, upper: Point)

  function RMax(a: real, b: real): (m: real)
    ensures m >= a && m >= b && (m == a || m == b)
  {
    if a >= b then a else b
  }

  function RMin(a: real, b: real): (m: real)
    ensures m <= a && m <= b && (m == a || m == b)
  {
    if a <= b then a else b
  }

  function Sq(x: real): real {
    x * x
  }

  /** Every point has dimension k. */
  predicate AllDim(points: seq<Point>, k: nat) {
    forall j :: 0 <= j < |points| ==> |points[j]| == k
  }

  predicate BoxDim(b: Box, k: nat) {
    |b.lower| == k && |b.upper| == k
  }

  /** The point lies in the box, boundary included. */
  predicate Contains(b: Box, q: Point) {
    && |b.lower| == |q| && |b.upper| == |q|
    && forall a :: 0 <= a < |q| ==> b.lower[a] <= q[a] <= b.upper[a]
  }

  /** Squared Euclidean distance. */
  function SqDist(p: Point, q: Point): (d: real)
    requires |p| == |q|
    ensures d >= 0.0
    decreases |p|
  {
    if |p| == 0 then 0.0 else Sq(p[0] - q[0]) + SqDist(p[1..], q[1..])
  }

  /** How far `x` lies outside [l, u] on one axis (0 inside). */
  function NearGap(x: real, l: real, u: real): real {
    RMax(0.0, RMax(x - u, l - x))
  }

  /** How far the farther end of [l, u] lies from `x` on one axis. */
  function FarGap(x: real, l: real, u: real): real {
    RMax(0.0, RMax(u - x, x - l))
  }

  /** The squared distance from a point to the nearest point of a box. */
  function NearDist(p: Point, b: Box): (d: real)
    requires BoxDim(b, |p|)
    ensures d >= 0.0
    decreases |p|
  {
    if |p| == 0 then 0.0
    else Sq(NearGap(p[0], b.lower[0], b.upper[0])) + NearDist(p[1..], Box(b.lower[1..], b.upper[1..]))
  }

  /** The squared distance from a point to the farthest corner of a box. */
  function FarDist(p: Point, b: Box): (d: real)
    requires BoxDim(b, |p|)
    ensures d >= 0.0
    decreases |p|
  {
    if |p| == 0 then 0.0
    else Sq(FarGap(p[0], b.lower[0], b.upper[0])) + FarDist(p[1..], Box(b.lower[1..], b.upper[1..]))
  }

  lemma SqMonotone(a: real, b: real)
    requires 0.0 <= a <= b
    ensures Sq(a) <= Sq(b)
  {
    assert a * a <= a * b <= b * b;
  }

  /** On one axis, a coordinate inside [l, u] is no nearer to `x` than the
      near gap and no farther than the far gap. */
  lemma AxisBounds(x: real, l: real, u: real, y: real)
    requires l <= y <= u
    ensures Sq(NearGap(x, l, u)) <= Sq(x - y) <= Sq(FarGap(x, l, u))
  {
    var g := NearGap(x, l, u);
    var h := FarGap(x, l, u);
    var e := if x >= y then x - y else y - x;
    assert Sq(x - y) == Sq(e);
    SqMonotone(g, e);
    SqMonotone(e, h);
  }

  /** Every point of a box is at least the near distance and at most the
      far distance away: the bounds the tree searches prune with. */
  lemma {:induction false} DistanceBounds(p: Point, b: Box, q: Point)
    requires |q| == |p| && Contains(b, q)
    ensures NearDist(p, b) <= SqDist(p, q) <= FarDist(p, b)
    decreases |p|
  {
    if |p| > 0 {
      AxisBounds(p[0], b.lower[0], b.upper[0], q[0]);
      var b' := Box(b.lower[1..], b.upper[1..]);
      assert Contains(b', q[1..]) by {
        forall a | 0 <= a < |q[1..]|
          ensures b'.lower[a] <= q[1..][a] <= b'.upper[a]
        {
          assert b.lower[a + 1] <= q[a + 1] <= b.upper[a + 1];
        }
      }
      DistanceBounds(p[1..], b', q[1..]);
    }
  }

  /** A point inside a box has near distance zero to it. */
  lemma {:induction false} NearDistInside(p: Point, b: Box)
    requires Contains(b, p)
    ensures NearDist(p, b) == 0.0
    decreases |p|
  {
    if |p| > 0 {
      var b' := Box(b.lower[1..], b.upper[1..]);
      assert NearGap(p[0], b.lower[0], b.upper[0]) == 0.0;
      assert Contains(b', p[1..]) by {
        forall a | 0 <= a < |p[1..]|
          ensures b'.lower[a] <= p[1..][a] <= b'.upper[a]
        {
          assert b.lower[a + 1] <= p[a + 1] <= b.upper[a + 1];
        }
      }
      NearDistInside(p[1..], b');
    }
  }

  // ---------------------------------------------------------------------
  // Bounding boxes

  /** The position (in `points`) of a smallest coordinate on `axis`. */
  function MinAt(points: seq<Point>, axis: nat): (j: nat)
    requires |points| >= 1
    requires forall i :: 0 <= i < |points| ==> axis < |points[i]|
    ensures j < |points|
    ensures forall i :: 0 <= i < |points| ==> points[j][axis] <= points[i][axis]
    decreases |points|
  {
    if |points| == 1 then 0
    else
      var j := MinAt(points[1..], axis) + 1;
      if points[0][axis] <= points[j][axis] then 0 else j
  }

  /** The position (in `points`) of a largest coordinate on `axis`. */
  function MaxAt(points: seq<Point>, axis: nat): (j: nat)
    requires |points| >= 1
    requires forall i :: 0 <= i < |points| ==> axis < |points[i]|
    ensures j < |points|
    ensures forall i :: 0 <= i < |points| ==> points[i][axis] <= points[j][axis]
    decreases |points|
  {
    if |points| == 1 then 0
    else
      var j := MaxAt(points[1..], axis) + 1;
      if points[0][axis] >= points[j][axis] then 0 else j
  }

  /** The smallest box holding every point: per axis, the least and the
      greatest coordinate, each attained by some point. */
  function BoundsOf(points: seq<Point>, k: nat): (b: Box)
    requires |points| >= 1 && AllDim(points, k)
    ensures BoxDim(b, k)
    ensures forall j :: 0 <= j < |points| ==> Contains(b, points[j])
    ensures forall a :: 0 <= a < k ==>
      && points[MinAt(points, a)][a] == b.lower[a]
      && points[MaxAt(points, a)][a] == b.upper[a]
  {
    Box(seq(k, a requires 0 <= a < k => points[MinAt(points, a)][a]),
        seq(k, a requires 0 <= a < k => points[MaxAt(points, a)][a]))
  }

  /** The bounding box depends only on which points there are, not on
      their order or repetition. */
  lemma BoundsOfSamePoints(a: seq<Point>, b: seq<Point>, k: nat)
    requires |a| >= 1 && |b| >= 1 && AllDim(a, k) && AllDim(b, k)
    requires forall j :: 0 <= j < |a| ==> a[j] in b
    requires forall j :: 0 <= j < |b| ==> b[j] in a
    ensures BoundsOf(a, k) == BoundsOf(b, k)
  {
    var ba, bb := BoundsOf(a, k), BoundsOf(b, k);
    forall x | 0 <= x < k
      ensures ba.lower[x] == bb.lower[x] && ba.upper[x] == bb.upper[x]
    {
      var i, j := MinAt(a, x), MinAt(b, x);
      assert a[i] in b && b[j] in a;
      var i', j' := MaxAt(a, x), MaxAt(b, x);
      assert a[i'] in b && b[j'] in a;
    }
  }

  /** The side lengths of a box. */
  function Sides(b: Box): (s: seq<real>)
    requires |b.lower| == |b.upper|
    ensures |s| == |b.lower|
    ensures forall a :: 0 <= a < |s| ==> s[a] == b.upper[a] - b.lower[a]
  {
    seq(|b.lower|, a requires 0 <= a < |b.lower| => b.upper[a] - b.lower[a])
  }

  /** The first position of a largest element, as `numpy.argmax` picks it. */
  function ArgMax(s: seq<real>): (a: nat)
    requires |s| >= 1
    ensures a < |s|
    ensures forall i :: 0 <= i < |s| ==> s[i] <= s[a]
    ensures forall i :: 0 <= i < a ==> s[i] < s[a]
    decreases |s|
  {
    if |s| == 1 then 0
    else
      var a := ArgMax(s[..|s| - 1]);
      if s[|s| - 1] > s[a] then |s| - 1 else a
  }
}

=== FILE: kdtree.dfy ===
/** The k-d tree over a set of points: how it is built (split at the middle
    of the longest side of the bounding box until a node holds at most a
    bucket of points) and how its nodes are laid out contiguously in
    depth-first order. */
module KDTree {
  import opened Wrappers
  import opened Geometry

  /** The bucket size the simulation builds its trees with. */
  const DEFAULT_BUCKET_SIZE: nat := 128

  /** A node of the tree with the bounding box of its points; a leaf holds
      the indices (into the data) of its bucket. */
  datatype Tree = Leaf(box: Box, indices: seq<nat>) | Node(box: Box, left: Tree, right: Tree)

  /** A built tree over `data`, a sequence of points of dimension `k`. */
  datatype KDTree = KDTree(data: seq<Point>, k: nat, bucketSize: nat, root: Tree)

  /** The point indices held by the leaves, in depth-first order. */
  function Indices(t: Tree): seq<nat> {
    match t
    case Leaf(_, ix) => ix
    case Node(_, l, r) => Indices(l) + Indices(r)
  }

  function NodeCount(t: Tree): nat {
    match t
    case Leaf(_, _) => 1
    case Node(_, l, r) => 1 + NodeCount(l) + NodeCount(r)
  }

  /** Every index addresses a point of the data. */
  predicate InData(data: seq<Point>, indices: seq<nat>) {
    forall j :: 0 <= j < |indices| ==> indices[j] < |data|
  }

  predicate Distinct(s: seq<nat>) {
    forall i, j :: 0 <= i < j < |s| ==> s[i] != s[j]
  }

  /** 0, 1, ..., n - 1. */
  function Range(n: nat): (r: seq<nat>)
    ensures |r| == n
    ensures forall i :: 0 <= i < n ==> r[i] == i
  {
    seq(n, i requires 0 <= i < n => i)
  }

  /** The points the indices address (`data[indices]`). */
  function Gather(data: seq<Point>, indices: seq<nat>): (pts: seq<Point>)
    requires InData(data, indices)
    ensures |pts| == |indices|
    ensures forall j :: 0 <= j < |indices| ==> pts[j] == data[indices[j]]
  {
    seq(|indices|, j requires 0 <= j < |indices| => data[indices[j]])
  }

  /** Every node's box holds every point below it, and every box has the
      data's dimension. */
  predicate Bounded(data: seq<Point>, k: nat, t: Tree) {
    && BoxDim(t.box, k)
    && InData(data, Indices(t))
    && (forall j :: 0 <= j < |Indices(t)| ==> Contains(t.box, data[Indices(t)[j]]))
    && (t.Node? ==> Bounded(data, k, t.left) && Bounded(data, k, t.right))
  }

  /** Every leaf holds between 1 and `bucketSize` points. */
  predicate LeavesFit(t: Tree, bucketSize: nat) {
    match t
    case Leaf(_, ix) => 1 <= |ix| <= bucketSize
    case Node(_, l, r) => LeavesFit(l, bucketSize) && LeavesFit(r, bucketSize)
  }

  /** A tree the search can walk over `data`: every index is in range and
      every box has the query dimension. Bounds need not be current. */
  predicate Walkable(data: seq<Point>, k: nat, t: Tree) {
    && BoxDim(t.box, k)
    && InData(data, Indices(t))
    && (t.Node? ==> Walkable(data, k, t.left) && Walkable(data, k, t.right))
  }

  /** How the build shapes each node: its box is the bounding box of its
      own points; a node is split only when it holds more than a bucket of
      points, and then its left points lie at or below the middle of the
      box's longest side and its right points above it. */
  predicate Shaped(data: seq<Point>, k: nat, bucketSize: nat, t: Tree)
    requires AllDim(data, k)
  {
    && InData(data, Indices(t)) && |Indices(t)| >= 1
    && t.box == BoundsOf(Gather(data, Indices(t)), k)
    && (t.Node? ==>
          && |Indices(t)| > bucketSize && k >= 1
          && SplitsAt(data, k, t.left, SplitAxis(t.box, k), Mid(t.box, SplitAxis(t.box, k)), t.right)
          && Shaped(data, k, bucketSize, t.left) && Shaped(data, k, bucketSize, t.right))
  }

  /** The points of `l` lie at or below `mid` on `axis`, those of `r`
      above. */
  predicate SplitsAt(data: seq<Point>, k: nat, l: Tree, axis: nat, mid: real, r: Tree)
    requires AllDim(data, k) && axis < k
  {
    LieAtOrBelow(data, k, Indices(l), axis, mid) && LieAbove(data, k, Indices(r), axis, mid)
  }

  predicate LieAtOrBelow(data: seq<Point>, k: nat, indices: seq<nat>, axis: nat, mid: real)
    requires AllDim(data, k) && axis < k
  {
    InData(data, indices) && forall j :: 0 <= j < |indices| ==> data[indices[j]][axis] <= mid
  }

  predicate LieAbove(data: seq<Point>, k: nat, indices: seq<nat>, axis: nat, mid: real)
    requires AllDim(data, k) && axis < k
  {
    InData(data, indices) && forall j :: 0 <= j < |indices| ==> data[indices[j]][axis] > mid
  }

  /** The invariant of a constructed tree. */
  predicate Valid(t: KDTree) {
    && AllDim(t.data, t.k)
    && t.bucketSize >= 1
    && Bounded(t.data, t.k, t.root)
    && Walkable(t.data, t.k, t.root)
    && LeavesFit(t.root, t.bucketSize)
    && Distinct(Indices(t.root))
    && multiset(Indices(t.root)) == multiset(Range(|t.data|))
  }

  // ---------------------------------------------------------------------
  // Construction

  /** The indices whose point lies at or below `mid` on `axis`, in order. */
  function AtOrBelow(data: seq<Point>, k: nat, indices: seq<nat>, axis: nat, mid: real): (l: seq<nat>)
    requires AllDim(data, k) && InData(data, indices) && axis < k
    ensures InData(data, l)
    ensures forall j :: 0 <= j < |l| ==> data[l[j]][axis] <= mid
    decreases |indices|
  {
    if |indices| == 0 then []
    else
      var rest := AtOrBelow(data, k, indices[1..], axis, mid);
      if data[indices[0]][axis] <= mid then [indices[0]] + rest else rest
  }

  /** The indices whose point lies above `mid` on `axis`, in order. */
  function Above(data: seq<Point>, k: nat, indices: seq<nat>, axis: nat, mid: real): (r: seq<nat>)
    requires AllDim(data, k) && InData(data, indices) && axis < k
    ensures InData(data, r)
    ensures forall j :: 0 <= j < |r| ==> data[r[j]][axis] > mid
    decreases |indices|
  {
    if |indices| == 0 then []
    else
      var rest := Above(data, k, indices[1..], axis, mid);
      if data[indices[0]][axis] > mid then [indices[0]] + rest else rest
  }

  /** Every index goes to exactly one side. */
  lemma {:induction false} SidesCover(data: seq<Point>, k: nat, indices: seq<nat>, axis: nat, mid: real)
    requires AllDim(data, k) && InData(data, indices) && axis < k
    ensures multiset(AtOrBelow(data, k, indices, axis, mid)) + multiset(Above(data, k, indices, axis, mid)) == multiset(indices)
    decreases |indices|
  {
    if |indices| > 0 {
      SidesCover(data, k, indices[1..], axis, mid);
      assert indices == [indices[0]] + indices[1..];
    }
  }

  /** Split the indices on `axis` at `mid`: those at or below go left,
      the others right, each side keeping the original order. */
  function Partition(data: seq<Point>, k: nat, indices: seq<nat>, axis: nat, mid: real): (r: (seq<nat>, seq<nat>))
    requires AllDim(data, k) && InData(data, indices) && axis < k
    ensures multiset(r.0) + multiset(r.1) == multiset(indices)
    ensures |r.0| + |r.1| == |indices|
    ensures InData(data, r.0) && InData(data, r.1)
    ensures forall j :: 0 <= j < |r.0| ==> data[r.0[j]][axis] <= mid
    ensures forall j :: 0 <= j < |r.1| ==> data[r.1[j]][axis] > mid
  {
    SidesCover(data, k, indices, axis, mid);
    var r := (AtOrBelow(data, k, indices, axis, mid), Above(data, k, indices, axis, mid));
    assert |multiset(r.0) + multiset(r.1)| == |multiset(indices)|;
    r
  }

  /** A point at or below the split goes left, so the left side is not
      empty. */
  lemma {:induction false} PartitionLeftNonEmpty(data: seq<Point>, k: nat, indices: seq<nat>, axis: nat, mid: real, j: nat)
    requires AllDim(data, k) && InData(data, indices) && axis < k
    requires j < |indices| && data[indices[j]][axis] <= mid
    ensures |Partition(data, k, indices, axis, mid).0| >= 1
    decreases |indices|
  {
    if j > 0 {
      PartitionLeftNonEmpty(data, k, indices[1..], axis, mid, j - 1);
    }
  }

  lemma {:induction false} PartitionRightNonEmpty(data: seq<Point>, k: nat, indices: seq<nat>, axis: nat, mid: real, j: nat)
    requires AllDim(data, k) && InData(data, indices) && axis < k
    requires j < |indices| && data[indices[j]][axis] > mid
    ensures |Partition(data, k, indices, axis, mid).1| >= 1
    decreases |indices|
  {
    if j > 0 {
      PartitionRightNonEmpty(data, k, indices[1..], axis, mid, j - 1);
    }
  }

  /** The middle of the longest side of a box (the first such side on
      ties). */
  function SplitAxis(box: Box, k: nat): (a: nat)
    requires BoxDim(box, k) && k >= 1
    ensures a < k
    ensures forall i :: 0 <= i < k ==> box.upper[i] - box.lower[i] <= box.upper[a] - box.lower[a]
  {
    ArgMax(Sides(box))
  }

  /** Build the subtree over `indices` (at least one). A node with more
      than a bucket of points is split; when all of them coincide the
      split sends every point left again and the source never returns,
      and with no axis at all it raises. */
  function Build(data: seq<Point>, k: nat, indices: seq<nat>, bucketSize: nat): (r: Result<Tree>)
    requires bucketSize >= 1 && |indices| >= 1 && AllDim(data, k) && InData(data, indices)
    ensures r.Success? ==>
      && Bounded(data, k, r.value)
      && Walkable(data, k, r.value)
      && LeavesFit(r.value, bucketSize)
      && multiset(Indices(r.value)) == multiset(indices)
      && r.value.box == BoundsOf(Gather(data, indices), k)
    ensures r.Failure? ==> |indices| > bucketSize
    decreases |indices|, 1
  {
    var box := BoundsOf(Gather(data, indices), k);
    if |indices| <= bucketSize then
      Success(Leaf(box, indices))
    else if k == 0 then
      Failure(ValueError("attempt to get argmax of an empty sequence"))
    else
      var axis := SplitAxis(box, k);
      if box.upper[axis] - box.lower[axis] <= 0.0 then
        Failure(Diverges)
      else
        Split(data, k, indices, bucketSize, box, axis)
  }

  /** The split location: the middle of the box on `axis`. */
  function Mid(box: Box, axis: nat): real
    requires axis < |box.lower| && axis < |box.upper|
  {
    (box.lower[axis] + box.upper[axis]) / 2.0
  }

  /** Split a node with a positive longest side: both sides are non-empty,
      and the node is built exactly when both of them are. */
  function Split(data: seq<Point>, k: nat, indices: seq<nat>, bucketSize: nat, box: Box, axis: nat): (r: Result<Tree>)
    requires bucketSize >= 1 && |indices| > bucketSize && k >= 1 && AllDim(data, k) && InData(data, indices)
    requires box == BoundsOf(Gather(data, indices), k) && axis == SplitAxis(box, k)
    requires box.upper[axis] - box.lower[axis] > 0.0
    ensures r.Success? ==>
      && Bounded(data, k, r.value)
      && Walkable(data, k, r.value)
      && LeavesFit(r.value, bucketSize)
      && multiset(Indices(r.value)) == multiset(indices)
      && r.value.box == box
    ensures var (l, rr) := Partition(data, k, indices, axis, Mid(box, axis));
      && 1 <= |l| < |indices| && 1 <= |rr| < |indices|
      && (r.Success? <==> Build(data, k, l, bucketSize).Success? && Build(data, k, rr, bucketSize).Success?)
    ensures r.Failure? ==> |indices| > bucketSize
    decreases |indices|, 0
  {
    var pts := Gather(data, indices);
    var mid := Mid(box, axis);
    var (l, rr) := Partition(data, k, indices, axis, mid);
    PartitionLeftNonEmpty(data, k, indices, axis, mid, MinAt(pts, axis));
    PartitionRightNonEmpty(data, k, indices, axis, mid, MaxAt(pts, axis));
    var lt :- Build(data, k, l, bucketSize);
    var rt :- Build(data, k, rr, bucketSize);
    var t := Node(box, lt, rt);
    BuiltNodeBounded(data, k, indices, l, rr, t);
    Success(t)
  }

  /** Every node of a built tree is shaped as the build makes it: a box
      that bounds exactly its own points, a split only above a bucket of
      points, and children on either side of the middle of the longest
      side. */
  lemma {:induction false} BuildShaped(data: seq<Point>, k: nat, indices: seq<nat>, bucketSize: nat)
    requires bucketSize >= 1 && |indices| >= 1 && AllDim(data, k) && InData(data, indices)
    ensures Build(data, k, indices, bucketSize).Success? ==> Shaped(data, k, bucketSize, Build(data, k, indices, bucketSize).value)
    decreases |indices|, 1
  {
    var box := BoundsOf(Gather(data, indices), k);
    if |indices| > bucketSize && k >= 1 {
      var axis := SplitAxis(box, k);
      if box.upper[axis] - box.lower[axis] > 0.0 {
        assert Build(data, k, indices, bucketSize) == Split(data, k, indices, bucketSize, box, axis);
        SplitShaped(data, k, indices, bucketSize, box, axis);
      }
    }
  }

  /** The split case of `BuildShaped`. */
  lemma {:induction false} SplitShaped(data: seq<Point>, k: nat, indices: seq<nat>, bucketSize: nat, box: Box, axis: nat)
    requires bucketSize >= 1 && |indices| > bucketSize && k >= 1 && AllDim(data, k) && InData(data, indices)
    requires box == BoundsOf(Gather(data, indices), k) && axis == SplitAxis(box, k)
    requires box.upper[axis] - box.lower[axis] > 0.0
    ensures Split(data, k, indices, bucketSize, box, axis).Success? ==>
      Shaped(data, k, bucketSize, Split(data, k, indices, bucketSize, box, axis).value)
    decreases |indices|, 0
  {
    var mid := Mid(box, axis);
    var sides := Partition(data, k, indices, axis, mid);
    if Split(data, k, indices, bucketSize, box, axis).Success? {
      SplitNode(data, k, indices, bucketSize, box, axis);
      var lt, rt := Build(data, k, sides.0, bucketSize).value, Build(data, k, sides.1, bucketSize).value;
      assert Shaped(data, k, bucketSize, lt) by {
        BuildShaped(data, k, sides.0, bucketSize);
      }
      assert Shaped(data, k, bucketSize, rt) by {
        BuildShaped(data, k, sides.1, bucketSize);
      }
      assert LieAtOrBelow(data, k, sides.0, axis, mid) && LieAbove(data, k, sides.1, axis, mid);
      BuiltNodeShaped(data, k, indices, bucketSize, axis, sides.0, sides.1, Node(box, lt, rt));
    }
  }

  /** A split that succeeds is the node over the two sides' subtrees. */
  lemma SplitNode(data: seq<Point>, k: nat, indices: seq<nat>, bucketSize: nat, box: Box, axis: nat)
    requires bucketSize >= 1 && |indices| > bucketSize && k >= 1 && AllDim(data, k) && InData(data, indices)
    requires box == BoundsOf(Gather(data, indices), k) && axis == SplitAxis(box, k)
    requires box.upper[axis] - box.lower[axis] > 0.0
    requires Split(data, k, indices, bucketSize, box, axis).Success?
    ensures var sides := Partition(data, k, indices, axis, Mid(box, axis));
      && 1 <= |sides.0| && 1 <= |sides.1|
      && Build(data, k, sides.0, bucketSize).Success? && Build(data, k, sides.1, bucketSize).Success?
      && Split(data, k, indices, bucketSize, box, axis).value
         == Node(box, Build(data, k, sides.0, bucketSize).value, Build(data, k, sides.1, bucketSize).value)
  {
  }

  /** A constructed tree is shaped as the build makes it, from the root
      over all of the data down. */
  lemma NewShaped(data: seq<Point>, k: nat, bucketSize: int)
    requires AllDim(data, k)
    ensures New(data, k, bucketSize).Success? ==>
      && Shaped(data, k, bucketSize, New(data, k, bucketSize).value.root)
      && New(data, k, bucketSize).value.root.box == BoundsOf(data, k)
  {
    if bucketSize >= 1 && |data| >= 1 {
      var all := Range(|data|);
      assert New(data, k, bucketSize).Success? ==>
        New(data, k, bucketSize).value.root == Build(data, k, all, bucketSize).value;
      BuildShaped(data, k, all, bucketSize);
      GatherAll(data);
    }
  }

  lemma GatherAll(data: seq<Point>)
    ensures Gather(data, Range(|data|)) == data
  {
  }

  /** A permutation of indices on one side of a split is on that side
      too. */
  lemma SideKept(data: seq<Point>, k: nat, a: seq<nat>, b: seq<nat>, axis: nat, mid: real)
    requires AllDim(data, k) && axis < k && multiset(a) == multiset(b)
    ensures LieAtOrBelow(data, k, a, axis, mid) ==> LieAtOrBelow(data, k, b, axis, mid)
    ensures LieAbove(data, k, a, axis, mid) ==> LieAbove(data, k, b, axis, mid)
  {
    forall j | 0 <= j < |b|
      ensures exists m :: 0 <= m < |a| && a[m] == b[j]
    {
      assert b[j] in multiset(a);
    }
  }

  /** Two permutations of the same indices address the same points. */
  lemma GatherSamePoints(data: seq<Point>, a: seq<nat>, b: seq<nat>)
    requires InData(data, a) && InData(data, b) && multiset(a) == multiset(b)
    ensures forall j :: 0 <= j < |b| ==> Gather(data, b)[j] in Gather(data, a)
  {
    forall j | 0 <= j < |b|
      ensures Gather(data, b)[j] in Gather(data, a)
    {
      assert b[j] in multiset(a);
      var m :| 0 <= m < |a| && a[m] == b[j];
      assert Gather(data, a)[m] == data[b[j]];
    }
  }

  /** A node assembled by `Split` from two shaped children is shaped. */
  lemma BuiltNodeShaped(data: seq<Point>, k: nat, indices: seq<nat>, bucketSize: nat, axis: nat, l: seq<nat>, r: seq<nat>, t: Tree)
    requires |indices| > bucketSize && k >= 1 && AllDim(data, k) && InData(data, indices)
    requires t.Node? && t.box == BoundsOf(Gather(data, indices), k) && axis == SplitAxis(t.box, k)
    requires InData(data, Indices(t))
    requires multiset(l) + multiset(r) == multiset(indices)
    requires multiset(Indices(t.left)) == multiset(l) && multiset(Indices(t.right)) == multiset(r)
    requires LieAtOrBelow(data, k, l, axis, Mid(t.box, axis)) && LieAbove(data, k, r, axis, Mid(t.box, axis))
    requires Shaped(data, k, bucketSize, t.left) && Shaped(data, k, bucketSize, t.right)
    ensures Shaped(data, k, bucketSize, t)
  {
    assert multiset(Indices(t)) == multiset(indices);
    GatherSamePoints(data, indices, Indices(t));
    GatherSamePoints(data, Indices(t), indices);
    BoundsOfSamePoints(Gather(data, indices), Gather(data, Indices(t)), k);
    SideKept(data, k, l, Indices(t.left), axis, Mid(t.box, axis));
    SideKept(data, k, r, Indices(t.right), axis, Mid(t.box, axis));
    assert |Indices(t)| == |indices| by {
      assert |multiset(Indices(t))| == |multiset(indices)|;
    }
    assert t.box == BoundsOf(Gather(data, Indices(t)), k);
    assert SplitsAt(data, k, t.left, axis, Mid(t.box, axis), t.right);
  }

  /** The box of a node built from `indices` holds every point of its two
      subtrees. */
  lemma BuiltNodeBounded(data: seq<Point>, k: nat, indices: seq<nat>, l: seq<nat>, r: seq<nat>, t: Tree)
    requires |indices| >= 1 && AllDim(data, k) && InData(data, indices)
    requires t.Node? && t.box == BoundsOf(Gather(data, indices), k)
    requires multiset(l) + multiset(r) == multiset(indices)
    requires multiset(Indices(t.left)) == multiset(l) && multiset(Indices(t.right)) == multiset(r)
    ensures InData(data, Indices(t))
    ensures forall j :: 0 <= j < |Indices(t)| ==> Contains(t.box, data[Indices(t)[j]])
  {
    var pts := Gather(data, indices);
    assert multiset(Indices(t)) == multiset(indices);
    forall j | 0 <= j < |Indices(t)|
      ensures Indices(t)[j] < |data| && Contains(t.box, data[Indices(t)[j]])
    {
      var x := Indices(t)[j];
      assert x in multiset(indices);
      var m :| 0 <= m < |indices| && indices[m] == x;
      assert pts[m] == data[x];
    }
  }

  /** Construct a tree over all of `data`. A bucket size below 1 is
      rejected; so is empty data, which has no bounds. */
  function New(data: seq<Point>, k: nat, bucketSize: int): (r: Result<KDTree>)
    requires AllDim(data, k)
    ensures bucketSize < 1 ==> r == Failure(ValueError("A minimum bucket size of 1 is expected."))
    ensures bucketSize >= 1 && |data| == 0 ==> r == Failure(EmptyInput)
    ensures r.Success? ==>
      Valid(r.value) && r.value.data == data && r.value.k == k && r.value.bucketSize == bucketSize
  {
    if bucketSize < 1 then
      Failure(ValueError("A minimum bucket size of 1 is expected."))
    else if |data| == 0 then
      Failure(EmptyInput)
    else
      var root :- Build(data, k, Range(|data|), bucketSize);
      RangeDistinct(|data|);
      MultisetDistinct(Range(|data|), Indices(root));
      Success(KDTree(data, k, bucketSize, root))
  }

  /** With a usable bucket size and some data, construction finishes
      exactly when no more than a bucket of points share one location. */
  lemma NewSucceedsIff(data: seq<Point>, k: nat, bucketSize: int)
    requires AllDim(data, k) && bucketSize >= 1 && |data| >= 1
    ensures InData(data, Range(|data|))
    ensures New(data, k, bucketSize).Success? <==> FewCoincident(data, Range(|data|), bucketSize)
  {
    BuildSucceedsIff(data, k, Range(|data|), bucketSize);
  }

  lemma RangeDistinct(n: nat)
    ensures Distinct(Range(n))
  {
  }

  /** A permutation of a sequence without repeats has none either. */
  lemma MultisetDistinct(a: seq<nat>, b: seq<nat>)
    requires Distinct(a) && multiset(a) == multiset(b)
    ensures Distinct(b)
  {
    forall i, j | 0 <= i < j < |b|
      ensures b[i] != b[j]
    {
      if b[i] == b[j] {
        var x := b[i];
        assert multiset(b)[x] >= 2 by {
          assert b == b[..i] + [x] + b[i + 1..j] + [x] + b[j + 1..];
        }
        DistinctCount(a, x);
        assert false;
      }
    }
  }

  lemma {:induction false} DistinctCount(a: seq<nat>, x: nat)
    requires Distinct(a)
    ensures multiset(a)[x] <= 1
    decreases |a|
  {
    if |a| > 0 {
      assert a == [a[0]] + a[1..];
      DistinctCount(a[1..], x);
      if a[0] == x {
        assert x !in a[1..];
      }
    }
  }

  // ---------------------------------------------------------------------
  // When construction finishes

  /** How many of the indices address a point equal to `q`. */
  function Multiplicity(data: seq<Point>, indices: seq<nat>, q: Point): nat
    requires InData(data, indices)
    decreases |indices|
  {
    if |indices| == 0 then 0
    else (if data[indices[0]] == q then 1 else 0) + Multiplicity(data, indices[1..], q)
  }

  /** No point is repeated more than a bucket's worth of times. */
  predicate FewCoincident(data: seq<Point>, indices: seq<nat>, bucketSize: nat)
    requires InData(data, indices)
  {
    forall j :: 0 <= j < |indices| ==> Multiplicity(data, indices, data[indices[j]]) <= bucketSize
  }

  /** Construction finishes exactly when no more than a bucket of points
      share one location: otherwise some node ends up holding only copies
      of one point, which no split can separate. */
  lemma {:induction false} BuildSucceedsIff(data: seq<Point>, k: nat, indices: seq<nat>, bucketSize: nat)
    requires bucketSize >= 1 && |indices| >= 1 && AllDim(data, k) && InData(data, indices)
    ensures Build(data, k, indices, bucketSize).Success? <==> FewCoincident(data, indices, bucketSize)
    decreases |indices|
  {
    var pts := Gather(data, indices);
    var box := BoundsOf(pts, k);
    if |indices| <= bucketSize {
      forall j | 0 <= j < |indices|
        ensures Multiplicity(data, indices, data[indices[j]]) <= bucketSize
      {
        MultiplicityBound(data, indices, data[indices[j]]);
      }
    } else if k == 0 {
      AllCoincide(data, k, indices, box);
    } else {
      var axis := SplitAxis(box, k);
      if box.upper[axis] - box.lower[axis] <= 0.0 {
        AllCoincide(data, k, indices, box);
      } else {
        var mid := Mid(box, axis);
        var (l, rr) := Partition(data, k, indices, axis, mid);
        assert Build(data, k, indices, bucketSize) == Split(data, k, indices, bucketSize, box, axis);
        BuildSucceedsIff(data, k, l, bucketSize);
        BuildSucceedsIff(data, k, rr, bucketSize);
        PartitionFewCoincident(data, k, indices, axis, mid, bucketSize);
      }
    }
  }

  lemma {:induction false} MultiplicityBound(data: seq<Point>, indices: seq<nat>, q: Point)
    requires InData(data, indices)
    ensures Multiplicity(data, indices, q) <= |indices|
    decreases |indices|
  {
    if |indices| > 0 {
      MultiplicityBound(data, indices[1..], q);
    }
  }

  /** When the longest side is empty (or there is no axis), every point is
      the first one, so it is repeated more than a bucket's worth. */
  lemma AllCoincide(data: seq<Point>, k: nat, indices: seq<nat>, box: Box)
    requires |indices| >= 1 && AllDim(data, k) && InData(data, indices)
    requires box == BoundsOf(Gather(data, indices), k)
    requires k == 0 || box.upper[SplitAxis(box, k)] - box.lower[SplitAxis(box, k)] <= 0.0
    ensures Multiplicity(data, indices, data[indices[0]]) == |indices|
  {
    var q := data[indices[0]];
    var pts := Gather(data, indices);
    forall j | 0 <= j < |indices|
      ensures data[indices[j]] == q
    {
      assert Contains(box, pts[j]) && Contains(box, pts[0]);
      forall a | 0 <= a < k
        ensures data[indices[j]][a] == q[a]
      {
        assert box.upper[a] - box.lower[a] <= 0.0;
      }
    }
    MultiplicityAll(data, indices, q);
  }

  lemma {:induction false} MultiplicityAll(data: seq<Point>, indices: seq<nat>, q: Point)
    requires InData(data, indices)
    requires forall j :: 0 <= j < |indices| ==> data[indices[j]] == q
    ensures Multiplicity(data, indices, q) == |indices|
    decreases |indices|
  {
    if |indices| > 0 {
      MultiplicityAll(data, indices[1..], q);
    }
  }

  /** Copies of one point go to the same side of a split: the indices have
      few coincident points exactly when both sides do. */
  lemma PartitionFewCoincident(data: seq<Point>, k: nat, indices: seq<nat>, axis: nat, mid: real, bucketSize: nat)
    requires AllDim(data, k) && InData(data, indices) && axis < k
    ensures var (l, r) := Partition(data, k, indices, axis, mid);
      FewCoincident(data, indices, bucketSize) <==>
        FewCoincident(data, l, bucketSize) && FewCoincident(data, r, bucketSize)
  {
    var (l, r) := Partition(data, k, indices, axis, mid);
    forall q | |q| == k
      ensures q[axis] <= mid ==> Multiplicity(data, l, q) == Multiplicity(data, indices, q)
      ensures q[axis] > mid ==> Multiplicity(data, r, q) == Multiplicity(data, indices, q)
    {
      PartitionMultiplicity(data, k, indices, axis, mid, q);
    }
    if FewCoincident(data, indices, bucketSize) {
      forall j | 0 <= j < |l|
        ensures Multiplicity(data, l, data[l[j]]) <= bucketSize
      {
        MemberOfPartition(data, k, indices, axis, mid, l[j]);
        var m :| 0 <= m < |indices| && indices[m] == l[j];
      }
      forall j | 0 <= j < |r|
        ensures Multiplicity(data, r, data[r[j]]) <= bucketSize
      {
        MemberOfPartition(data, k, indices, axis, mid, r[j]);
        var m :| 0 <= m < |indices| && indices[m] == r[j];
      }
    }
    if FewCoincident(data, l, bucketSize) && FewCoincident(data, r, bucketSize) {
      forall j | 0 <= j < |indices|
        ensures Multiplicity(data, indices, data[indices[j]]) <= bucketSize
      {
        var x := indices[j];
        assert x in multiset(indices);
        if data[x][axis] <= mid {
          assert x in multiset(l) by { PartitionSide(data, k, indices, axis, mid, x); }
          var m :| 0 <= m < |l| && l[m] == x;
        } else {
          assert x in multiset(r) by { PartitionSide(data, k, indices, axis, mid, x); }
          var m :| 0 <= m < |r| && r[m] == x;
        }
      }
    }
  }

  /** Every index on either side of a split comes from the input. */
  lemma MemberOfPartition(data: seq<Point>, k: nat, indices: seq<nat>, axis: nat, mid: real, x: nat)
    requires AllDim(data, k) && InData(data, indices) && axis < k
    requires x in Partition(data, k, indices, axis, mid).0 || x in Partition(data, k, indices, axis, mid).1
    ensures x in indices
  {
    var (l, r) := Partition(data, k, indices, axis, mid);
    assert x in multiset(l) || x in multiset(r);
    assert x in multiset(indices);
  }

  /** An input index lands on the side its coordinate selects. */
  lemma PartitionSide(data: seq<Point>, k: nat, indices: seq<nat>, axis: nat, mid: real, x: nat)
    requires AllDim(data, k) && InData(data, indices) && axis < k
    requires x in multiset(indices)
    ensures data[x][axis] <= mid ==> x in multiset(Partition(data, k, indices, axis, mid).0)
    ensures data[x][axis] > mid ==> x in multiset(Partition(data, k, indices, axis, mid).1)
  {
    var (l, r) := Partition(data, k, indices, axis, mid);
    assert x in multiset(l) || x in multiset(r);
    if data[x][axis] <= mid {
      assert forall m :: 0 <= m < |r| ==> r[m] != x;
      assert x !in r;
    } else {
      assert forall m :: 0 <= m < |l| ==> l[m] != x;
      assert x !in l;
    }
  }

  /** All copies of a point go to the side its coordinate selects. */
  lemma {:induction false} PartitionMultiplicity(data: seq<Point>, k: nat, indices: seq<nat>, axis: nat, mid: real, q: Point)
    requires AllDim(data, k) && InData(data, indices) && axis < k && |q| == k
    ensures q[axis] <= mid ==> Multiplicity(data, Partition(data, k, indices, axis, mid).0, q) == Multiplicity(data, indices, q)
    ensures q[axis] > mid ==> Multiplicity(data, Partition(data, k, indices, axis, mid).1, q) == Multiplicity(data, indices, q)
    decreases |indices|
  {
    if |indices| > 0 {
      PartitionMultiplicity(data, k, indices[1..], axis, mid, q);
      var (l, r) := Partition(data, k, indices[1..], axis, mid);
      if data[indices[0]][axis] <= mid {
        assert ([indices[0]] + l)[1..] == l;
      } else {
        assert ([indices[0]] + r)[1..] == r;
      }
    }
  }

  // ---------------------------------------------------------------------
  // Contiguous layout

  /** A node as stored contiguously: the number of nodes in its subtree
      (itself included), its bucket number (-1 for a split node) and its
      bounds. */
  datatype FlatNode = FlatNode(size: nat, bucket: int, box: Box)

  /** The nodes in depth-first order, left before right, and the buckets
      in the order their leaves are met; leaf buckets are numbered from
      `base`. */
  function Flatten(t: Tree, base: nat): (r: (seq<FlatNode>, seq<seq<nat>>))
    ensures |r.0| == NodeCount(t) && |r.0| >= 1 && r.0[0].size == |r.0|
    ensures r.0[0].box == t.box
    ensures Concat(r.1) == Indices(t)
  {
    match t
    case Leaf(box, ix) =>
      assert Concat([ix]) == ix;
      ([FlatNode(1, base, box)], [ix])
    case Node(box, l, r) =>
      var (ln, lb) := Flatten(l, base);
      var (rn, rb) := Flatten(r, base + |lb|);
      ConcatAppend(lb, rb);
      ([FlatNode(1 + |ln| + |rn|, -1, box)] + ln + rn, lb + rb)
  }

  function Concat(chunks: seq<seq<nat>>): seq<nat> {
    if |chunks| == 0 then [] else chunks[0] + Concat(chunks[1..])
  }

  lemma {:induction false} ConcatAppend(a: seq<seq<nat>>, b: seq<seq<nat>>)
    ensures Concat(a + b) == Concat(a) + Concat(b)
  {
    if |a| == 0 {
      assert a + b == b;
    } else {
      assert (a + b)[1..] == a[1..] + b;
      ConcatAppend(a[1..], b);
    }
  }

  /** The navigation the search relies on, at node `i`: the subtree stays
      inside the array; a node is a leaf exactly when its size is 1, and
      a leaf's bucket exists; a split node's left child follows it, its
      right child follows the left subtree, and its size counts both. */
  predicate NavigableAt(nodes: seq<FlatNode>, bucketsEnd: nat, i: nat)
    requires i < |nodes|
  {
    var n := nodes[i];
    && 1 <= n.size && i + n.size <= |nodes|
    && (n.size == 1 <==> n.bucket >= 0)
    && (n.size == 1 ==> n.bucket < bucketsEnd)
    && (n.size > 1 ==>
          && i + 1 + nodes[i + 1].size < i + n.size
          && n.size == 1 + nodes[i + 1].size + nodes[i + 1 + nodes[i + 1].size].size)
  }

  predicate Navigable(nodes: seq<FlatNode>, bucketsEnd: nat) {
    forall i :: 0 <= i < |nodes| ==> NavigableAt(nodes, bucketsEnd, i)
  }

  /** The contiguous layout supports the search's navigation: from any
      node, its children are found at i + 1 and i + 1 + size[i + 1], and
      every leaf's bucket is below the bucket count. */
  lemma {:induction false} FlattenNavigable(t: Tree, base: nat)
    ensures Navigable(Flatten(t, base).0, base + |Flatten(t, base).1|)
  {
    match t
    case Leaf(box, ix) =>
    case Node(box, l, r) =>
      var fl := Flatten(l, base);
      var fr := Flatten(r, base + |fl.1|);
      FlattenNavigable(l, base);
      FlattenNavigable(r, base + |fl.1|);
      JoinNavigable(FlatNode(1 + |fl.0| + |fr.0|, -1, box), fl.0, fr.0, base + |fl.1|, base + |fl.1| + |fr.1|);
  }

  /** A split node followed by two navigable subtrees is navigable. */
  lemma JoinNavigable(root: FlatNode, ln: seq<FlatNode>, rn: seq<FlatNode>, lend: nat, end: nat)
    requires |ln| >= 1 && |rn| >= 1 && ln[0].size == |ln| && rn[0].size == |rn|
    requires root.size == 1 + |ln| + |rn| && root.bucket == -1
    requires Navigable(ln, lend) && Navigable(rn, end) && lend <= end
    ensures Navigable([root] + ln + rn, end)
  {
    var nodes := [root] + ln + rn;
    forall i | 0 <= i < |nodes|
      ensures NavigableAt(nodes, end, i)
    {
      if i == 0 {
        assert nodes[1] == ln[0];
        assert nodes[1 + |ln|] == rn[0];
      } else if i < 1 + |ln| {
        assert NavigableAt(ln, lend, i - 1);
        ShiftNavigable(ln, [root], rn, lend, end, i - 1);
      } else {
        assert NavigableAt(rn, end, i - 1 - |ln|);
        ShiftNavigable(rn, [root] + ln, [], end, end, i - 1 - |ln|);
        assert [root] + ln + rn + [] == nodes;
      }
    }
  }

  /** Navigation at a node depends only on its own subtree, so it survives
      placing the array between others. */
  lemma ShiftNavigable(a: seq<FlatNode>, pre: seq<FlatNode>, post: seq<FlatNode>, end: nat, end': nat, i: nat)
    requires i < |a| && NavigableAt(a, end, i) && end <= end'
    ensures NavigableAt(pre + a + post, end', |pre| + i)
  {
    var all := pre + a + post;
    var s := |pre|;
    assert all[s + i] == a[i];
    if a[i].size > 1 {
      assert all[s + i + 1] == a[i + 1];
      assert all[s + i + 1 + a[i + 1].size] == a[i + 1 + a[i + 1].size];
    }
  }

  /** The layout of a whole tree. */
  function Layout(t: KDTree): (r: (seq<FlatNode>, seq<seq<nat>>))
    ensures Navigable(r.0, |r.1|)
    ensures Concat(r.1) == Indices(t.root)
  {
    FlattenNavigable(t.root, 0);
    Flatten(t.root, 0)
  }
}

=== FILE: kdtree_fixture.dfy ===
/** The first k-d tree search suite of the repository's tests, worked out
    on exact reals: five points in the plane, searched from two queries
    for every count from 0 to 5 without a radius, and from a third query
    for all points within three radii. The results hold for every valid
    tree over these points, so for every bucket size the tests build. */
module KDTreeFixture {
  import opened Wrappers
  import opened Geometry
  import opened KDTree
  import opened KDTreeSearch
  import opened KDTreeRanking
  import Seqs

  /** The five points of the suite. */
  const Points: seq<Point> := [[1.1, 1.5], [1.2, -1.6], [-1.3, -1.7], [-1.4, 1.8], [0.5, 0.5]]

  /** The squared distance between two points of the plane, axis by axis. */
  lemma SqDistPlane(p: Point, q: Point)
    requires |p| == 2 && |q| == 2
    ensures SqDist(p, q) == Sq(p[0] - q[0]) + Sq(p[1] - q[1])
  {
    assert SqDist(p[1..][1..], q[1..][1..]) == 0.0;
  }

  /** The brute-force filter's contribution for point `i`. */
  function Entry(data: seq<Point>, p: Point, r: Bound, i: nat): seq<Neighbour>
    requires AllDim(data, |p|) && i < |data|
  {
    if NotAbove(SqDist(p, data[i]), r) then [Neighbour(SqDist(p, data[i]), i)] else []
  }

  lemma FilterLastTwo(data: seq<Point>, p: Point, r: Bound)
    requires |data| == 5 && AllDim(data, |p|)
    ensures WithinFilter(data, p, r, [3, 4]) == Entry(data, p, r, 3) + Entry(data, p, r, 4)
  {
    assert [3, 4][1..] == [4];
    assert [4][1..] == [];
  }

  lemma FilterLastFour(data: seq<Point>, p: Point, r: Bound)
    requires |data| == 5 && AllDim(data, |p|)
    ensures WithinFilter(data, p, r, [1, 2, 3, 4])
      == Entry(data, p, r, 1) + (Entry(data, p, r, 2) + (Entry(data, p, r, 3) + Entry(data, p, r, 4)))
  {
    FilterLastTwo(data, p, r);
    assert [1, 2, 3, 4][1..] == [2, 3, 4];
    assert [2, 3, 4][1..] == [3, 4];
  }

  lemma RangeFive()
    ensures Range(5) == [0, 1, 2, 3, 4]
  {
  }

  /** Over five points the filter keeps each point in index order. */
  lemma FilterFive(data: seq<Point>, p: Point, r: Bound)
    requires |data| == 5 && AllDim(data, |p|)
    ensures WithinFilter(data, p, r, Range(5))
      == Entry(data, p, r, 0) + (Entry(data, p, r, 1) + (Entry(data, p, r, 2) + (Entry(data, p, r, 3) + Entry(data, p, r, 4))))
  {
    FilterLastFour(data, p, r);
    RangeFive();
    assert [0, 1, 2, 3, 4][1..] == [1, 2, 3, 4];
  }

  /** A sorted reordering is what sorting gives. */
  lemma SortIs(s: seq<Neighbour>, sorted: seq<Neighbour>)
    requires Sorted(sorted) && multiset(sorted) == multiset(s)
    ensures Sort(s) == sorted
  {
    SortedUnique(Sort(s), sorted);
  }

  lemma FarQueryDistances()
    ensures SqDist([2.0, 4.0], Points[0]) == 7.06
    ensures SqDist([2.0, 4.0], Points[1]) == 32.0
    ensures SqDist([2.0, 4.0], Points[2]) == 43.38
    ensures SqDist([2.0, 4.0], Points[3]) == 16.4
    ensures SqDist([2.0, 4.0], Points[4]) == 14.5
  {
    forall i | 0 <= i < 5
      ensures SqDist([2.0, 4.0], Points[i]) == Sq(2.0 - Points[i][0]) + Sq(4.0 - Points[i][1])
    {
      SqDistPlane([2.0, 4.0], Points[i]);
    }
  }

  lemma FarQueryFilter()
    ensures WithinFilter(Points, [2.0, 4.0], Unbounded, Range(5))
      == [Neighbour(7.06, 0), Neighbour(32.0, 1), Neighbour(43.38, 2), Neighbour(16.4, 3), Neighbour(14.5, 4)]
  {
    FarQueryDistances();
    FilterFive(Points, [2.0, 4.0], Unbounded);
  }

  lemma FarQueryOrder()
    ensures Sorted([Neighbour(7.06, 0), Neighbour(14.5, 4), Neighbour(16.4, 3), Neighbour(32.0, 1), Neighbour(43.38, 2)])
  {
    var expected := [Neighbour(7.06, 0), Neighbour(14.5, 4), Neighbour(16.4, 3), Neighbour(32.0, 1), Neighbour(43.38, 2)];
    forall i, j | 0 <= i < j < 5 ensures Precedes(expected[i], expected[j]) {
      assert expected[i].sqDist < expected[j].sqDist;
    }
  }

  lemma FarQueryPerm()
    ensures multiset([Neighbour(7.06, 0), Neighbour(14.5, 4), Neighbour(16.4, 3), Neighbour(32.0, 1), Neighbour(43.38, 2)]) == multiset([Neighbour(7.06, 0), Neighbour(32.0, 1), Neighbour(43.38, 2), Neighbour(16.4, 3), Neighbour(14.5, 4)])
  {
  }

  lemma FarQuerySorted()
    ensures Sort([Neighbour(7.06, 0), Neighbour(32.0, 1), Neighbour(43.38, 2), Neighbour(16.4, 3), Neighbour(14.5, 4)])
      == [Neighbour(7.06, 0), Neighbour(14.5, 4), Neighbour(16.4, 3), Neighbour(32.0, 1), Neighbour(43.38, 2)]
  {
    FarQueryOrder();
    FarQueryPerm();
    SortIs([Neighbour(7.06, 0), Neighbour(32.0, 1), Neighbour(43.38, 2), Neighbour(16.4, 3), Neighbour(14.5, 4)], [Neighbour(7.06, 0), Neighbour(14.5, 4), Neighbour(16.4, 3), Neighbour(32.0, 1), Neighbour(43.38, 2)]);
  }

  lemma NearQueryDistances()
    ensures SqDist([-0.2, 0.4], Points[0]) == 2.9
    ensures SqDist([-0.2, 0.4], Points[1]) == 5.96
    ensures SqDist([-0.2, 0.4], Points[2]) == 5.62
    ensures SqDist([-0.2, 0.4], Points[3]) == 3.4
    ensures SqDist([-0.2, 0.4], Points[4]) == 0.5
  {
    forall i | 0 <= i < 5
      ensures SqDist([-0.2, 0.4], Points[i]) == Sq(-0.2 - Points[i][0]) + Sq(0.4 - Points[i][1])
    {
      SqDistPlane([-0.2, 0.4], Points[i]);
    }
  }

  lemma NearQueryFilterOne()
    ensures WithinFilter(Points, [-0.2, 0.4], AtMost(1.0), Range(5)) == [Neighbour(0.5, 4)]
  {
    NearQueryDistances();
    FilterFive(Points, [-0.2, 0.4], AtMost(1.0));
  }

  lemma NearQueryFilterTwo()
    ensures WithinFilter(Points, [-0.2, 0.4], AtMost(4.0), Range(5))
      == [Neighbour(2.9, 0), Neighbour(3.4, 3), Neighbour(0.5, 4)]
  {
    NearQueryDistances();
    FilterFive(Points, [-0.2, 0.4], AtMost(4.0));
  }

  lemma NearQueryOrderTwo()
    ensures Sorted([Neighbour(0.5, 4), Neighbour(2.9, 0), Neighbour(3.4, 3)])
  {
    var expected := [Neighbour(0.5, 4), Neighbour(2.9, 0), Neighbour(3.4, 3)];
    forall i, j | 0 <= i < j < 3 ensures Precedes(expected[i], expected[j]) {
      assert expected[i].sqDist < expected[j].sqDist;
    }
  }

  lemma NearQuerySortedTwo()
    ensures Sort([Neighbour(2.9, 0), Neighbour(3.4, 3), Neighbour(0.5, 4)])
      == [Neighbour(0.5, 4), Neighbour(2.9, 0), Neighbour(3.4, 3)]
  {
    NearQueryOrderTwo();
    assert multiset([Neighbour(0.5, 4), Neighbour(2.9, 0), Neighbour(3.4, 3)])
      == multiset([Neighbour(2.9, 0), Neighbour(3.4, 3), Neighbour(0.5, 4)]);
    SortIs([Neighbour(2.9, 0), Neighbour(3.4, 3), Neighbour(0.5, 4)], [Neighbour(0.5, 4), Neighbour(2.9, 0), Neighbour(3.4, 3)]);
  }

  /** No point other than one at the indices equals `q`. */
  lemma {:induction false} MultiplicityNone(data: seq<Point>, indices: seq<nat>, q: Point)
    requires InData(data, indices)
    requires forall m :: 0 <= m < |indices| ==> data[indices[m]] != q
    ensures Multiplicity(data, indices, q) == 0
    decreases |indices|
  {
    if |indices| > 0 {
      MultiplicityNone(data, indices[1..], q);
    }
  }

  /** When the indexed points are pairwise different, each location is
      held at most once. */
  lemma {:induction false} MultiplicityAtMostOne(data: seq<Point>, indices: seq<nat>, q: Point)
    requires InData(data, indices)
    requires forall a, b :: 0 <= a < b < |indices| ==> data[indices[a]] != data[indices[b]]
    ensures Multiplicity(data, indices, q) <= 1
    decreases |indices|
  {
    if |indices| > 0 {
      if data[indices[0]] == q {
        forall m | 0 <= m < |indices[1..]| ensures data[indices[1..][m]] != q {
          assert indices[1..][m] == indices[m + 1];
        }
        MultiplicityNone(data, indices[1..], q);
      } else {
        MultiplicityAtMostOne(data, indices[1..], q);
      }
    }
  }

  /** The five points lie at five different places. */
  lemma PointsDiffer()
    ensures forall a, b :: 0 <= a < b < |Range(5)| ==> Points[Range(5)[a]] != Points[Range(5)[b]]
  {
    forall a, b | 0 <= a < b < |Range(5)| ensures Points[Range(5)[a]] != Points[Range(5)[b]] {
      assert Points[a][0] != Points[b][0];
    }
  }

  /** No location is shared, so no bucket size is too small. */
  lemma PointsFewCoincident(bucketSize: nat)
    requires bucketSize >= 1
    ensures InData(Points, Range(5)) && FewCoincident(Points, Range(5), bucketSize)
  {
    var ix := Range(5);
    PointsDiffer();
    forall j | 0 <= j < |ix| ensures Multiplicity(Points, ix, Points[ix[j]]) <= bucketSize {
      MultiplicityAtMostOne(Points, ix, Points[ix[j]]);
    }
  }

  /** A tree over the five points is built for every bucket size the
      constructor accepts. */
  lemma PointsBuild(bucketSize: int)
    requires bucketSize >= 1
    ensures New(Points, 2, bucketSize).Success?
  {
    NewSucceedsIff(Points, 2, bucketSize);
    PointsFewCoincident(bucketSize);
  }

  /** The suite's expected answer from (2.0, 4.0): indices 0, 4, 3, 1, 2. */
  const FarRanking: seq<Neighbour> :=
    [Neighbour(7.06, 0), Neighbour(14.5, 4), Neighbour(16.4, 3), Neighbour(32.0, 1), Neighbour(43.38, 2)]

  /** The suite's expected answer from (0.6, -0.7): indices 1, 4, 2, 0, 3. */
  const LowRanking: seq<Neighbour> :=
    [Neighbour(1.17, 1), Neighbour(1.45, 4), Neighbour(4.61, 2), Neighbour(5.09, 0), Neighbour(10.25, 3)]

  /** The suite's expected answer from (-0.2, 0.4) within radius 3.0:
      indices 4, 0, 3, 2, 1. */
  const NearRanking: seq<Neighbour> :=
    [Neighbour(0.5, 4), Neighbour(2.9, 0), Neighbour(3.4, 3), Neighbour(5.62, 2), Neighbour(5.96, 1)]

  lemma FarRanked()
    ensures Ranked(Points, [2.0, 4.0], Unbounded) == FarRanking
  {
    FarQueryFilter();
    FarQuerySorted();
  }

  lemma FarNoTies()
    ensures NoTies(Points, [2.0, 4.0])
  {
    FarQueryDistances();
  }

  /** Searching from (2.0, 4.0) for `count` points without a radius, as
      the suite does for every count from 0 to 5, returns the first
      `count` entries of the expected answer. */
  lemma FarQuery(t: KDTree, count: int)
    requires Valid(t) && t.data == Points && t.k == 2 && 0 <= count
    ensures Search(t, [2.0, 4.0], Some(count), None, true) == FarRanking[..Seqs.Min(count, 5)]
  {
    if count >= 1 {
      FarNoTies();
      FarRanked();
      SearchIsRankedPrefix(t, [2.0, 4.0], count, None);
    }
  }

  lemma LowQueryDistances()
    ensures SqDist([0.6, -0.7], Points[0]) == 5.09
    ensures SqDist([0.6, -0.7], Points[1]) == 1.17
    ensures SqDist([0.6, -0.7], Points[2]) == 4.61
    ensures SqDist([0.6, -0.7], Points[3]) == 10.25
    ensures SqDist([0.6, -0.7], Points[4]) == 1.45
  {
    forall i | 0 <= i < 5
      ensures SqDist([0.6, -0.7], Points[i]) == Sq(0.6 - Points[i][0]) + Sq(-0.7 - Points[i][1])
    {
      SqDistPlane([0.6, -0.7], Points[i]);
    }
  }

  lemma LowQueryFilter()
    ensures WithinFilter(Points, [0.6, -0.7], Unbounded, Range(5))
      == [Neighbour(5.09, 0), Neighbour(1.17, 1), Neighbour(4.61, 2), Neighbour(10.25, 3), Neighbour(1.45, 4)]
  {
    LowQueryDistances();
    FilterFive(Points, [0.6, -0.7], Unbounded);
  }

  lemma LowQueryOrder()
    ensures Sorted([Neighbour(1.17, 1), Neighbour(1.45, 4), Neighbour(4.61, 2), Neighbour(5.09, 0), Neighbour(10.25, 3)])
  {
    var expected := [Neighbour(1.17, 1), Neighbour(1.45, 4), Neighbour(4.61, 2), Neighbour(5.09, 0), Neighbour(10.25, 3)];
    forall i, j | 0 <= i < j < 5 ensures Precedes(expected[i], expected[j]) {
      assert expected[i].sqDist < expected[j].sqDist;
    }
  }

  lemma LowQueryPerm()
    ensures multiset([Neighbour(1.17, 1), Neighbour(1.45, 4), Neighbour(4.61, 2), Neighbour(5.09, 0), Neighbour(10.25, 3)]) == multiset([Neighbour(5.09, 0), Neighbour(1.17, 1), Neighbour(4.61, 2), Neighbour(10.25, 3), Neighbour(1.45, 4)])
  {
  }

  lemma LowQuerySorted()
    ensures Sort([Neighbour(5.09, 0), Neighbour(1.17, 1), Neighbour(4.61, 2), Neighbour(10.25, 3), Neighbour(1.45, 4)])
      == [Neighbour(1.17, 1), Neighbour(1.45, 4), Neighbour(4.61, 2), Neighbour(5.09, 0), Neighbour(10.25, 3)]
  {
    LowQueryOrder();
    LowQueryPerm();
    SortIs([Neighbour(5.09, 0), Neighbour(1.17, 1), Neighbour(4.61, 2), Neighbour(10.25, 3), Neighbour(1.45, 4)], [Neighbour(1.17, 1), Neighbour(1.45, 4), Neighbour(4.61, 2), Neighbour(5.09, 0), Neighbour(10.25, 3)]);
  }

  lemma LowRanked()
    ensures Ranked(Points, [0.6, -0.7], Unbounded) == LowRanking
  {
    LowQueryFilter();
    LowQuerySorted();
  }

  lemma LowNoTies()
    ensures NoTies(Points, [0.6, -0.7])
  {
    LowQueryDistances();
  }

  /** Searching from (0.6, -0.7) for `count` points without a radius, as
      the suite does for every count from 0 to 5, returns the first
      `count` entries of the expected answer. */
  lemma LowQuery(t: KDTree, count: int)
    requires Valid(t) && t.data == Points && t.k == 2 && 0 <= count
    ensures Search(t, [0.6, -0.7], Some(count), None, true) == LowRanking[..Seqs.Min(count, 5)]
  {
    if count >= 1 {
      LowNoTies();
      LowRanked();
      SearchIsRankedPrefix(t, [0.6, -0.7], count, None);
    }
  }

  lemma NearQueryWideFilter()
    ensures WithinFilter(Points, [-0.2, 0.4], AtMost(9.0), Range(5))
      == [Neighbour(2.9, 0), Neighbour(5.96, 1), Neighbour(5.62, 2), Neighbour(3.4, 3), Neighbour(0.5, 4)]
  {
    NearQueryDistances();
    FilterFive(Points, [-0.2, 0.4], AtMost(9.0));
  }

  lemma NearQueryWideOrder()
    ensures Sorted([Neighbour(0.5, 4), Neighbour(2.9, 0), Neighbour(3.4, 3), Neighbour(5.62, 2), Neighbour(5.96, 1)])
  {
    var expected := [Neighbour(0.5, 4), Neighbour(2.9, 0), Neighbour(3.4, 3), Neighbour(5.62, 2), Neighbour(5.96, 1)];
    forall i, j | 0 <= i < j < 5 ensures Precedes(expected[i], expected[j]) {
      assert expected[i].sqDist < expected[j].sqDist;
    }
  }

  lemma NearQueryWidePerm()
    ensures multiset([Neighbour(0.5, 4), Neighbour(2.9, 0), Neighbour(3.4, 3), Neighbour(5.62, 2), Neighbour(5.96, 1)]) == multiset([Neighbour(2.9, 0), Neighbour(5.96, 1), Neighbour(5.62, 2), Neighbour(3.4, 3), Neighbour(0.5, 4)])
  {
  }

  lemma NearQueryWideSorted()
    ensures Sort([Neighbour(2.9, 0), Neighbour(5.96, 1), Neighbour(5.62, 2), Neighbour(3.4, 3), Neighbour(0.5, 4)])
      == [Neighbour(0.5, 4), Neighbour(2.9, 0), Neighbour(3.4, 3), Neighbour(5.62, 2), Neighbour(5.96, 1)]
  {
    NearQueryWideOrder();
    NearQueryWidePerm();
    SortIs([Neighbour(2.9, 0), Neighbour(5.96, 1), Neighbour(5.62, 2), Neighbour(3.4, 3), Neighbour(0.5, 4)], [Neighbour(0.5, 4), Neighbour(2.9, 0), Neighbour(3.4, 3), Neighbour(5.62, 2), Neighbour(5.96, 1)]);
  }

  lemma NearRankingHeads()
    ensures NearRanking[..1] == [Neighbour(0.5, 4)]
    ensures NearRanking[..3] == [Neighbour(0.5, 4), Neighbour(2.9, 0), Neighbour(3.4, 3)]
  {
  }

  /** The ranking from (-0.2, 0.4) within each of the suite's radii. */
  lemma NearRankedOne()
    ensures Ranked(Points, [-0.2, 0.4], AtMost(1.0)) == NearRanking[..1]
  {
    NearQueryFilterOne();
    SortIs([Neighbour(0.5, 4)], [Neighbour(0.5, 4)]);
    NearRankingHeads();
  }

  lemma NearRankedTwo()
    ensures Ranked(Points, [-0.2, 0.4], AtMost(4.0)) == NearRanking[..3]
  {
    NearQueryFilterTwo();
    NearQuerySortedTwo();
    NearRankingHeads();
  }

  lemma NearRankedThree()
    ensures Ranked(Points, [-0.2, 0.4], AtMost(9.0)) == NearRanking
  {
    NearQueryWideFilter();
    NearQueryWideSorted();
  }

  /** Searching from (-0.2, 0.4) for all five points returns the expected
      answer's first entry within radius 1.0, its first three within
      radius 2.0 and all of it within radius 3.0. */
  lemma NearQuery(t: KDTree)
    requires Valid(t) && t.data == Points && t.k == 2
    ensures Search(t, [-0.2, 0.4], Some(5), Some(1.0), true) == NearRanking[..1]
    ensures Search(t, [-0.2, 0.4], Some(5), Some(2.0), true) == NearRanking[..3]
    ensures Search(t, [-0.2, 0.4], Some(5), Some(3.0), true) == NearRanking
  {
    NearRankedOne();
    NearRankedTwo();
    NearRankedThree();
    EverySearchIsRanked(t, [-0.2, 0.4], 5, Some(1.0));
    EverySearchIsRanked(t, [-0.2, 0.4], 5, Some(2.0));
    EverySearchIsRanked(t, [-0.2, 0.4], 5, Some(3.0));
  }

  /** The suite as the tests run it: for every bucket size from 1 up the
      tree builds, and every search returns the expected indices and
      squared distances, cut to the count asked for. */
  lemma SearchSuite(bucketSize: int, count: int)
    requires bucketSize >= 1 && 0 <= count <= 5
    ensures New(Points, 2, bucketSize).Success?
    ensures var t := New(Points, 2, bucketSize).value;
      && Search(t, [2.0, 4.0], Some(count), None, true) == FarRanking[..count]
      && Search(t, [0.6, -0.7], Some(count), None, true) == LowRanking[..count]
      && Search(t, [-0.2, 0.4], Some(5), Some(1.0), true) == NearRanking[..1]
      && Search(t, [-0.2, 0.4], Some(5), Some(2.0), true) == NearRanking[..3]
      && Search(t, [-0.2, 0.4], Some(5), Some(3.0), true) == NearRanking
  {
    PointsBuild(bucketSize);
    var t := New(Points, 2, bucketSize).value;
    FarQuery(t, count);
    LowQuery(t, count);
    NearQuery(t);
  }
}

=== FILE: kdtree_ranking.dfy ===
/** How the two k-d tree searches relate. When no two points are equally
    far from the query and none lies exactly on the radius, the sorted
    answer to a search for `count` points is the first `count` entries of
    the sorted brute-force answer, whichever search path the count
    selects. */
module KDTreeRanking {
  import opened Wrappers
  import opened Geometry
  import opened KDTree
  import opened KDTreeSearch
  import Seqs

  /** No two points are equally far from the query. */
  predicate NoTies(data: seq<Point>, p: Point)
    requires AllDim(data, |p|)
  {
    forall i, j :: 0 <= i < j < |data| ==> SqDist(p, data[i]) != SqDist(p, data[j])
  }

  /** No point lies exactly on the radius, so the inclusive and the
      exclusive radius tests agree. */
  predicate OffBoundary(data: seq<Point>, p: Point, r: Bound)
    requires AllDim(data, |p|)
  {
    r.Unbounded? || forall i :: 0 <= i < |data| ==> SqDist(p, data[i]) != r.limit
  }

  /** The brute-force answer, sorted: every point within the radius
      (boundary included), nearest first. */
  function Ranked(data: seq<Point>, p: Point, r: Bound): seq<Neighbour>
    requires AllDim(data, |p|)
  {
    Sort(WithinFilter(data, p, r, Range(|data|)))
  }

  /** Every record carries its point's true squared distance. */
  predicate Exact(data: seq<Point>, p: Point, s: seq<Neighbour>)
    requires AllDim(data, |p|)
  {
    forall j :: 0 <= j < |s| ==> s[j].index < |data| && s[j].sqDist == SqDist(p, data[s[j].index])
  }

  /** Strictly increasing squared distances. */
  predicate Increasing(s: seq<Neighbour>) {
    forall i, j :: 0 <= i < j < |s| ==> s[i].sqDist < s[j].sqDist
  }

  /** A record occurs in the ranking exactly when the filter can produce
      it, and then once. */
  lemma RankedEntries(data: seq<Point>, p: Point, r: Bound)
    requires AllDim(data, |p|)
    ensures forall x :: x in Ranked(data, p, r) <==> Counted(data, p, r, x)
    ensures forall x :: multiset(Ranked(data, p, r))[x] <= 1
  {
    var n := |data|;
    var brute := WithinFilter(data, p, r, Range(n));
    var s := Ranked(data, p, r);
    RangeDistinct(n);
    forall x
      ensures multiset(s)[x] == if Counted(data, p, r, x) then 1 else 0
    {
      FilterCount(data, p, r, Range(n), x);
      Seqs.CountIsMultiplicity(brute, x);
      Seqs.CountIsMultiplicity(Range(n), x.index);
      DistinctCount(Range(n), x.index);
      if Counted(data, p, r, x) {
        assert Range(n)[x.index] == x.index;
        assert x.index in multiset(Range(n));
      }
    }
  }

  /** Without ties, different points are at different distances. */
  lemma Untied(data: seq<Point>, p: Point, a: nat, b: nat)
    requires AllDim(data, |p|) && NoTies(data, p) && a < |data| && b < |data| && a != b
    ensures SqDist(p, data[a]) != SqDist(p, data[b])
  {
  }

  /** A record that occurs once is not found at two positions. */
  lemma Once(s: seq<Neighbour>, i: nat, j: nat)
    requires i < j < |s| && multiset(s)[s[i]] <= 1
    ensures s[i] != s[j]
  {
    assert s == s[..j] + s[j..];
    assert s[..j][i] == s[i] && s[j..][0] == s[j];
    assert multiset(s) == multiset(s[..j]) + multiset(s[j..]);
  }

  /** A sorted sequence of exact records without repeats is strictly
      increasing when no two points tie. */
  lemma SortedIncreasing(data: seq<Point>, p: Point, s: seq<Neighbour>)
    requires AllDim(data, |p|) && NoTies(data, p) && Exact(data, p, s) && Sorted(s)
    requires forall x :: multiset(s)[x] <= 1
    ensures Increasing(s)
  {
    forall i, j | 0 <= i < j < |s|
      ensures s[i].sqDist < s[j].sqDist
    {
      Once(s, i, j);
      assert s[i].index != s[j].index;
      Untied(data, p, s[i].index, s[j].index);
      assert Precedes(s[i], s[j]);
    }
  }

  /** Strictly increasing exact records have pairwise different indices. */
  lemma IncreasingDistinct(data: seq<Point>, p: Point, s: seq<Neighbour>)
    requires AllDim(data, |p|) && Exact(data, p, s) && Increasing(s)
    ensures DistinctIndices(s)
  {
    forall i, j | 0 <= i < j < |s|
      ensures s[i].index != s[j].index
    {
      assert s[i].sqDist < s[j].sqDist;
    }
  }

  /** What the rest of the argument needs about the ranking: exact,
      strictly increasing, within the radius, and holding every point
      within the radius. */
  lemma RankedFacts(data: seq<Point>, p: Point, r: Bound)
    requires AllDim(data, |p|) && NoTies(data, p)
    ensures var s := Ranked(data, p, r);
      && Exact(data, p, s) && Increasing(s) && DistinctIndices(s) && Sorted(s)
      && (forall j :: 0 <= j < |s| ==> NotAbove(s[j].sqDist, r))
      && (forall i :: 0 <= i < |data| && NotAbove(SqDist(p, data[i]), r) ==>
            Neighbour(SqDist(p, data[i]), i) in s)
  {
    var s := Ranked(data, p, r);
    RankedEntries(data, p, r);
    assert forall j :: 0 <= j < |s| ==> Counted(data, p, r, s[j]) by {
      forall j | 0 <= j < |s|
        ensures Counted(data, p, r, s[j])
      {
        assert s[j] in s;
      }
    }
    forall i | 0 <= i < |data| && NotAbove(SqDist(p, data[i]), r)
      ensures Neighbour(SqDist(p, data[i]), i) in s
    {
      assert Counted(data, p, r, Neighbour(SqDist(p, data[i]), i));
    }
    SortedIncreasing(data, p, s);
    IncreasingDistinct(data, p, s);
  }

  /** Off the boundary, a ranking holds one record per candidate of the
      nearest-points search. */
  lemma RankingSize(data: seq<Point>, p: Point, r: Bound, s: seq<Neighbour>)
    requires AllDim(data, |p|) && OffBoundary(data, p, r)
    requires Exact(data, p, s) && DistinctIndices(s)
    requires forall j :: 0 <= j < |s| ==> NotAbove(s[j].sqDist, r)
    requires forall i :: 0 <= i < |data| && NotAbove(SqDist(p, data[i]), r) ==>
      Neighbour(SqDist(p, data[i]), i) in s
    ensures |s| == |Candidates(data, p, r)|
  {
    assert KeptIndices(s) == Candidates(data, p, r) by {
      forall y | y in KeptIndices(s)
        ensures y in Candidates(data, p, r)
      {
        var j :| 0 <= j < |s| && s[j].index == y;
      }
      forall y | y in Candidates(data, p, r)
        ensures y in KeptIndices(s)
      {
        var j :| 0 <= j < |s| && s[j] == Neighbour(SqDist(p, data[y]), y);
      }
    }
    DistinctKeptSize(s);
  }

  /** A sequence whose records have pairwise different indices holds each
      record once at most. */
  lemma {:induction false} DistinctOnce(s: seq<Neighbour>, x: Neighbour)
    requires DistinctIndices(s)
    ensures multiset(s)[x] == if x in s then 1 else 0
    decreases |s|
  {
    if |s| > 0 {
      assert s == [s[0]] + s[1..];
      DistinctOnce(s[1..], x);
      if s[0] == x {
        assert x !in s[1..] by {
          forall j | 0 <= j < |s[1..]|
            ensures s[1..][j] != x
          {
            assert s[1..][j] == s[j + 1];
          }
        }
      }
    }
  }

  /** Two sequences without repeated indices that hold the same records
      are reorderings of each other. */
  lemma SameRecords(a: seq<Neighbour>, b: seq<Neighbour>)
    requires DistinctIndices(a) && DistinctIndices(b)
    requires forall x :: x in a <==> x in b
    ensures multiset(a) == multiset(b)
  {
    forall x
      ensures multiset(a)[x] == multiset(b)[x]
    {
      DistinctOnce(a, x);
      DistinctOnce(b, x);
    }
  }

  /** Two equally large sets, one inside the other, are equal. */
  lemma SubsetEqualCard(a: set<nat>, b: set<nat>)
    requires a <= b && |a| == |b|
    ensures a == b
  {
    assert b == a + (b - a);
    assert |b - a| == 0;
  }

  /** What the nearest-points search promises about its answer `res`,
      read against a ranking `s`: exact records without repeated indices,
      each one in the ranking, and no point left out strictly nearer than
      a kept one. */
  predicate NearestAnswer(data: seq<Point>, p: Point, res: seq<Neighbour>, s: seq<Neighbour>)
    requires AllDim(data, |p|)
  {
    && Exact(data, p, res) && DistinctIndices(res)
    && (forall j :: 0 <= j < |res| ==> res[j] in s)
    && (forall j, i :: 0 <= j < |res| && 0 <= i < |data| && i !in KeptIndices(res) ==>
          res[j].sqDist <= SqDist(p, data[i]))
  }

  /** Every entry ranked before a kept record is strictly nearer than it,
      so it is kept too. */
  lemma NearerAreKept(data: seq<Point>, p: Point, res: seq<Neighbour>, s: seq<Neighbour>, j: nat, q: nat)
    requires AllDim(data, |p|) && NearestAnswer(data, p, res, s)
    requires Exact(data, p, s) && Increasing(s)
    requires j < |res| && q < |s| && s[q] == res[j]
    ensures KeptIndices(s[..q]) <= KeptIndices(res)
  {
    forall y | y in KeptIndices(s[..q])
      ensures y in KeptIndices(res)
    {
      var a :| 0 <= a < q && s[a].index == y;
      assert s[a].sqDist < s[q].sqDist;
      assert SqDist(p, data[y]) < res[j].sqDist;
    }
  }

  /** Every kept record sits among the first `|res|` entries of the
      ranking: the entries ranked before it are kept as well, and there
      are only `|res|` kept records. */
  lemma KeptAmongFirst(data: seq<Point>, p: Point, res: seq<Neighbour>, s: seq<Neighbour>, j: nat) returns (q: nat)
    requires AllDim(data, |p|) && NearestAnswer(data, p, res, s)
    requires Exact(data, p, s) && Increasing(s) && DistinctIndices(s)
    requires j < |res|
    ensures q < |res| && q < |s| && s[q] == res[j]
  {
    assert res[j] in s;
    q :| 0 <= q < |s| && s[q] == res[j];
    var K := KeptIndices(res);
    var before := KeptIndices(s[..q]);
    NearerAreKept(data, p, res, s, j, q);
    assert res[j].index in K;
    assert res[j].index !in before by {
      forall a | 0 <= a < q
        ensures s[..q][a].index != s[q].index
      {
      }
    }
    DistinctKeptSize(s[..q]);
    DistinctKeptSize(res);
    SubsetCard(before + {res[j].index}, K);
  }

  /** The answer keeps exactly the indices of the first `|res|` records
      of the ranking. */
  lemma AnswerIndices(data: seq<Point>, p: Point, res: seq<Neighbour>, s: seq<Neighbour>)
    requires AllDim(data, |p|) && NearestAnswer(data, p, res, s)
    requires Exact(data, p, s) && Increasing(s) && DistinctIndices(s)
    requires |res| <= |s|
    ensures KeptIndices(res) == KeptIndices(s[..|res|])
  {
    var m := |res|;
    var head := s[..m];
    var K := KeptIndices(res);
    var P := KeptIndices(head);
    assert K <= P by {
      forall y | y in K
        ensures y in P
      {
        var j :| 0 <= j < m && res[j].index == y;
        var q := KeptAmongFirst(data, p, res, s, j);
        assert head[q].index == y;
      }
    }
    DistinctKeptSize(res);
    DistinctKeptSize(head);
    SubsetEqualCard(K, P);
  }

  /** The answer holds exactly the first `|res|` records of the ranking. */
  lemma AnswerIsHead(data: seq<Point>, p: Point, res: seq<Neighbour>, s: seq<Neighbour>)
    requires AllDim(data, |p|) && NearestAnswer(data, p, res, s)
    requires Exact(data, p, s) && Increasing(s) && DistinctIndices(s)
    requires |res| <= |s|
    ensures multiset(res) == multiset(s[..|res|])
  {
    var m := |res|;
    var head := s[..m];
    AnswerIndices(data, p, res, s);
    forall x
      ensures x in res <==> x in head
    {
      if x in res {
        var j :| 0 <= j < m && res[j] == x;
        var q := KeptAmongFirst(data, p, res, s, j);
        assert head[q] == x;
      }
      if x in head {
        var a :| 0 <= a < m && head[a] == x;
        assert x.index in KeptIndices(head);
        var j :| 0 <= j < m && res[j].index == x.index;
      }
    }
    assert DistinctIndices(head);
    SameRecords(res, head);
  }

  /** Sorted, the answer is the head of the ranking. */
  lemma SortedAnswerIsHead(data: seq<Point>, p: Point, res: seq<Neighbour>, s: seq<Neighbour>)
    requires AllDim(data, |p|) && NearestAnswer(data, p, res, s)
    requires Exact(data, p, s) && Increasing(s) && DistinctIndices(s) && Sorted(s)
    requires |res| <= |s|
    ensures Sort(res) == s[..|res|]
  {
    AnswerIsHead(data, p, res, s);
    SortedUnique(Sort(res), s[..|res|]);
  }

  /** Without ties and off the boundary, the sorted answer of the
      nearest-points search for `count` points is the first `count`
      entries of the ranking (all of it when it is shorter). */
  lemma NearestIsRankedPrefix(t: KDTree, p: Point, count: nat, r: Bound)
    requires Valid(t) && |p| == t.k && count >= 1
    requires NoTies(t.data, p) && OffBoundary(t.data, p, r)
    ensures var s := Ranked(t.data, p, r);
      Sort(KNearest(t, p, count, r)) == s[..Seqs.Min(count, |s|)]
  {
    var data := t.data;
    var res := KNearest(t, p, count, r);
    var s := Ranked(data, p, r);
    KNearestCorrect(t, p, count, r);
    RankedFacts(data, p, r);
    RankingSize(data, p, r, s);
    forall j | 0 <= j < |res|
      ensures res[j] in s
    {
      assert NotAbove(res[j].sqDist, r);
    }
    SortedAnswerIsHead(data, p, res, s);
  }

  /** The brute-force filter keeps at most one record per index. */
  lemma {:induction false} FilterShorter(data: seq<Point>, p: Point, r: Bound, indices: seq<nat>)
    requires AllDim(data, |p|) && InData(data, indices)
    ensures |WithinFilter(data, p, r, indices)| <= |indices|
    decreases |indices|
  {
    if |indices| > 0 {
      FilterShorter(data, p, r, indices[1..]);
    }
  }

  /** The sorted brute-force answer is no longer than the data. */
  lemma RankedAtMostAll(data: seq<Point>, p: Point, r: Bound)
    requires AllDim(data, |p|)
    ensures |Ranked(data, p, r)| <= |data|
  {
    var brute := WithinFilter(data, p, r, Range(|data|));
    FilterShorter(data, p, r, Range(|data|));
    assert |Sort(brute)| == |multiset(Sort(brute))| == |multiset(brute)| == |brute|;
  }

  /** Asking for at least as many points as there are gives the whole
      ranking. */
  lemma EverySearchIsRanked(t: KDTree, p: Point, count: int, radius: Option<real>)
    requires Valid(t) && |p| == t.k && |t.data| >= 1 && count >= |t.data|
    requires radius.None? || radius.value >= 0.0
    ensures Search(t, p, Some(count), radius, true) == Ranked(t.data, p, BoundOf(radius))
  {
    SearchAllWithin(t, p, Some(count), radius, true);
  }

  /** Asking for fewer points than there are gives the sorted answer of
      the nearest-points search. */
  lemma FewerSearchIsNearest(t: KDTree, p: Point, count: int, radius: Option<real>)
    requires Valid(t) && |p| == t.k && 1 <= count < |t.data|
    requires radius.None? || radius.value >= 0.0
    ensures Search(t, p, Some(count), radius, true) == Sort(KNearest(t, p, count, BoundOf(radius)))
  {
  }

  /** With at least as many points asked for as there are, the whole
      ranking is its own head. */
  lemma EveryRankedPrefix(t: KDTree, p: Point, count: int, radius: Option<real>)
    requires Valid(t) && |p| == t.k && |t.data| >= 1 && count >= |t.data|
    requires radius.None? || radius.value >= 0.0
    ensures var s := Ranked(t.data, p, BoundOf(radius));
      Search(t, p, Some(count), radius, true) == s[..Seqs.Min(count, |s|)]
  {
    var s := Ranked(t.data, p, BoundOf(radius));
    EverySearchIsRanked(t, p, count, radius);
    RankedAtMostAll(t.data, p, BoundOf(radius));
    assert s[..|s|] == s;
  }

  /** A sorted search for `count` points, when no two points tie and none
      lies on the radius, returns the first `count` entries of the sorted
      brute-force answer, whether the count selects the every-point path
      (inclusive radius) or the nearest-points path (exclusive radius). */
  lemma SearchIsRankedPrefix(t: KDTree, p: Point, count: int, radius: Option<real>)
    requires Valid(t) && |p| == t.k && |t.data| >= 1 && count >= 1
    requires radius.None? || radius.value >= 0.0
    requires NoTies(t.data, p) && OffBoundary(t.data, p, BoundOf(radius))
    ensures var s := Ranked(t.data, p, BoundOf(radius));
      Search(t, p, Some(count), radius, true) == s[..Seqs.Min(count, |s|)]
  {
    if count >= |t.data| {
      EveryRankedPrefix(t, p, count, radius);
    } else {
      FewerSearchIsNearest(t, p, count, radius);
      NearestIsRankedPrefix(t, p, count, BoundOf(radius));
    }
  }
}

=== FILE: kdtree_search.dfy ===
/** Neighbour queries on a k-d tree: every point within a radius, or the
    `count` nearest points within a radius, optionally sorted by squared
    distance. Both walk the tree depth first, nearer child first, and skip
    any node whose box lies beyond the current limit. */
module KDTreeSearch {
  import opened Wrappers
  import opened Geometry
  import opened KDTree
  import Seqs

  /** A query result: a point index with its squared distance. */
  datatype Neighbour = Neighbour(sqDist: real, index: nat)

  /** A limit on squared distances; no radius means no limit. */
  datatype Bound = Unbounded | AtMost(limit: real)

  /** Strictly within the limit (`d < limit`). */
  predicate Below(d: real, b: Bound) {
    b.Unbounded? || d < b.limit
  }

  /** Within the limit or on it (`d <= limit`). */
  predicate NotAbove(d: real, b: Bound) {
    b.Unbounded? || d <= b.limit
  }

  /** The query's view of the data: every point has the query's dimension
      and the tree can be walked over it. */
  predicate Query(data: seq<Point>, k: nat, t: Tree, p: Point) {
    AllDim(data, k) && |p| == k && Walkable(data, k, t)
  }

  // ---------------------------------------------------------------------
  // Reference definitions

  /** Every index with its squared distance to `p`. */
  function Every(data: seq<Point>, p: Point, indices: seq<nat>): (r: seq<Neighbour>)
    requires AllDim(data, |p|) && InData(data, indices)
    ensures |r| == |indices|
    ensures forall j :: 0 <= j < |r| ==> r[j] == Neighbour(SqDist(p, data[indices[j]]), indices[j])
  {
    seq(|indices|, j requires 0 <= j < |indices| => Neighbour(SqDist(p, data[indices[j]]), indices[j]))
  }

  /** The brute-force answer: the indices whose point is within the
      radius, each with its squared distance, in the given order. */
  function WithinFilter(data: seq<Point>, p: Point, r: Bound, indices: seq<nat>): seq<Neighbour>
    requires AllDim(data, |p|) && InData(data, indices)
    decreases |indices|
  {
    if |indices| == 0 then []
    else
      var d := SqDist(p, data[indices[0]]);
      (if NotAbove(d, r) then [Neighbour(d, indices[0])] else []) + WithinFilter(data, p, r, indices[1..])
  }

  /** The indices of all points strictly within the limit. */
  function Candidates(data: seq<Point>, p: Point, r: Bound): set<nat>
    requires AllDim(data, |p|)
  {
    set i: nat | i < |data| && Below(SqDist(p, data[i]), r)
  }

  // ---------------------------------------------------------------------
  // Every point within a radius

  /** The points within the radius (boundary included). A node beyond the
      radius is skipped; a node entirely within it contributes all its
      points; a leaf is filtered; otherwise the nearer child goes first. */
  function AllWithin(data: seq<Point>, k: nat, t: Tree, p: Point, r: Bound): seq<Neighbour>
    requires Query(data, k, t, p)
    decreases t
  {
    if !NotAbove(NearDist(p, t.box), r) then []
    else if NotAbove(FarDist(p, t.box), r) then Every(data, p, Indices(t))
    else
      match t
      case Leaf(_, ix) => WithinFilter(data, p, r, ix)
      case Node(_, left, right) =>
        assert Walkable(data, k, left) && Walkable(data, k, right);
        if NearDist(p, left.box) <= NearDist(p, right.box) then
          AllWithin(data, k, left, p, r) + AllWithin(data, k, right, p, r)
        else
          AllWithin(data, k, right, p, r) + AllWithin(data, k, left, p, r)
  }

  /** With boxes that hold their points, the tree search finds the same
      neighbours as filtering every point under the node. */
  lemma {:induction false} AllWithinIsFilter(data: seq<Point>, k: nat, t: Tree, p: Point, r: Bound)
    requires Query(data, k, t, p) && Bounded(data, k, t)
    ensures multiset(AllWithin(data, k, t, p, r)) == multiset(WithinFilter(data, p, r, Indices(t)))
    decreases t
  {
    var ix := Indices(t);
    if !NotAbove(NearDist(p, t.box), r) {
      forall j | 0 <= j < |ix|
        ensures !NotAbove(SqDist(p, data[ix[j]]), r)
      {
        DistanceBounds(p, t.box, data[ix[j]]);
      }
      FilterNone(data, p, r, ix);
    } else if NotAbove(FarDist(p, t.box), r) {
      forall j | 0 <= j < |ix|
        ensures NotAbove(SqDist(p, data[ix[j]]), r)
      {
        DistanceBounds(p, t.box, data[ix[j]]);
      }
      FilterAll(data, p, r, ix);
    } else {
      match t
      case Leaf(_, _) =>
      case Node(_, left, right) =>
        AllWithinIsFilter(data, k, left, p, r);
        AllWithinIsFilter(data, k, right, p, r);
        FilterAppend(data, p, r, Indices(left), Indices(right));
    }
  }

  lemma {:induction false} FilterNone(data: seq<Point>, p: Point, r: Bound, ix: seq<nat>)
    requires AllDim(data, |p|) && InData(data, ix)
    requires forall j :: 0 <= j < |ix| ==> !NotAbove(SqDist(p, data[ix[j]]), r)
    ensures WithinFilter(data, p, r, ix) == []
    decreases |ix|
  {
    if |ix| > 0 {
      FilterNone(data, p, r, ix[1..]);
    }
  }

  lemma {:induction false} FilterAll(data: seq<Point>, p: Point, r: Bound, ix: seq<nat>)
    requires AllDim(data, |p|) && InData(data, ix)
    requires forall j :: 0 <= j < |ix| ==> NotAbove(SqDist(p, data[ix[j]]), r)
    ensures WithinFilter(data, p, r, ix) == Every(data, p, ix)
    decreases |ix|
  {
    if |ix| > 0 {
      FilterAll(data, p, r, ix[1..]);
      assert Every(data, p, ix) == [Every(data, p, ix)[0]] + Every(data, p, ix[1..]);
    }
  }

  lemma {:induction false} FilterAppend(data: seq<Point>, p: Point, r: Bound, a: seq<nat>, b: seq<nat>)
    requires AllDim(data, |p|) && InData(data, a) && InData(data, b)
    ensures InData(data, a + b)
    ensures WithinFilter(data, p, r, a + b) == WithinFilter(data, p, r, a) + WithinFilter(data, p, r, b)
    decreases |a|
  {
    if |a| > 0 {
      assert (a + b)[0] == a[0] && (a + b)[1..] == a[1..] + b;
      FilterAppend(data, p, r, a[1..], b);
      var d := SqDist(p, data[a[0]]);
      var head := if NotAbove(d, r) then [Neighbour(d, a[0])] else [];
      assert WithinFilter(data, p, r, a + b) == head + WithinFilter(data, p, r, a[1..] + b);
      assert WithinFilter(data, p, r, a) == head + WithinFilter(data, p, r, a[1..]);
    } else {
      assert a + b == b;
    }
  }

  /** A record the brute-force filter can produce: a point of the data,
      with its true squared distance, within the radius. */
  predicate Counted(data: seq<Point>, p: Point, r: Bound, n: Neighbour)
    requires AllDim(data, |p|)
  {
    n.index < |data| && n.sqDist == SqDist(p, data[n.index]) && NotAbove(n.sqDist, r)
  }

  /** How often a record occurs in the filtered sequence: as often as its
      index occurs among the indices when the filter can produce it, and
      never otherwise. */
  lemma {:induction false} FilterCount(data: seq<Point>, p: Point, r: Bound, indices: seq<nat>, n: Neighbour)
    requires AllDim(data, |p|) && InData(data, indices)
    ensures Seqs.Count(WithinFilter(data, p, r, indices), n) ==
      if Counted(data, p, r, n) then Seqs.Count(indices, n.index) else 0
    decreases |indices|
  {
    if |indices| > 0 {
      FilterCount(data, p, r, indices[1..], n);
      var x := indices[0];
      var d := SqDist(p, data[x]);
      var head := if NotAbove(d, r) then [Neighbour(d, x)] else [];
      Seqs.CountAppend(head, WithinFilter(data, p, r, indices[1..]), n);
    }
  }

  /** Filtering a reordering of the indices yields a reordering of the
      neighbours. */
  lemma FilterPermutation(data: seq<Point>, p: Point, r: Bound, a: seq<nat>, b: seq<nat>)
    requires AllDim(data, |p|) && InData(data, a) && InData(data, b)
    requires multiset(a) == multiset(b)
    ensures multiset(WithinFilter(data, p, r, a)) == multiset(WithinFilter(data, p, r, b))
  {
    forall n
      ensures multiset(WithinFilter(data, p, r, a))[n] == multiset(WithinFilter(data, p, r, b))[n]
    {
      FilterCount(data, p, r, a, n);
      FilterCount(data, p, r, b, n);
      Seqs.CountIsMultiplicity(WithinFilter(data, p, r, a), n);
      Seqs.CountIsMultiplicity(WithinFilter(data, p, r, b), n);
      Seqs.CountIsMultiplicity(a, n.index);
      Seqs.CountIsMultiplicity(b, n.index);
    }
  }

  // ---------------------------------------------------------------------
  // The nearest points within a radius

  /** The points kept so far and the current limit. The source keeps them
      in a binary heap; only the kept contents matter here. */
  datatype Heap = Heap(kept: seq<Neighbour>, limit: Bound)

  /** The set of kept point indices. */
  function KeptIndices(s: seq<Neighbour>): set<nat> {
    set j | 0 <= j < |s| :: s[j].index
  }

  predicate DistinctIndices(s: seq<Neighbour>) {
    forall i, j :: 0 <= i < j < |s| ==> s[i].index != s[j].index
  }

  /** The entry the heap gives up: the farthest, and among the farthest
      the smallest index (the heap orders entries by negated distance,
      then index). */
  function Worst(s: seq<Neighbour>): (w: nat)
    requires |s| >= 1
    ensures w < |s|
    ensures forall j :: 0 <= j < |s| ==>
      s[j].sqDist < s[w].sqDist || (s[j].sqDist == s[w].sqDist && s[j].index >= s[w].index)
    decreases |s|
  {
    if |s| == 1 then 0
    else
      var w := Worst(s[1..]) + 1;
      if s[0].sqDist > s[w].sqDist || (s[0].sqDist == s[w].sqDist && s[0].index <= s[w].index) then 0 else w
  }

  function RemoveAt(s: seq<Neighbour>, w: nat): (r: seq<Neighbour>)
    requires w < |s|
    ensures |r| == |s| - 1
    ensures forall j :: 0 <= j < |r| ==> r[j] == (if j < w then s[j] else s[j + 1])
  {
    s[..w] + s[w + 1..]
  }

  /** Offer one point: a point strictly within the limit is kept; once
      `count` points are kept, keeping one more gives up the worst of them
      (possibly the new one), whose distance becomes the new limit. */
  function Offer(h: Heap, x: Neighbour, count: nat): Heap {
    if !Below(x.sqDist, h.limit) then h
    else if |h.kept| >= count then
      var all := h.kept + [x];
      var w := Worst(all);
      Heap(RemoveAt(all, w), AtMost(all[w].sqDist))
    else
      Heap(h.kept + [x], h.limit)
  }

  /** Offer the points of a leaf, in bucket order. */
  function OfferAll(data: seq<Point>, p: Point, ix: seq<nat>, count: nat, h: Heap): Heap
    requires AllDim(data, |p|) && InData(data, ix)
    decreases |ix|
  {
    if |ix| == 0 then h
    else OfferAll(data, p, ix[1..], count, Offer(h, Neighbour(SqDist(p, data[ix[0]]), ix[0]), count))
  }

  /** Walk the tree nearer child first, skipping nodes beyond the limit as
      it stands when the node is reached. */
  function Nearest(data: seq<Point>, k: nat, t: Tree, p: Point, count: nat, h: Heap): Heap
    requires Query(data, k, t, p)
    decreases t
  {
    if !NotAbove(NearDist(p, t.box), h.limit) then h
    else
      match t
      case Leaf(_, ix) => OfferAll(data, p, ix, count, h)
      case Node(_, left, right) =>
        assert Walkable(data, k, left) && Walkable(data, k, right);
        if NearDist(p, left.box) <= NearDist(p, right.box) then
          Nearest(data, k, right, p, count, Nearest(data, k, left, p, count, h))
        else
          Nearest(data, k, left, p, count, Nearest(data, k, right, p, count, h))
  }

  /** The limit never exceeds the one the search started with. */
  predicate LimitWithin(lim: Bound, r: Bound) {
    r.AtMost? ==> lim.AtMost? && lim.limit <= r.limit
  }

  /** A kept entry: a point already seen, with its true squared distance,
      strictly within the radius and within the current limit. */
  predicate KeptOk(data: seq<Point>, p: Point, r: Bound, lim: Bound, seen: set<nat>, x: Neighbour)
    requires AllDim(data, |p|)
  {
    && x.index < |data| && x.index in seen
    && x.sqDist == SqDist(p, data[x.index])
    && Below(x.sqDist, r) && NotAbove(x.sqDist, lim)
  }

  /** The search invariant over the points `seen` so far: at most `count`
      distinct points are kept, every seen point not kept is at or beyond
      the limit, and the limit is the radius until the heap is full. */
  predicate Inv(data: seq<Point>, p: Point, count: nat, r: Bound, h: Heap, seen: set<nat>)
    requires AllDim(data, |p|)
  {
    && |h.kept| <= count
    && (forall j :: 0 <= j < |h.kept| ==> KeptOk(data, p, r, h.limit, seen, h.kept[j]))
    && DistinctIndices(h.kept)
    && (forall i :: i in seen ==> i < |data|)
    && (forall i :: i in seen && i !in KeptIndices(h.kept) ==> !Below(SqDist(p, data[i]), h.limit))
    && (|h.kept| < count ==> h.limit == r)
    && LimitWithin(h.limit, r)
  }

  /** Offering an unseen point keeps the invariant. */
  lemma OfferInv(data: seq<Point>, p: Point, count: nat, r: Bound, h: Heap, seen: set<nat>, i: nat)
    requires AllDim(data, |p|) && count >= 1 && i < |data| && i !in seen
    requires Inv(data, p, count, r, h, seen)
    ensures Inv(data, p, count, r, Offer(h, Neighbour(SqDist(p, data[i]), i), count), seen + {i})
  {
    var x := Neighbour(SqDist(p, data[i]), i);
    var h' := Offer(h, x, count);
    var seen' := seen + {i};
    forall j | 0 <= j < |h.kept|
      ensures h.kept[j].index != i
    {
      assert h.kept[j].index in seen;
    }
    if !Below(x.sqDist, h.limit) {
      assert i !in KeptIndices(h.kept);
    } else if |h.kept| >= count {
      OfferFullInv(data, p, count, r, h, seen, x);
    } else {
      assert h' == Heap(h.kept + [x], h.limit);
      SnocKept(data, p, count, r, h, seen, x);
      KeptIndicesSnoc(h.kept, x);
    }
  }

  /** The full-heap case of `OfferInv`: the worst entry is given up and
      its distance becomes the limit. */
  lemma OfferFullInv(data: seq<Point>, p: Point, count: nat, r: Bound, h: Heap, seen: set<nat>, x: Neighbour)
    requires AllDim(data, |p|) && count >= 1 && x.index < |data| && x.index !in seen
    requires x.sqDist == SqDist(p, data[x.index])
    requires forall j :: 0 <= j < |h.kept| ==> h.kept[j].index != x.index
    requires Inv(data, p, count, r, h, seen)
    requires Below(x.sqDist, h.limit) && |h.kept| >= count
    ensures Inv(data, p, count, r, Offer(h, x, count), seen + {x.index})
  {
    var all := h.kept + [x];
    var w := Worst(all);
    assert Offer(h, x, count) == Heap(RemoveAt(all, w), AtMost(all[w].sqDist));
    SnocKept(data, p, count, r, h, seen, x);
    EvictKept(data, p, r, h.limit, seen + {x.index}, all, w);
    EvictedBeyond(data, p, count, r, h, seen, x, all, w);
  }

  /** Appending an unseen point strictly within the limit to the kept
      entries keeps each of them valid and their indices distinct. */
  lemma SnocKept(data: seq<Point>, p: Point, count: nat, r: Bound, h: Heap, seen: set<nat>, x: Neighbour)
    requires AllDim(data, |p|) && x.index < |data| && x.index !in seen
    requires x.sqDist == SqDist(p, data[x.index])
    requires forall j :: 0 <= j < |h.kept| ==> h.kept[j].index != x.index
    requires Inv(data, p, count, r, h, seen)
    requires Below(x.sqDist, h.limit)
    ensures forall j :: 0 <= j < |h.kept + [x]| ==> KeptOk(data, p, r, h.limit, seen + {x.index}, (h.kept + [x])[j])
    ensures DistinctIndices(h.kept + [x])
  {
    var all := h.kept + [x];
    forall j | 0 <= j < |all|
      ensures KeptOk(data, p, r, h.limit, seen + {x.index}, all[j])
    {
      if j < |h.kept| {
        assert KeptOk(data, p, r, h.limit, seen, h.kept[j]);
      }
    }
  }

  /** After the full-heap offer, every seen point that is no longer kept
      is at or beyond the new limit: the given-up entry lies on it, and
      the others were beyond the old limit, which is no smaller. */
  lemma EvictedBeyond(data: seq<Point>, p: Point, count: nat, r: Bound, h: Heap, seen: set<nat>, x: Neighbour,
                      all: seq<Neighbour>, w: nat)
    requires AllDim(data, |p|) && x.index < |data| && x.sqDist == SqDist(p, data[x.index])
    requires Inv(data, p, count, r, h, seen)
    requires all == h.kept + [x] && w == Worst(all) && DistinctIndices(all)
    requires LimitWithin(AtMost(all[w].sqDist), h.limit)
    ensures forall i :: i in seen + {x.index} && i !in KeptIndices(RemoveAt(all, w)) ==>
      i < |data| && !Below(SqDist(p, data[i]), AtMost(all[w].sqDist))
  {
    EvictIndices(all, w);
    KeptIndicesSnoc(h.kept, x);
    forall i | i in seen + {x.index} && i !in KeptIndices(RemoveAt(all, w))
      ensures i < |data| && !Below(SqDist(p, data[i]), AtMost(all[w].sqDist))
    {
      if i == all[w].index {
        EvictedOnLimit(data, p, count, r, h, seen, x, all, w);
      } else {
        assert i !in KeptIndices(h.kept) && i != x.index;
        StillBeyond(data, p, count, r, h, seen, i, AtMost(all[w].sqDist));
      }
    }
  }

  /** The given-up entry carries its point's true squared distance. */
  lemma EvictedOnLimit(data: seq<Point>, p: Point, count: nat, r: Bound, h: Heap, seen: set<nat>, x: Neighbour,
                       all: seq<Neighbour>, w: nat)
    requires AllDim(data, |p|) && x.index < |data| && x.sqDist == SqDist(p, data[x.index])
    requires Inv(data, p, count, r, h, seen)
    requires all == h.kept + [x] && w < |all|
    ensures all[w].index < |data| && SqDist(p, data[all[w].index]) == all[w].sqDist
  {
    if w < |h.kept| {
      assert all[w] == h.kept[w];
      assert KeptOk(data, p, r, h.limit, seen, h.kept[w]);
    } else {
      assert all[w] == x;
    }
  }

  /** A seen point that was not kept stays beyond any smaller limit. */
  lemma StillBeyond(data: seq<Point>, p: Point, count: nat, r: Bound, h: Heap, seen: set<nat>, i: nat, lim': Bound)
    requires AllDim(data, |p|) && Inv(data, p, count, r, h, seen)
    requires i in seen && i !in KeptIndices(h.kept) && LimitWithin(lim', h.limit)
    ensures i < |data| && !Below(SqDist(p, data[i]), lim')
  {
    assert !Below(SqDist(p, data[i]), h.limit);
  }

  /** After giving up the worst entry, the rest are within its distance. */
  lemma EvictKept(data: seq<Point>, p: Point, r: Bound, lim: Bound, seen: set<nat>, all: seq<Neighbour>, w: nat)
    requires AllDim(data, |p|) && |all| >= 1 && w == Worst(all)
    requires forall j :: 0 <= j < |all| ==> KeptOk(data, p, r, lim, seen, all[j])
    requires DistinctIndices(all)
    ensures forall j :: 0 <= j < |RemoveAt(all, w)| ==> KeptOk(data, p, r, AtMost(all[w].sqDist), seen, RemoveAt(all, w)[j])
    ensures DistinctIndices(RemoveAt(all, w))
    ensures LimitWithin(AtMost(all[w].sqDist), r) && LimitWithin(AtMost(all[w].sqDist), lim)
  {
    EvictKeptOk(data, p, r, lim, seen, all, w);
    EvictDistinct(all, w);
    assert KeptOk(data, p, r, lim, seen, all[w]);
  }

  lemma EvictKeptOk(data: seq<Point>, p: Point, r: Bound, lim: Bound, seen: set<nat>, all: seq<Neighbour>, w: nat)
    requires AllDim(data, |p|) && |all| >= 1 && w == Worst(all)
    requires forall j :: 0 <= j < |all| ==> KeptOk(data, p, r, lim, seen, all[j])
    ensures forall j :: 0 <= j < |RemoveAt(all, w)| ==> KeptOk(data, p, r, AtMost(all[w].sqDist), seen, RemoveAt(all, w)[j])
  {
    var kept := RemoveAt(all, w);
    forall j | 0 <= j < |kept|
      ensures KeptOk(data, p, r, AtMost(all[w].sqDist), seen, kept[j])
    {
      var m := if j < w then j else j + 1;
      assert kept[j] == all[m];
      KeptOkRelimit(data, p, r, lim, AtMost(all[w].sqDist), seen, all[m]);
    }
  }

  /** A kept entry stays kept under any limit it lies within. */
  lemma KeptOkRelimit(data: seq<Point>, p: Point, r: Bound, lim: Bound, lim': Bound, seen: set<nat>, x: Neighbour)
    requires AllDim(data, |p|) && KeptOk(data, p, r, lim, seen, x) && NotAbove(x.sqDist, lim')
    ensures KeptOk(data, p, r, lim', seen, x)
  {
  }

  lemma EvictDistinct(all: seq<Neighbour>, w: nat)
    requires w < |all| && DistinctIndices(all)
    ensures DistinctIndices(RemoveAt(all, w))
  {
    var kept := RemoveAt(all, w);
    forall a, b | 0 <= a < b < |kept|
      ensures kept[a].index != kept[b].index
    {
      var ma := if a < w then a else a + 1;
      var mb := if b < w then b else b + 1;
      assert kept[a] == all[ma] && kept[b] == all[mb];
    }
  }

  lemma EvictIndices(all: seq<Neighbour>, w: nat)
    requires w < |all| && DistinctIndices(all)
    ensures KeptIndices(RemoveAt(all, w)) == KeptIndices(all) - {all[w].index}
  {
    var kept := RemoveAt(all, w);
    forall y | y in KeptIndices(kept)
      ensures y in KeptIndices(all) - {all[w].index}
    {
      var j :| 0 <= j < |kept| && kept[j].index == y;
      var m := if j < w then j else j + 1;
      assert kept[j] == all[m];
    }
    forall y | y in KeptIndices(all) - {all[w].index}
      ensures y in KeptIndices(kept)
    {
      var m :| 0 <= m < |all| && all[m].index == y;
      var j := if m < w then m else m - 1;
      assert kept[j] == all[m];
    }
  }

  lemma KeptIndicesSnoc(s: seq<Neighbour>, x: Neighbour)
    ensures KeptIndices(s + [x]) == KeptIndices(s) + {x.index}
  {
    var t := s + [x];
    forall y | y in KeptIndices(t)
      ensures y in KeptIndices(s) + {x.index}
    {
      var j :| 0 <= j < |t| && t[j].index == y;
      if j < |s| {
        assert s[j].index == y;
      }
    }
    forall y | y in KeptIndices(s)
      ensures y in KeptIndices(t)
    {
      var j :| 0 <= j < |s| && s[j].index == y;
      assert t[j].index == y;
    }
    assert t[|s|].index == x.index;
  }

  lemma {:induction false} OfferAllInv(data: seq<Point>, p: Point, ix: seq<nat>, count: nat, r: Bound, h: Heap, seen: set<nat>)
    requires AllDim(data, |p|) && InData(data, ix) && count >= 1
    requires Distinct(ix) && Unseen(ix, seen)
    requires Inv(data, p, count, r, h, seen)
    ensures Inv(data, p, count, r, OfferAll(data, p, ix, count, h), seen + SetOf(ix))
    decreases |ix|
  {
    if |ix| > 0 {
      OfferInv(data, p, count, r, h, seen, ix[0]);
      OfferAllInv(data, p, ix[1..], count, r, Offer(h, Neighbour(SqDist(p, data[ix[0]]), ix[0]), count), seen + {ix[0]});
      assert seen + {ix[0]} + SetOf(ix[1..]) == seen + SetOf(ix);
    }
  }

  function SetOf(s: seq<nat>): set<nat> {
    set j | 0 <= j < |s| :: s[j]
  }

  /** None of the indices has been seen yet. */
  predicate Unseen(ix: seq<nat>, seen: set<nat>) {
    forall j :: 0 <= j < |ix| ==> ix[j] !in seen
  }

  /** The search invariant holds after walking a subtree whose points are
      all unseen. */
  lemma {:induction false} NearestInv(data: seq<Point>, k: nat, t: Tree, p: Point, count: nat, r: Bound, h: Heap, seen: set<nat>)
    requires Query(data, k, t, p) && Bounded(data, k, t) && count >= 1
    requires Distinct(Indices(t)) && Unseen(Indices(t), seen)
    requires Inv(data, p, count, r, h, seen)
    ensures Inv(data, p, count, r, Nearest(data, k, t, p, count, h), seen + SetOf(Indices(t)))
    decreases t
  {
    if !NotAbove(NearDist(p, t.box), h.limit) {
      PruneInv(data, k, t, p, count, r, h, seen);
    } else {
      match t
      case Leaf(_, ix) =>
        OfferAllInv(data, p, ix, count, r, h, seen);
      case Node(_, left, right) =>
        var li := Indices(left);
        var ri := Indices(right);
        SplitUnseen(li, ri, seen);
        assert Walkable(data, k, left) && Walkable(data, k, right);
        if NearDist(p, left.box) <= NearDist(p, right.box) {
          NearestInv(data, k, left, p, count, r, h, seen);
          NearestInv(data, k, right, p, count, r, Nearest(data, k, left, p, count, h), seen + SetOf(li));
          assert seen + SetOf(li) + SetOf(ri) == seen + SetOf(li + ri);
        } else {
          NearestInv(data, k, right, p, count, r, h, seen);
          NearestInv(data, k, left, p, count, r, Nearest(data, k, right, p, count, h), seen + SetOf(ri));
          assert seen + SetOf(ri) + SetOf(li) == seen + SetOf(li + ri);
        }
    }
  }

  /** A skipped subtree's points are all beyond the limit, because its
      box holds them and lies beyond the limit. */
  lemma PruneInv(data: seq<Point>, k: nat, t: Tree, p: Point, count: nat, r: Bound, h: Heap, seen: set<nat>)
    requires Query(data, k, t, p) && Bounded(data, k, t) && count >= 1
    requires Unseen(Indices(t), seen)
    requires Inv(data, p, count, r, h, seen)
    requires !NotAbove(NearDist(p, t.box), h.limit)
    ensures Inv(data, p, count, r, h, seen + SetOf(Indices(t)))
  {
    var ix := Indices(t);
    forall i | i in SetOf(ix)
      ensures i < |data| && !Below(SqDist(p, data[i]), h.limit)
    {
      var j :| 0 <= j < |ix| && ix[j] == i;
      DistanceBounds(p, t.box, data[i]);
    }
    forall j | 0 <= j < |h.kept|
      ensures KeptOk(data, p, r, h.limit, seen + SetOf(ix), h.kept[j])
    {
      assert KeptOk(data, p, r, h.limit, seen, h.kept[j]);
    }
  }

  /** The two halves of a repeat-free, unseen index sequence are repeat
      free, disjoint and unseen, whichever is walked first. */
  lemma SplitUnseen(li: seq<nat>, ri: seq<nat>, seen: set<nat>)
    requires Distinct(li + ri) && Unseen(li + ri, seen)
    ensures Distinct(li) && Distinct(ri)
    ensures Unseen(li, seen) && Unseen(ri, seen)
    ensures Unseen(li, seen + SetOf(ri)) && Unseen(ri, seen + SetOf(li))
    ensures SetOf(li + ri) == SetOf(li) + SetOf(ri)
  {
    var ix := li + ri;
    forall a | 0 <= a < |li|
      ensures ix[a] == li[a]
    {
    }
    forall b | 0 <= b < |ri|
      ensures ix[|li| + b] == ri[b]
    {
    }
    forall a, b | 0 <= a < |li| && 0 <= b < |ri|
      ensures li[a] != ri[b]
    {
      assert ix[a] != ix[|li| + b];
    }
    forall y | y in SetOf(ix)
      ensures y in SetOf(li) + SetOf(ri)
    {
      var j :| 0 <= j < |ix| && ix[j] == y;
      if j >= |li| {
        assert ri[j - |li|] == y;
      }
    }
  }

  /** The `count` nearest points strictly within the radius, as kept by
      the search (before any sorting). */
  function KNearest(t: KDTree, p: Point, count: nat, r: Bound): seq<Neighbour>
    requires Query(t.data, t.k, t.root, p)
  {
    Nearest(t.data, t.k, t.root, p, count, Heap([], r)).kept
  }

  /** The nearest-points search returns distinct points strictly within
      the radius with their true squared distances; as many as asked for
      when there are enough such points and all of them otherwise; and no
      point left out is strictly nearer than one returned. */
  lemma KNearestCorrect(t: KDTree, p: Point, count: nat, r: Bound)
    requires Valid(t) && |p| == t.k && count >= 1
    ensures var res := KNearest(t, p, count, r);
      && (forall j :: 0 <= j < |res| ==>
            && res[j].index < |t.data|
            && res[j].sqDist == SqDist(p, t.data[res[j].index])
            && Below(res[j].sqDist, r))
      && DistinctIndices(res)
      && |res| == (if count <= |Candidates(t.data, p, r)| then count else |Candidates(t.data, p, r)|)
      && (forall j, i :: 0 <= j < |res| && 0 <= i < |t.data| && i !in KeptIndices(res) ==>
            res[j].sqDist <= SqDist(p, t.data[i]))
  {
    var data := t.data;
    var ix := Indices(t.root);
    assert Inv(data, p, count, r, Heap([], r), {});
    NearestInv(data, t.k, t.root, p, count, r, Heap([], r), {});
    AllIndicesSeen(t);
    assert {} + SetOf(ix) == SetOf(ix);
    FinalHeap(data, p, count, r, Nearest(data, t.k, t.root, p, count, Heap([], r)), SetOf(ix));
  }

  /** A constructed tree holds every point index. */
  lemma AllIndicesSeen(t: KDTree)
    requires Valid(t)
    ensures forall i :: 0 <= i < |t.data| ==> i in SetOf(Indices(t.root))
  {
    var ix := Indices(t.root);
    forall i | 0 <= i < |t.data|
      ensures i in SetOf(ix)
    {
      assert Range(|t.data|)[i] == i;
      assert i in multiset(Range(|t.data|));
      var j := Seqs.IndexOf(ix, i);
    }
  }

  /** What the invariant says once every point has been seen: the kept
      entries are valid and distinct, as many as asked for or all the
      candidates, and no point left out is strictly nearer. */
  lemma FinalHeap(data: seq<Point>, p: Point, count: nat, r: Bound, h: Heap, seen: set<nat>)
    requires AllDim(data, |p|) && Inv(data, p, count, r, h, seen)
    requires forall i :: 0 <= i < |data| ==> i in seen
    ensures var res := h.kept;
      && (forall j :: 0 <= j < |res| ==>
            && res[j].index < |data|
            && res[j].sqDist == SqDist(p, data[res[j].index])
            && Below(res[j].sqDist, r))
      && DistinctIndices(res)
      && |res| == (if count <= |Candidates(data, p, r)| then count else |Candidates(data, p, r)|)
      && (forall j, i :: 0 <= j < |res| && 0 <= i < |data| && i !in KeptIndices(res) ==>
            res[j].sqDist <= SqDist(p, data[i]))
  {
    FinalHeapSize(data, p, count, r, h, seen);
    var res := h.kept;
    forall j, i | 0 <= j < |res| && 0 <= i < |data| && i !in KeptIndices(res)
      ensures res[j].sqDist <= SqDist(p, data[i])
    {
      assert i in seen;
      assert KeptOk(data, p, r, h.limit, seen, res[j]);
    }
    forall j | 0 <= j < |res|
      ensures res[j].index < |data| && res[j].sqDist == SqDist(p, data[res[j].index]) && Below(res[j].sqDist, r)
    {
      assert KeptOk(data, p, r, h.limit, seen, res[j]);
    }
  }

  /** The size part of `FinalHeap`: the kept indices are candidates, and
      when fewer than `count` are kept every candidate is. */
  lemma FinalHeapSize(data: seq<Point>, p: Point, count: nat, r: Bound, h: Heap, seen: set<nat>)
    requires AllDim(data, |p|) && Inv(data, p, count, r, h, seen)
    requires forall i :: 0 <= i < |data| ==> i in seen
    ensures |h.kept| == (if count <= |Candidates(data, p, r)| then count else |Candidates(data, p, r)|)
  {
    var res := h.kept;
    var C := Candidates(data, p, r);
    var K := KeptIndices(res);
    DistinctKeptSize(res);
    assert K <= C by {
      forall y | y in K
        ensures y in C
      {
        var j :| 0 <= j < |res| && res[j].index == y;
        assert KeptOk(data, p, r, h.limit, seen, res[j]);
      }
    }
    SubsetCard(K, C);
    if |res| < count {
      assert C <= K by {
        forall i | i in C
          ensures i in K
        {
          assert i in seen;
        }
      }
      SubsetCard(C, K);
    }
  }

  lemma SubsetCard(a: set<nat>, b: set<nat>)
    requires a <= b
    ensures |a| <= |b|
  {
    assert b == a + (b - a);
  }

  lemma {:induction false} DistinctKeptSize(s: seq<Neighbour>)
    requires DistinctIndices(s)
    ensures |KeptIndices(s)| == |s|
    decreases |s|
  {
    if |s| > 0 {
      var t := s[..|s| - 1];
      DistinctKeptSize(t);
      assert KeptIndices(s) == KeptIndices(t) + {s[|s| - 1].index} by {
        forall y | y in KeptIndices(s)
          ensures y in KeptIndices(t) + {s[|s| - 1].index}
        {
          var j :| 0 <= j < |s| && s[j].index == y;
          if j < |s| - 1 {
            assert t[j].index == y;
          }
        }
        forall y | y in KeptIndices(t)
          ensures y in KeptIndices(s)
        {
          var j :| 0 <= j < |t| && t[j].index == y;
          assert s[j].index == y;
        }
      }
      assert s[|s| - 1].index !in KeptIndices(t) by {
        forall j | 0 <= j < |t|
          ensures t[j].index != s[|s| - 1].index
        {
          assert t[j] == s[j];
        }
      }
    }
  }

  // ---------------------------------------------------------------------
  // Sorting by squared distance

  /** Records compare by squared distance, then by index. */
  predicate Precedes(a: Neighbour, b: Neighbour) {
    a.sqDist < b.sqDist || (a.sqDist == b.sqDist && a.index <= b.index)
  }

  predicate Sorted(s: seq<Neighbour>) {
    forall i, j :: 0 <= i < j < |s| ==> Precedes(s[i], s[j])
  }

  function Insert(x: Neighbour, s: seq<Neighbour>): (r: seq<Neighbour>)
    requires Sorted(s)
    ensures Sorted(r)
    ensures multiset(r) == multiset(s) + multiset{x}
    decreases |s|
  {
    if |s| == 0 then [x]
    else if Precedes(x, s[0]) then [x] + s
    else
      var t := Insert(x, s[1..]);
      assert s == [s[0]] + s[1..];
      assert forall j :: 0 <= j < |t| ==> Precedes(s[0], t[j]) by {
        forall j | 0 <= j < |t|
          ensures Precedes(s[0], t[j])
        {
          assert t[j] in multiset(t);
          if t[j] != x {
            var m := Seqs.IndexOf(s[1..], t[j]);
            assert s[1 + m] == t[j];
          }
        }
      }
      [s[0]] + t
  }

  /** The result sorted by squared distance, ties by index. */
  function Sort(s: seq<Neighbour>): (r: seq<Neighbour>)
    ensures Sorted(r)
    ensures multiset(r) == multiset(s)
    decreases |s|
  {
    if |s| == 0 then []
    else
      assert s == [s[0]] + s[1..];
      Insert(s[0], Sort(s[1..]))
  }

  /** The order is total on records, so a sorted sequence is determined by
      its contents: sorting two reorderings gives the same sequence. */
  lemma {:induction false} SortedUnique(a: seq<Neighbour>, b: seq<Neighbour>)
    requires Sorted(a) && Sorted(b) && multiset(a) == multiset(b)
    ensures a == b
    decreases |a|
  {
    if |a| > 0 {
      assert |b| == |multiset(b)| == |a|;
      assert a[0] in multiset(a);
      var i := Seqs.IndexOf(b, a[0]);
      var j := Seqs.IndexOf(a, b[0]);
      assert Precedes(b[0], b[i]) && Precedes(a[0], a[j]);
      assert a[0] == b[0];
      Seqs.MultisetTail(a);
      Seqs.MultisetTail(b);
      SortedUnique(a[1..], b[1..]);
      assert a == [a[0]] + a[1..] && b == [b[0]] + b[1..];
    } else {
      assert |b| == |multiset(b)| == 0;
    }
  }

  // ---------------------------------------------------------------------
  // The query entry point

  /** The search: no count means every point; a count below 1 or a
      negative radius gives nothing; no radius means no limit. Asking for
      at least as many points as there are takes the every-point-within
      path (radius inclusive), fewer takes the nearest-points path (radius
      exclusive). */
  function Search(t: KDTree, p: Point, count: Option<int>, radius: Option<real>, sort: bool): (res: seq<Neighbour>)
    requires Query(t.data, t.k, t.root, p)
    ensures count.Some? && count.value < 1 ==> res == []
    ensures radius.Some? && radius.value < 0.0 ==> res == []
    ensures sort ==> Sorted(res)
  {
    var n := |t.data|;
    var c := count.GetOr(n);
    if c < 1 then []
    else if radius.Some? && radius.value < 0.0 then []
    else
      var r := if radius.None? then Unbounded else AtMost(radius.value * radius.value);
      var found := if c >= n then AllWithin(t.data, t.k, t.root, p, r) else KNearest(t, p, c, r);
      if sort then Sort(found) else found
  }

  /** The limit a radius stands for. */
  function BoundOf(radius: Option<real>): Bound {
    if radius.None? then Unbounded else AtMost(radius.value * radius.value)
  }

  /** Asking for every point (or at least as many as there are) returns
      exactly the brute-force answer: every point within the radius,
      boundary included, once, with its squared distance; sorted, it is
      the sorted brute-force answer. */
  lemma SearchAllWithin(t: KDTree, p: Point, count: Option<int>, radius: Option<real>, sort: bool)
    requires Valid(t) && |p| == t.k
    requires count.None? || count.value >= |t.data|
    requires |t.data| >= 1
    requires radius.None? || radius.value >= 0.0
    ensures var brute := WithinFilter(t.data, p, BoundOf(radius), Range(|t.data|));
      && multiset(Search(t, p, count, radius, sort)) == multiset(brute)
      && (sort ==> Search(t, p, count, radius, sort) == Sort(brute))
  {
    var r := BoundOf(radius);
    var brute := WithinFilter(t.data, p, r, Range(|t.data|));
    var found := AllWithin(t.data, t.k, t.root, p, r);
    SearchTakesAllWithin(t, p, count, radius, sort);
    AllWithinIsFilter(t.data, t.k, t.root, p, r);
    FilterPermutation(t.data, p, r, Indices(t.root), Range(|t.data|));
    assert multiset(found) == multiset(brute);
    if sort {
      SortedUnique(Sort(found), Sort(brute));
    }
  }

  lemma SearchTakesAllWithin(t: KDTree, p: Point, count: Option<int>, radius: Option<real>, sort: bool)
    requires Query(t.data, t.k, t.root, p)
    requires count.None? || count.value >= |t.data|
    requires |t.data| >= 1
    requires radius.None? || radius.value >= 0.0
    ensures Search(t, p, count, radius, sort) ==
      var found := AllWithin(t.data, t.k, t.root, p, BoundOf(radius));
      if sort then Sort(found) else found
  {
  }

  /** Asking for fewer points than there are returns the nearest points
      strictly within the radius, as `KNearestCorrect` states. */
  lemma SearchNearest(t: KDTree, p: Point, count: int, radius: Option<real>, sort: bool)
    requires Valid(t) && |p| == t.k
    requires 1 <= count < |t.data|
    requires radius.None? || radius.value >= 0.0
    ensures multiset(Search(t, p, Some(count), radius, sort)) == multiset(KNearest(t, p, count, BoundOf(radius)))
    ensures var res := Search(t, p, Some(count), radius, sort);
      && (forall j :: 0 <= j < |res| ==>
            res[j].index < |t.data| && res[j].sqDist == SqDist(p, t.data[res[j].index]) && Below(res[j].sqDist, BoundOf(radius)))
      && (forall j, i :: 0 <= j < |res| && 0 <= i < |t.data| && i !in KeptIndices(res) ==>
            res[j].sqDist <= SqDist(p, t.data[i]))
  {
    var res := Search(t, p, Some(count), radius, sort);
    var kn := KNearest(t, p, count, BoundOf(radius));
    KNearestCorrect(t, p, count, BoundOf(radius));
    SameKeptIndices(res, kn);
    forall j | 0 <= j < |res|
      ensures res[j] in kn
    {
      assert res[j] in multiset(kn);
    }
  }

  /** Reordering the results keeps the same set of indices. */
  lemma SameKeptIndices(a: seq<Neighbour>, b: seq<Neighbour>)
    requires multiset(a) == multiset(b)
    ensures KeptIndices(a) == KeptIndices(b)
  {
    forall y | y in KeptIndices(a)
      ensures y in KeptIndices(b)
    {
      var j :| 0 <= j < |a| && a[j].index == y;
      assert a[j] in multiset(b);
      var m :| 0 <= m < |b| && b[m] == a[j];
    }
    forall y | y in KeptIndices(b)
      ensures y in KeptIndices(a)
    {
      var j :| 0 <= j < |b| && b[j].index == y;
      assert b[j] in multiset(a);
      var m :| 0 <= m < |a| && a[m] == b[j];
    }
  }
}

=== FILE: ordered_buffer.dfy ===
/** An append-only staging buffer that never moves an element once written.

    Elements go into fixed-capacity buckets; a push that does not fit the
    room left in the current bucket is kept out of line as a "bunch",
    tagged with the bucket position current at the time. `Chunks` rebuilds
    the insertion order by interleaving bucket slices and bunches.

    Slots of a freshly allocated bucket hold `blank`, standing for the
    unspecified contents numpy gives them. */
module OrderedBuffer {
  import opened Seqs
  import opened Wrappers

  /** A slot address: bucket number, then offset inside the bucket. */
  datatype Pos = Pos(bucket: nat, offset: nat)

  /** An out-of-line push, recorded at the bucket position current when it
      happened. */
  datatype Bunch<T> = Bunch(position: Pos, data: seq<T>)

  datatype Buffer<T> = Buffer(
    bucketCapacity: nat,
    buckets: seq<seq<T>>,
    pos: Pos,
    bunches: seq<Bunch<T>>,
    blank: T)

  /** Where a push was stored: a slice of a bucket or a whole bunch. */
  datatype Slice = BucketSlice(bucket: nat, offset: nat, count: nat) | BunchSlice(index: nat)

  /** A handle on one element: a bucket slot or a slot of a bunch. */
  datatype Ref = BucketSlot(bucket: nat, offset: nat) | BunchSlot(index: nat, offset: nat)

  /** Lexicographic order on positions. */
  predicate Le(p: Pos, q: Pos) {
    p.bucket < q.bucket || (p.bucket == q.bucket && p.offset <= q.offset)
  }

  /** The number of slots that precede `p`. */
  function Linear(cap: nat, p: Pos): nat {
    cap * p.bucket + p.offset
  }

  /** Every allocated bucket has the bucket capacity. */
  predicate Shaped<T>(buckets: seq<seq<T>>, cap: nat) {
    forall k :: 0 <= k < |buckets| ==> |buckets[k]| == cap
  }

  /** A position the buffer can be at: inside an allocated bucket, or at
      the start of the next bucket to allocate. */
  predicate InRange<T>(buckets: seq<seq<T>>, cap: nat, p: Pos) {
    p.offset < cap && (p.bucket < |buckets| || (p.bucket == |buckets| && p.offset == 0))
  }

  /** Positions from `start`, through the bunches, to `end` are in range
      and non-decreasing. */
  predicate Chain<T>(buckets: seq<seq<T>>, cap: nat, start: Pos, bunches: seq<Bunch<T>>, end: Pos)
    decreases |bunches|
  {
    && InRange(buckets, cap, start)
    && if |bunches| == 0 then
         Le(start, end) && InRange(buckets, cap, end)
       else
         Le(start, bunches[0].position)
         && InRange(buckets, cap, bunches[0].position)
         && Chain(buckets, cap, bunches[0].position, bunches[1..], end)
  }

  /** The buffer's invariant. */
  predicate Valid<T>(b: Buffer<T>) {
    && b.bucketCapacity >= 1
    && Shaped(b.buckets, b.bucketCapacity)
    && Chain(b.buckets, b.bucketCapacity, Pos(0, 0), b.bunches, b.pos)
    && (forall k :: 0 <= k < |b.bunches| ==> |b.bunches[k].data| >= 1)
  }

  /** A new buffer; a bucket capacity below 1 is rejected. */
  function New<T>(bucketCapacity: int, blank: T): (r: Result<Buffer<T>>)
    ensures bucketCapacity < 1 <==> r.Failure?
    ensures r.Success? ==>
      && Valid(r.value)
      && r.value.bucketCapacity == bucketCapacity
      && Length(r.value) == 0
      && Chunks(r.value) == []
  {
    if bucketCapacity < 1 then
      Failure(ValueError("A minimum bucket capacity of 1 is expected."))
    else
      var b := Buffer(bucketCapacity, [], Pos(0, 0), [], blank);
      assert Chunks(b) == [];
      Success(b)
  }

  function SumBunchLengths<T>(bunches: seq<Bunch<T>>): nat {
    if |bunches| == 0 then 0 else |bunches[0].data| + SumBunchLengths(bunches[1..])
  }

  /** The number of elements pushed since the last clear. */
  function Length<T>(b: Buffer<T>): nat {
    Linear(b.bucketCapacity, b.pos) + SumBunchLengths(b.bunches)
  }

  /** The bucket slices between two positions, skipping empty ones. */
  function Segment<T>(buckets: seq<seq<T>>, cap: nat, lo: Pos, hi: Pos): seq<seq<T>>
    requires cap >= 1 && Shaped(buckets, cap)
    requires InRange(buckets, cap, lo) && InRange(buckets, cap, hi) && Le(lo, hi)
    decreases hi.bucket - lo.bucket
  {
    if lo.bucket < hi.bucket then
      [buckets[lo.bucket][lo.offset..]] + Segment(buckets, cap, Pos(lo.bucket + 1, 0), hi)
    else if lo.offset < hi.offset then
      [buckets[lo.bucket][lo.offset..hi.offset]]
    else
      []
  }

  /** The chunks from `start`: bucket slices up to each bunch, then the
      bunch, and finally the bucket slices up to `end`. */
  function ChunksFrom<T>(buckets: seq<seq<T>>, cap: nat, start: Pos, bunches: seq<Bunch<T>>, end: Pos): seq<seq<T>>
    requires cap >= 1 && Shaped(buckets, cap)
    requires Chain(buckets, cap, start, bunches, end)
    decreases |bunches|
  {
    if |bunches| == 0 then
      Segment(buckets, cap, start, end)
    else
      Segment(buckets, cap, start, bunches[0].position)
      + (if |bunches[0].data| > 0 then [bunches[0].data] else [])
      + ChunksFrom(buckets, cap, bunches[0].position, bunches[1..], end)
  }

  /** The stored elements as slices, in insertion order. */
  function Chunks<T>(b: Buffer<T>): seq<seq<T>>
    requires Valid(b)
  {
    ChunksFrom(b.buckets, b.bucketCapacity, Pos(0, 0), b.bunches, b.pos)
  }

  /** Store `data` (at least one element) at the end. */
  function Push<T>(b: Buffer<T>, data: seq<T>): (r: (Buffer<T>, Slice))
    requires Valid(b) && |data| >= 1
    ensures Valid(r.0)
    ensures r.0.bucketCapacity == b.bucketCapacity && r.0.blank == b.blank
    ensures Read(r.0, r.1) == Some(data)
    ensures Length(r.0) == Length(b) + |data|
    // A push that fits is written at the current slot; the position
    // advances and moves to the next bucket exactly when this one is full.
    ensures b.bucketCapacity - b.pos.offset >= |data| ==>
      && r.1 == BucketSlice(b.pos.bucket, b.pos.offset, |data|)
      && Linear(b.bucketCapacity, r.0.pos) == Linear(b.bucketCapacity, b.pos) + |data|
      && (r.0.pos.bucket == b.pos.bucket + 1 <==> b.pos.offset + |data| == b.bucketCapacity)
      && r.0.bunches == b.bunches
      && (b.pos.bucket < |b.buckets| ==> |r.0.buckets| == |b.buckets|)
    // A push that does not fit becomes a bunch at the current position.
    ensures b.bucketCapacity - b.pos.offset < |data| ==>
      && r.0.bunches == b.bunches + [Bunch(b.pos, data)]
      && r.0.pos == b.pos
      && r.0.buckets == b.buckets
    // Nothing written earlier is overwritten.
    ensures |r.0.buckets| >= |b.buckets|
    ensures forall k, o ::
              (0 <= k < |b.buckets| && 0 <= o < b.bucketCapacity && Le(Pos(k, o + 1), b.pos))
              ==> r.0.buckets[k][o] == b.buckets[k][o]
    ensures r.0.bunches[..|b.bunches|] == b.bunches
  {
    if b.bucketCapacity - b.pos.offset >= |data| then
      (WriteInBucket(b, data), BucketSlice(b.pos.bucket, b.pos.offset, |data|))
    else
      (AddBunch(b, data), BunchSlice(|b.bunches|))
  }

  /** The position after writing `n` slots at `p`, moving to the next
      bucket when the current one becomes full. */
  function Advance(cap: nat, p: Pos, n: nat): (q: Pos)
    requires cap >= 1 && p.offset + n <= cap
    ensures Linear(cap, q) == Linear(cap, p) + n
    ensures q.offset < cap
    ensures q.bucket == p.bucket + 1 <==> p.offset + n == cap
    ensures q.bucket == p.bucket || q.bucket == p.bucket + 1
    ensures Le(p, q)
    ensures q == if p.offset + n == cap then Pos(p.bucket + 1, 0) else Pos(p.bucket, p.offset + n)
  {
    var nj := (p.offset + n) % cap;
    if p.offset + n == cap then
      assert nj == 0;
      assert cap * (p.bucket + 1) == cap * p.bucket + cap;
      Pos(p.bucket + 1, nj)
    else
      assert nj == p.offset + n;
      Pos(p.bucket, nj)
  }

  /** The fitting branch of a push: write into the current bucket,
      allocating it first if needed. */
  function WriteInBucket<T>(b: Buffer<T>, data: seq<T>): (r: Buffer<T>)
    requires Valid(b) && |data| >= 1 && b.bucketCapacity - b.pos.offset >= |data|
    ensures Valid(r)
    ensures r.bucketCapacity == b.bucketCapacity && r.blank == b.blank && r.bunches == b.bunches
    ensures r.pos == Advance(b.bucketCapacity, b.pos, |data|)
    ensures b.pos.bucket < |r.buckets|
    ensures r.buckets[b.pos.bucket][b.pos.offset..b.pos.offset + |data|] == data
    ensures |r.buckets| == if b.pos.bucket == |b.buckets| then |b.buckets| + 1 else |b.buckets|
    ensures AgreeBefore(b.buckets, r.buckets, b.pos)
  {
    var cap := b.bucketCapacity;
    var i := b.pos.bucket;
    var j := b.pos.offset;
    ChainStartLeEnd(b.buckets, cap, Pos(0, 0), b.bunches, b.pos);
    var buckets := if i == |b.buckets| then b.buckets + [seq(cap, _ => b.blank)] else b.buckets;
    var bucket := buckets[i][..j] + data + buckets[i][j + |data|..];
    var r := b.(buckets := buckets[i := bucket], pos := Advance(cap, b.pos, |data|));
    assert bucket[j..j + |data|] == data;
    assert bucket[..j] == buckets[i][..j];
    PushChain(b, r);
    r
  }

  /** The overflowing branch of a push: keep the data out of line. */
  function AddBunch<T>(b: Buffer<T>, data: seq<T>): (r: Buffer<T>)
    requires Valid(b) && |data| >= 1
    ensures Valid(r)
    ensures r == b.(bunches := b.bunches + [Bunch(b.pos, data)])
    ensures Length(r) == Length(b) + |data|
  {
    ChainSnoc(b.buckets, b.bucketCapacity, Pos(0, 0), b.bunches, b.pos, data);
    SumBunchLengthsSnoc(b.bunches, Bunch(b.pos, data));
    b.(bunches := b.bunches + [Bunch(b.pos, data)])
  }

  /** Append one element; returns where it went. */
  function Append<T>(b: Buffer<T>, x: T): (r: (Buffer<T>, Slice))
    requires Valid(b)
    ensures Valid(r.0)
    ensures Read(r.0, r.1) == Some([x])
    ensures Length(r.0) == Length(b) + 1
  {
    Push(b, [x])
  }

  /** Append several elements; an empty extend changes nothing and hands
      back an empty result. */
  function Extend<T>(b: Buffer<T>, data: seq<T>): (r: (Buffer<T>, Option<Slice>))
    requires Valid(b)
    ensures Valid(r.0)
    ensures Length(r.0) == Length(b) + |data|
    ensures |data| == 0 <==> r.1.None?
    ensures |data| == 0 ==> r.0 == b
    ensures r.1.Some? ==> Read(r.0, r.1.value) == Some(data)
  {
    if |data| < 1 then
      (b, None)
    else
      var (b', s) := Push(b, data);
      (b', Some(s))
  }

  /** Forget the contents, keeping the allocated buckets for reuse. */
  function Clear<T>(b: Buffer<T>): (r: Buffer<T>)
    requires Valid(b)
    ensures Valid(r)
    ensures Length(r) == 0
    ensures Chunks(r) == []
    ensures r.buckets == b.buckets && r.bucketCapacity == b.bucketCapacity
  {
    var r := b.(pos := Pos(0, 0), bunches := []);
    assert Chunks(r) == [];
    r
  }

  /** The contents of a slice handed out by a push, if it still addresses
      stored data. */
  function Read<T>(b: Buffer<T>, s: Slice): Option<seq<T>> {
    match s
    case BucketSlice(i, j, n) =>
      if i < |b.buckets| && j + n <= |b.buckets[i]| then Some(b.buckets[i][j..j + n]) else None
    case BunchSlice(k) =>
      if k < |b.bunches| then Some(b.bunches[k].data) else None
  }

  /** A slice lies in the part of the buffer written since the last clear. */
  predicate Written<T>(b: Buffer<T>, s: Slice) {
    match s
    case BucketSlice(i, j, n) =>
      i < |b.buckets| && j + n <= b.bucketCapacity && Le(Pos(i, j + n), b.pos)
    case BunchSlice(k) =>
      k < |b.bunches|
  }

  /** A slice handed out by a push keeps its contents through every later
      push until the next clear. */
  lemma PushKeepsWrittenSlices<T>(b: Buffer<T>, data: seq<T>, s: Slice)
    requires Valid(b) && |data| >= 1 && Written(b, s)
    ensures Written(Push(b, data).0, s)
    ensures Read(Push(b, data).0, s) == Read(b, s)
  {
    var r := Push(b, data).0;
    match s
    case BucketSlice(i, j, n) =>
      if b.bucketCapacity - b.pos.offset >= |data| {
        assert Le(b.pos, r.pos);
        if i == b.pos.bucket {
          assert r.buckets[i][j..j + n] == r.buckets[i][..b.pos.offset][j..j + n];
          assert b.buckets[i][j..j + n] == b.buckets[i][..b.pos.offset][j..j + n];
        }
      }
    case BunchSlice(k) =>
  }

  /** Positions compare as their slot counts do. */
  lemma LinearMonotone(cap: nat, p: Pos, q: Pos)
    requires cap >= 1 && p.offset < cap && q.offset < cap
    requires Linear(cap, p) >= Linear(cap, q)
    ensures Le(q, p)
  {
    if p.bucket < q.bucket {
      MulMonotone(cap, p.bucket + 1, q.bucket);
      assert false;
    }
  }

  lemma MulMonotone(c: nat, a: nat, b: nat)
    requires a <= b
    ensures c * a <= c * b
  {
  }

  // ---------------------------------------------------------------------
  // Insertion order

  /** The stored elements, in insertion order, are everything pushed since
      the last clear. */
  lemma {:induction false} PushAppendsToContents<T>(b: Buffer<T>, data: seq<T>)
    requires Valid(b) && |data| >= 1
    ensures Flatten(Chunks(Push(b, data).0)) == Flatten(Chunks(b)) + data
  {
    var cap := b.bucketCapacity;
    var r := Push(b, data).0;
    if cap - b.pos.offset >= |data| {
      ChunksFromExtended(b.buckets, r.buckets, cap, Pos(0, 0), b.bunches, b.pos, r.pos, data);
    } else {
      ChunksFromSnoc(b.buckets, cap, Pos(0, 0), b.bunches, b.pos, data);
      FlattenAppend(Chunks(b), [data]);
    }
  }

  /** The contents after a series of pushes. */
  function PushAll<T>(b: Buffer<T>, pushes: seq<seq<T>>): (r: Buffer<T>)
    requires Valid(b)
    requires forall k :: 0 <= k < |pushes| ==> |pushes[k]| >= 1
    ensures Valid(r)
    decreases |pushes|
  {
    if |pushes| == 0 then b else PushAll(Push(b, pushes[0]).0, pushes[1..])
  }

  /** After a clear, concatenating the chunks gives back every pushed
      element in the order pushed, and the length counts them. */
  lemma {:induction false} ChunksAreInsertionOrder<T>(b: Buffer<T>, pushes: seq<seq<T>>)
    requires Valid(b)
    requires forall k :: 0 <= k < |pushes| ==> |pushes[k]| >= 1
    ensures Flatten(Chunks(PushAll(b, pushes))) == Flatten(Chunks(b)) + Flatten(pushes)
    ensures Length(PushAll(b, pushes)) == Length(b) + |Flatten(pushes)|
    decreases |pushes|
  {
    if |pushes| > 0 {
      var b' := Push(b, pushes[0]).0;
      ChunksAreInsertionOrder(b', pushes[1..]);
      calc {
        Flatten(Chunks(PushAll(b, pushes)));
        Flatten(Chunks(b')) + Flatten(pushes[1..]);
        == { PushAppendsToContents(b, pushes[0]); }
        (Flatten(Chunks(b)) + pushes[0]) + Flatten(pushes[1..]);
        == { assert (Flatten(Chunks(b)) + pushes[0]) + Flatten(pushes[1..])
                 == Flatten(Chunks(b)) + (pushes[0] + Flatten(pushes[1..])); }
        Flatten(Chunks(b)) + Flatten(pushes);
      }
    }
  }

  /** The length is the number of elements the chunks hold, and no chunk
      is empty. */
  lemma ChunksMatchLength<T>(b: Buffer<T>)
    requires Valid(b)
    ensures |Flatten(Chunks(b))| == Length(b)
    ensures forall k :: 0 <= k < |Chunks(b)| ==> |Chunks(b)[k]| >= 1
  {
    ChunksFromLength(b.buckets, b.bucketCapacity, Pos(0, 0), b.bunches, b.pos);
    ChunksFromNonEmpty(b.buckets, b.bucketCapacity, Pos(0, 0), b.bunches, b.pos);
    FlattenLength(Chunks(b));
  }

  // ---------------------------------------------------------------------
  // In-place writes through element handles

  /** The element a handle designates, if it addresses stored data. */
  function Get<T>(b: Buffer<T>, r: Ref): Option<T> {
    match r
    case BucketSlot(i, o) =>
      if i < |b.buckets| && o < |b.buckets[i]| then Some(b.buckets[i][o]) else None
    case BunchSlot(k, o) =>
      if k < |b.bunches| && o < |b.bunches[k].data| then Some(b.bunches[k].data[o]) else None
  }

  /** Overwrite the element a handle designates; a dangling handle changes
      nothing. */
  function Set<T>(b: Buffer<T>, r: Ref, x: T): (b': Buffer<T>)
    requires Valid(b)
    ensures Valid(b')
    ensures Get(b, r).Some? ==> Get(b', r) == Some(x)
    ensures Length(b') == Length(b)
    ensures forall r' :: r' != r ==> Get(b', r') == Get(b, r')
  {
    match r
    case BucketSlot(i, o) =>
      if i < |b.buckets| && o < |b.buckets[i]| then
        var b' := b.(buckets := b.buckets[i := b.buckets[i][o := x]]);
        ChainSameShape(b.buckets, b'.buckets, b.bucketCapacity, Pos(0, 0), b.bunches, b.pos);
        b'
      else b
    case BunchSlot(k, o) =>
      if k < |b.bunches| && o < |b.bunches[k].data| then
        var bunches := b.bunches[k := b.bunches[k].(data := b.bunches[k].data[o := x])];
        ChainSamePositions(b.buckets, b.bucketCapacity, Pos(0, 0), b.bunches, bunches, b.pos);
        SumBunchLengthsSamePositions(b.bunches, bunches);
        b.(bunches := bunches)
      else b
  }

  /** The buffer seen through an element-wise view (such as particle ids). */
  function MapBuffer<T, U>(g: T -> U, b: Buffer<T>): (r: Buffer<U>)
    ensures Valid(b) ==> Valid(r)
  {
    var r := Buffer(
      b.bucketCapacity,
      seq(|b.buckets|, k requires 0 <= k < |b.buckets| => MapSeq(g, b.buckets[k])),
      b.pos,
      seq(|b.bunches|, k requires 0 <= k < |b.bunches| => Bunch(b.bunches[k].position, MapSeq(g, b.bunches[k].data))),
      g(b.blank));
    if Valid(b) then
      ChainMapped(g, b.buckets, r.buckets, b.bucketCapacity, Pos(0, 0), b.bunches, r.bunches, b.pos);
      r
    else r
  }

  function MapSeq<T, U>(g: T -> U, s: seq<T>): (r: seq<U>)
    ensures |r| == |s|
    ensures forall k :: 0 <= k < |s| ==> r[k] == g(s[k])
  {
    seq(|s|, k requires 0 <= k < |s| => g(s[k]))
  }

  /** Chunking commutes with an element-wise view: the chunks of the viewed
      buffer are the viewed chunks. */
  lemma ChunksOfMap<T, U>(g: T -> U, b: Buffer<T>)
    requires Valid(b)
    ensures Flatten(Chunks(MapBuffer(g, b))) == MapSeq(g, Flatten(Chunks(b)))
  {
    var m := MapBuffer(g, b);
    ChunksFromMapped(g, b.buckets, m.buckets, b.bucketCapacity, Pos(0, 0), b.bunches, m.bunches, b.pos);
    FlattenMapChunks(g, Chunks(b));
  }

  /** Overwriting an element by one with the same view leaves the view of
      the whole buffer, and so of its contents, unchanged. */
  lemma SetPreservesView<T, U>(g: T -> U, b: Buffer<T>, r: Ref, x: T)
    requires Valid(b)
    requires Get(b, r).Some? ==> g(x) == g(Get(b, r).value)
    ensures MapSeq(g, Flatten(Chunks(Set(b, r, x)))) == MapSeq(g, Flatten(Chunks(b)))
  {
    var b' := Set(b, r, x);
    assert MapBuffer(g, b') == MapBuffer(g, b) by {
      match r
      case BucketSlot(i, o) =>
        if i < |b.buckets| && o < |b.buckets[i]| {
          assert MapSeq(g, b'.buckets[i]) == MapSeq(g, b.buckets[i]);
        }
      case BunchSlot(k, o) =>
        if k < |b.bunches| && o < |b.bunches[k].data| {
          assert MapSeq(g, b'.bunches[k].data) == MapSeq(g, b.bunches[k].data);
        }
    }
    ChunksOfMap(g, b);
    ChunksOfMap(g, b');
  }

  // ---------------------------------------------------------------------
  // Helper lemmas

  lemma {:induction false} ChainStartLeEnd<T>(buckets: seq<seq<T>>, cap: nat, start: Pos, bunches: seq<Bunch<T>>, end: Pos)
    requires Chain(buckets, cap, start, bunches, end)
    ensures Le(start, end) && InRange(buckets, cap, end)
    decreases |bunches|
  {
    if |bunches| > 0 {
      ChainStartLeEnd(buckets, cap, bunches[0].position, bunches[1..], end);
    }
  }

  lemma {:induction false} ChainSnoc<T>(buckets: seq<seq<T>>, cap: nat, start: Pos, bunches: seq<Bunch<T>>, end: Pos, data: seq<T>)
    requires Chain(buckets, cap, start, bunches, end)
    ensures Chain(buckets, cap, start, bunches + [Bunch(end, data)], end)
    decreases |bunches|
  {
    if |bunches| == 0 {
      assert (bunches + [Bunch(end, data)])[1..] == [];
    } else {
      assert (bunches + [Bunch(end, data)])[1..] == bunches[1..] + [Bunch(end, data)];
      ChainSnoc(buckets, cap, bunches[0].position, bunches[1..], end, data);
    }
  }

  lemma {:induction false} SumBunchLengthsSnoc<T>(bunches: seq<Bunch<T>>, x: Bunch<T>)
    ensures SumBunchLengths(bunches + [x]) == SumBunchLengths(bunches) + |x.data|
    decreases |bunches|
  {
    if |bunches| == 0 {
      assert (bunches + [x])[1..] == [];
    } else {
      assert (bunches + [x])[1..] == bunches[1..] + [x];
      SumBunchLengthsSnoc(bunches[1..], x);
    }
  }

  /** The chain survives more buckets and a later end position. */
  lemma {:induction false} ChainExtended<T>(buckets: seq<seq<T>>, buckets': seq<seq<T>>, cap: nat,
                                           start: Pos, bunches: seq<Bunch<T>>, end: Pos, end': Pos)
    requires Chain(buckets, cap, start, bunches, end)
    requires |buckets'| >= |buckets|
    requires Le(end, end') && InRange(buckets', cap, end')
    ensures Chain(buckets', cap, start, bunches, end')
    decreases |bunches|
  {
    if |bunches| > 0 {
      ChainExtended(buckets, buckets', cap, bunches[0].position, bunches[1..], end, end');
    }
  }

  lemma PushChain<T>(b: Buffer<T>, r: Buffer<T>)
    requires Valid(b)
    requires r.bucketCapacity == b.bucketCapacity && r.bunches == b.bunches
    requires |r.buckets| >= |b.buckets| && Shaped(r.buckets, r.bucketCapacity)
    requires Le(b.pos, r.pos) && InRange(r.buckets, r.bucketCapacity, r.pos)
    ensures Valid(r)
  {
    ChainExtended(b.buckets, r.buckets, b.bucketCapacity, Pos(0, 0), b.bunches, b.pos, r.pos);
  }

  lemma {:induction false} ChainSameShape<T>(buckets: seq<seq<T>>, buckets': seq<seq<T>>, cap: nat,
                                            start: Pos, bunches: seq<Bunch<T>>, end: Pos)
    requires Chain(buckets, cap, start, bunches, end)
    requires |buckets'| == |buckets|
    ensures Chain(buckets', cap, start, bunches, end)
    decreases |bunches|
  {
    if |bunches| > 0 {
      ChainSameShape(buckets, buckets', cap, bunches[0].position, bunches[1..], end);
    }
  }

  ghost predicate SamePositions<T, U>(a: seq<Bunch<T>>, c: seq<Bunch<U>>) {
    |a| == |c| && forall k :: 0 <= k < |a| ==> a[k].position == c[k].position && |a[k].data| == |c[k].data|
  }

  lemma {:induction false} ChainSamePositions<T>(buckets: seq<seq<T>>, cap: nat, start: Pos,
                                                bunches: seq<Bunch<T>>, bunches': seq<Bunch<T>>, end: Pos)
    requires Chain(buckets, cap, start, bunches, end)
    requires SamePositions(bunches, bunches')
    ensures Chain(buckets, cap, start, bunches', end)
    decreases |bunches|
  {
    if |bunches| > 0 {
      ChainSamePositions(buckets, cap, bunches[0].position, bunches[1..], bunches'[1..], end);
    }
  }

  lemma {:induction false} SumBunchLengthsSamePositions<T, U>(a: seq<Bunch<T>>, c: seq<Bunch<U>>)
    requires SamePositions(a, c)
    ensures SumBunchLengths(a) == SumBunchLengths(c)
    decreases |a|
  {
    if |a| > 0 {
      SumBunchLengthsSamePositions(a[1..], c[1..]);
    }
  }

  lemma {:induction false} ChainMapped<T, U>(g: T -> U, buckets: seq<seq<T>>, buckets': seq<seq<U>>, cap: nat,
                                            start: Pos, bunches: seq<Bunch<T>>, bunches': seq<Bunch<U>>, end: Pos)
    requires Chain(buckets, cap, start, bunches, end)
    requires |buckets'| == |buckets| && SamePositions(bunches, bunches')
    ensures Chain(buckets', cap, start, bunches', end)
    decreases |bunches|
  {
    if |bunches| > 0 {
      ChainMapped(g, buckets, buckets', cap, bunches[0].position, bunches[1..], bunches'[1..], end);
    }
  }

  lemma {:induction false} SegmentEmpty<T>(buckets: seq<seq<T>>, cap: nat, p: Pos)
    requires cap >= 1 && Shaped(buckets, cap) && InRange(buckets, cap, p)
    ensures Segment(buckets, cap, p, p) == []
  {
  }

  lemma {:induction false} ChunksFromSnoc<T>(buckets: seq<seq<T>>, cap: nat, start: Pos, bunches: seq<Bunch<T>>, end: Pos, data: seq<T>)
    requires cap >= 1 && Shaped(buckets, cap)
    requires Chain(buckets, cap, start, bunches, end)
    requires |data| >= 1
    ensures Chain(buckets, cap, start, bunches + [Bunch(end, data)], end)
    ensures ChunksFrom(buckets, cap, start, bunches + [Bunch(end, data)], end)
         == ChunksFrom(buckets, cap, start, bunches, end) + [data]
    decreases |bunches|
  {
    ChainSnoc(buckets, cap, start, bunches, end, data);
    var bs := bunches + [Bunch(end, data)];
    if |bunches| == 0 {
      assert bs[1..] == [];
      ChainStartLeEnd(buckets, cap, start, bunches, end);
      SegmentEmpty(buckets, cap, end);
    } else {
      assert bs[1..] == bunches[1..] + [Bunch(end, data)];
      ChunksFromSnoc(buckets, cap, bunches[0].position, bunches[1..], end, data);
    }
  }

  /** Buckets agree on every slot before `p`. */
  ghost predicate AgreeBefore<T>(buckets: seq<seq<T>>, buckets': seq<seq<T>>, p: Pos) {
    && |buckets'| >= |buckets|
    && (forall k :: 0 <= k < p.bucket && k < |buckets| ==> buckets'[k] == buckets[k])
    && (p.bucket < |buckets| ==>
          && p.offset <= |buckets[p.bucket]| && p.offset <= |buckets'[p.bucket]|
          && buckets'[p.bucket][..p.offset] == buckets[p.bucket][..p.offset])
  }

  /** Slices that end no later than `p` only read slots before `p`. */
  lemma {:induction false} SegmentFrame<T>(buckets: seq<seq<T>>, buckets': seq<seq<T>>, cap: nat, lo: Pos, hi: Pos, p: Pos)
    requires cap >= 1 && Shaped(buckets, cap) && Shaped(buckets', cap)
    requires InRange(buckets, cap, lo) && InRange(buckets, cap, hi) && Le(lo, hi)
    requires Le(hi, p) && InRange(buckets, cap, p)
    requires AgreeBefore(buckets, buckets', p)
    ensures InRange(buckets', cap, lo) && InRange(buckets', cap, hi)
    ensures Segment(buckets', cap, lo, hi) == Segment(buckets, cap, lo, hi)
    decreases hi.bucket - lo.bucket
  {
    if lo.bucket < hi.bucket {
      SegmentFrame(buckets, buckets', cap, Pos(lo.bucket + 1, 0), hi, p);
    } else if lo.offset < hi.offset {
      if lo.bucket == p.bucket {
        SliceOfSharedPrefix(buckets[lo.bucket], buckets'[lo.bucket], p.offset, lo.offset, hi.offset);
      } else {
        assert buckets'[lo.bucket] == buckets[lo.bucket];
      }
    }
  }

  /** Two sequences that share a prefix agree on every slice inside it. */
  lemma SliceOfSharedPrefix<T>(a: seq<T>, b: seq<T>, n: nat, i: nat, j: nat)
    requires i <= j <= n && n <= |a| && n <= |b| && a[..n] == b[..n]
    ensures a[i..j] == b[i..j]
  {
    forall k | 0 <= k < j - i
      ensures a[i..j][k] == b[i..j][k]
    {
      assert a[..n][i + k] == b[..n][i + k];
    }
  }

  /** The bucket push: the final segment grows by exactly the pushed data. */
  lemma {:induction false} SegmentExtended<T>(buckets: seq<seq<T>>, buckets': seq<seq<T>>, cap: nat,
                                             lo: Pos, p: Pos, p': Pos, data: seq<T>)
    requires cap >= 1 && Shaped(buckets, cap) && Shaped(buckets', cap)
    requires InRange(buckets, cap, lo) && InRange(buckets, cap, p) && Le(lo, p)
    requires InRange(buckets', cap, p') && Le(p, p')
    requires AgreeBefore(buckets, buckets', p)
    requires p.offset + |data| <= cap && |data| >= 1 && p.bucket < |buckets'|
    requires buckets'[p.bucket][p.offset..p.offset + |data|] == data
    requires p' == Advance(cap, p, |data|)
    ensures InRange(buckets', cap, lo)
    ensures Flatten(Segment(buckets', cap, lo, p')) == Flatten(Segment(buckets, cap, lo, p)) + data
    decreases p.bucket - lo.bucket
  {
    if lo.bucket < p.bucket {
      var next := Pos(lo.bucket + 1, 0);
      SegmentExtended(buckets, buckets', cap, next, p, p', data);
      assert buckets'[lo.bucket] == buckets[lo.bucket];
    } else {
      SegmentExtendedInBucket(buckets, buckets', cap, lo, p, p', data);
    }
  }

  lemma FlattenSingleton<T>(x: seq<T>)
    ensures Flatten([x]) == x
  {
    assert [x][1..] == [];
  }

  /** The base case of `SegmentExtended`: the slice starts in the bucket
      being written. */
  lemma SegmentExtendedInBucket<T>(buckets: seq<seq<T>>, buckets': seq<seq<T>>, cap: nat,
                                   lo: Pos, p: Pos, p': Pos, data: seq<T>)
    requires cap >= 1 && Shaped(buckets, cap) && Shaped(buckets', cap)
    requires InRange(buckets, cap, lo) && InRange(buckets, cap, p) && Le(lo, p) && lo.bucket == p.bucket
    requires InRange(buckets', cap, p') && Le(p, p')
    requires AgreeBefore(buckets, buckets', p)
    requires p.offset + |data| <= cap && |data| >= 1 && p.bucket < |buckets'|
    requires buckets'[p.bucket][p.offset..p.offset + |data|] == data
    requires p' == Advance(cap, p, |data|)
    ensures InRange(buckets', cap, lo)
    ensures Flatten(Segment(buckets', cap, lo, p')) == Flatten(Segment(buckets, cap, lo, p)) + data
  {
    var i := p.bucket;
    var j := p.offset;
    var bk := buckets'[i];
    SegmentInBucketBefore(buckets, buckets', cap, lo, p);
    if j + |data| == cap {
      assert p' == Pos(i + 1, 0);
      SegmentInBucketRollover(buckets', cap, lo, p, p', data);
    } else {
      assert p' == Pos(i, j + |data|);
      SegmentInBucketStay(buckets', cap, lo, p, p', data);
    }
  }

  /** Before the write, the slice from `lo` to `p` in the same bucket is
      what the new buckets hold there. */
  lemma SegmentInBucketBefore<T>(buckets: seq<seq<T>>, buckets': seq<seq<T>>, cap: nat, lo: Pos, p: Pos)
    requires cap >= 1 && Shaped(buckets, cap) && Shaped(buckets', cap)
    requires InRange(buckets, cap, lo) && InRange(buckets, cap, p) && Le(lo, p) && lo.bucket == p.bucket
    requires AgreeBefore(buckets, buckets', p) && p.bucket < |buckets'|
    ensures Flatten(Segment(buckets, cap, lo, p)) == buckets'[p.bucket][..p.offset][lo.offset..]
  {
    var before := buckets'[p.bucket][..p.offset][lo.offset..];
    if lo.offset < p.offset {
      assert buckets[p.bucket][lo.offset..p.offset] == before;
      FlattenSingleton(before);
    } else {
      assert before == [];
    }
  }

  lemma SegmentInBucketRollover<T>(buckets': seq<seq<T>>, cap: nat, lo: Pos, p: Pos, p': Pos, data: seq<T>)
    requires cap >= 1 && Shaped(buckets', cap)
    requires lo.bucket == p.bucket && lo.offset <= p.offset && p.bucket < |buckets'|
    requires p.offset + |data| == cap && |data| >= 1 && p' == Pos(p.bucket + 1, 0)
    requires buckets'[p.bucket][p.offset..p.offset + |data|] == data
    ensures InRange(buckets', cap, lo) && InRange(buckets', cap, p')
    ensures Flatten(Segment(buckets', cap, lo, p')) == buckets'[p.bucket][..p.offset][lo.offset..] + data
  {
    var bk := buckets'[p.bucket];
    assert Segment(buckets', cap, p', p') == [];
    assert Segment(buckets', cap, lo, p') == [bk[lo.offset..]];
    assert bk[lo.offset..] == bk[..p.offset][lo.offset..] + data;
    FlattenSingleton(bk[lo.offset..]);
  }

  lemma SegmentInBucketStay<T>(buckets': seq<seq<T>>, cap: nat, lo: Pos, p: Pos, p': Pos, data: seq<T>)
    requires cap >= 1 && Shaped(buckets', cap)
    requires lo.bucket == p.bucket && lo.offset <= p.offset && p.bucket < |buckets'|
    requires p.offset + |data| < cap && |data| >= 1 && p' == Pos(p.bucket, p.offset + |data|)
    requires buckets'[p.bucket][p.offset..p.offset + |data|] == data
    ensures InRange(buckets', cap, lo) && InRange(buckets', cap, p')
    ensures Flatten(Segment(buckets', cap, lo, p')) == buckets'[p.bucket][..p.offset][lo.offset..] + data
  {
    var bk := buckets'[p.bucket];
    var e := p.offset + |data|;
    assert Segment(buckets', cap, lo, p') == [bk[lo.offset..e]];
    assert bk[lo.offset..e] == bk[..p.offset][lo.offset..] + data;
    FlattenSingleton(bk[lo.offset..e]);
  }

  lemma {:induction false} ChunksFromExtended<T>(buckets: seq<seq<T>>, buckets': seq<seq<T>>, cap: nat,
                                                start: Pos, bunches: seq<Bunch<T>>, p: Pos, p': Pos, data: seq<T>)
    requires cap >= 1 && Shaped(buckets, cap) && Shaped(buckets', cap)
    requires Chain(buckets, cap, start, bunches, p)
    requires InRange(buckets', cap, p') && Le(p, p')
    requires AgreeBefore(buckets, buckets', p)
    requires p.offset + |data| <= cap && |data| >= 1 && p.bucket < |buckets'|
    requires buckets'[p.bucket][p.offset..p.offset + |data|] == data
    requires p' == Advance(cap, p, |data|)
    ensures Chain(buckets', cap, start, bunches, p')
    ensures Flatten(ChunksFrom(buckets', cap, start, bunches, p'))
         == Flatten(ChunksFrom(buckets, cap, start, bunches, p)) + data
    decreases |bunches|
  {
    ChainExtended(buckets, buckets', cap, start, bunches, p, p');
    ChainStartLeEnd(buckets, cap, start, bunches, p);
    if |bunches| == 0 {
      SegmentExtended(buckets, buckets', cap, start, p, p', data);
    } else {
      var q := bunches[0].position;
      ChainStartLeEnd(buckets, cap, q, bunches[1..], p);
      SegmentFrame(buckets, buckets', cap, start, q, p);
      ChunksFromExtended(buckets, buckets', cap, q, bunches[1..], p, p', data);
      ChunksFromExtendedStep(buckets, buckets', cap, start, bunches, p, p', data);
    }
  }

  /** The inductive step of `ChunksFromExtended`: the first bunch and the
      segment before it are unchanged, the rest grows by `data`. */
  lemma ChunksFromExtendedStep<T>(buckets: seq<seq<T>>, buckets': seq<seq<T>>, cap: nat,
                                  start: Pos, bunches: seq<Bunch<T>>, p: Pos, p': Pos, data: seq<T>)
    requires cap >= 1 && Shaped(buckets, cap) && Shaped(buckets', cap) && |bunches| >= 1
    requires Chain(buckets, cap, start, bunches, p) && Chain(buckets', cap, start, bunches, p')
    requires Le(start, bunches[0].position)
    requires InRange(buckets', cap, start) && InRange(buckets', cap, bunches[0].position)
    requires Segment(buckets', cap, start, bunches[0].position) == Segment(buckets, cap, start, bunches[0].position)
    requires Flatten(ChunksFrom(buckets', cap, bunches[0].position, bunches[1..], p'))
          == Flatten(ChunksFrom(buckets, cap, bunches[0].position, bunches[1..], p)) + data
    ensures Flatten(ChunksFrom(buckets', cap, start, bunches, p'))
         == Flatten(ChunksFrom(buckets, cap, start, bunches, p)) + data
  {
    var q := bunches[0].position;
    var head := Segment(buckets, cap, start, q) + (if |bunches[0].data| > 0 then [bunches[0].data] else []);
    var rest := ChunksFrom(buckets, cap, q, bunches[1..], p);
    var rest' := ChunksFrom(buckets', cap, q, bunches[1..], p');
    assert ChunksFrom(buckets, cap, start, bunches, p) == head + rest;
    assert ChunksFrom(buckets', cap, start, bunches, p') == head + rest';
    FlattenGrowsAtEnd(head, rest, rest', data);
  }

  lemma FlattenGrowsAtEnd<T>(head: seq<seq<T>>, rest: seq<seq<T>>, rest': seq<seq<T>>, data: seq<T>)
    requires Flatten(rest') == Flatten(rest) + data
    ensures Flatten(head + rest') == Flatten(head + rest) + data
  {
    calc {
      Flatten(head + rest');
      == { FlattenAppend(head, rest'); }
      Flatten(head) + Flatten(rest');
      == { assert Flatten(head) + (Flatten(rest) + data) == (Flatten(head) + Flatten(rest)) + data; }
      (Flatten(head) + Flatten(rest)) + data;
      == { FlattenAppend(head, rest); }
      Flatten(head + rest) + data;
    }
  }

  lemma {:induction false} SegmentLength<T>(buckets: seq<seq<T>>, cap: nat, lo: Pos, hi: Pos)
    requires cap >= 1 && Shaped(buckets, cap)
    requires InRange(buckets, cap, lo) && InRange(buckets, cap, hi) && Le(lo, hi)
    ensures TotalLength(Segment(buckets, cap, lo, hi)) == Linear(cap, hi) - Linear(cap, lo)
    decreases hi.bucket - lo.bucket
  {
    if lo.bucket < hi.bucket {
      var next := Pos(lo.bucket + 1, 0);
      SegmentLength(buckets, cap, next, hi);
      assert cap * (lo.bucket + 1) == cap * lo.bucket + cap;
      assert cap * hi.bucket >= cap * (lo.bucket + 1);
    }
  }

  lemma {:induction false} TotalLengthAppend<T>(a: seq<seq<T>>, c: seq<seq<T>>)
    ensures TotalLength(a + c) == TotalLength(a) + TotalLength(c)
    decreases |a|
  {
    if |a| > 0 {
      assert (a + c)[1..] == a[1..] + c;
      TotalLengthAppend(a[1..], c);
    } else {
      assert a + c == c;
    }
  }

  lemma {:induction false} ChunksFromLength<T>(buckets: seq<seq<T>>, cap: nat, start: Pos, bunches: seq<Bunch<T>>, end: Pos)
    requires cap >= 1 && Shaped(buckets, cap)
    requires Chain(buckets, cap, start, bunches, end)
    ensures Linear(cap, end) >= Linear(cap, start)
    ensures TotalLength(ChunksFrom(buckets, cap, start, bunches, end))
         == Linear(cap, end) - Linear(cap, start) + SumBunchLengths(bunches)
    decreases |bunches|
  {
    ChainStartLeEnd(buckets, cap, start, bunches, end);
    if |bunches| == 0 {
      SegmentLength(buckets, cap, start, end);
    } else {
      var q := bunches[0].position;
      SegmentLength(buckets, cap, start, q);
      ChunksFromLength(buckets, cap, q, bunches[1..], end);
      var bunch: seq<seq<T>> := if |bunches[0].data| > 0 then [bunches[0].data] else [];
      TotalLengthAppend(Segment(buckets, cap, start, q), bunch);
      TotalLengthAppend(Segment(buckets, cap, start, q) + bunch, ChunksFrom(buckets, cap, q, bunches[1..], end));
      assert TotalLength(bunch) == |bunches[0].data|;
    }
  }

  lemma {:induction false} SegmentNonEmpty<T>(buckets: seq<seq<T>>, cap: nat, lo: Pos, hi: Pos)
    requires cap >= 1 && Shaped(buckets, cap)
    requires InRange(buckets, cap, lo) && InRange(buckets, cap, hi) && Le(lo, hi)
    ensures forall k :: 0 <= k < |Segment(buckets, cap, lo, hi)| ==> |Segment(buckets, cap, lo, hi)[k]| >= 1
    decreases hi.bucket - lo.bucket
  {
    if lo.bucket < hi.bucket {
      SegmentNonEmpty(buckets, cap, Pos(lo.bucket + 1, 0), hi);
    }
  }

  lemma {:induction false} ChunksFromNonEmpty<T>(buckets: seq<seq<T>>, cap: nat, start: Pos, bunches: seq<Bunch<T>>, end: Pos)
    requires cap >= 1 && Shaped(buckets, cap)
    requires Chain(buckets, cap, start, bunches, end)
    ensures forall k :: 0 <= k < |ChunksFrom(buckets, cap, start, bunches, end)|
              ==> |ChunksFrom(buckets, cap, start, bunches, end)[k]| >= 1
    decreases |bunches|
  {
    if |bunches| == 0 {
      SegmentNonEmpty(buckets, cap, start, end);
    } else {
      SegmentNonEmpty(buckets, cap, start, bunches[0].position);
      ChunksFromNonEmpty(buckets, cap, bunches[0].position, bunches[1..], end);
    }
  }

  function MapChunks<T, U>(g: T -> U, chunks: seq<seq<T>>): (r: seq<seq<U>>)
    ensures |r| == |chunks|
    ensures forall k :: 0 <= k < |chunks| ==> r[k] == MapSeq(g, chunks[k])
  {
    seq(|chunks|, k requires 0 <= k < |chunks| => MapSeq(g, chunks[k]))
  }

  lemma {:induction false} FlattenMapChunks<T, U>(g: T -> U, chunks: seq<seq<T>>)
    ensures Flatten(MapChunks(g, chunks)) == MapSeq(g, Flatten(chunks))
    decreases |chunks|
  {
    if |chunks| > 0 {
      FlattenMapChunks(g, chunks[1..]);
      assert MapChunks(g, chunks)[1..] == MapChunks(g, chunks[1..]);
    }
  }

  ghost predicate MappedBuckets<T, U>(g: T -> U, buckets: seq<seq<T>>, buckets': seq<seq<U>>) {
    |buckets'| == |buckets| && forall k :: 0 <= k < |buckets| ==> buckets'[k] == MapSeq(g, buckets[k])
  }

  lemma {:induction false} SegmentMapped<T, U>(g: T -> U, buckets: seq<seq<T>>, buckets': seq<seq<U>>, cap: nat, lo: Pos, hi: Pos)
    requires cap >= 1 && Shaped(buckets, cap) && MappedBuckets(g, buckets, buckets')
    requires InRange(buckets, cap, lo) && InRange(buckets, cap, hi) && Le(lo, hi)
    ensures Shaped(buckets', cap) && InRange(buckets', cap, lo) && InRange(buckets', cap, hi)
    ensures Segment(buckets', cap, lo, hi) == MapChunks(g, Segment(buckets, cap, lo, hi))
    decreases hi.bucket - lo.bucket
  {
    if lo.bucket < hi.bucket {
      SegmentMapped(g, buckets, buckets', cap, Pos(lo.bucket + 1, 0), hi);
      assert buckets'[lo.bucket][lo.offset..] == MapSeq(g, buckets[lo.bucket][lo.offset..]);
    } else if lo.offset < hi.offset {
      assert buckets'[lo.bucket][lo.offset..hi.offset] == MapSeq(g, buckets[lo.bucket][lo.offset..hi.offset]);
    }
  }

  lemma MapChunksAppend<T, U>(g: T -> U, a: seq<seq<T>>, c: seq<seq<T>>)
    ensures MapChunks(g, a + c) == MapChunks(g, a) + MapChunks(g, c)
  {
  }

  lemma {:induction false} ChunksFromMapped<T, U>(g: T -> U, buckets: seq<seq<T>>, buckets': seq<seq<U>>, cap: nat,
                                                 start: Pos, bunches: seq<Bunch<T>>, bunches': seq<Bunch<U>>, end: Pos)
    requires cap >= 1 && Shaped(buckets, cap) && MappedBuckets(g, buckets, buckets')
    requires Chain(buckets, cap, start, bunches, end)
    requires SamePositions(bunches, bunches')
    requires forall k :: 0 <= k < |bunches| ==> bunches'[k].data == MapSeq(g, bunches[k].data)
    ensures Shaped(buckets', cap) && Chain(buckets', cap, start, bunches', end)
    ensures ChunksFrom(buckets', cap, start, bunches', end) == MapChunks(g, ChunksFrom(buckets, cap, start, bunches, end))
    decreases |bunches|
  {
    ChainMapped(g, buckets, buckets', cap, start, bunches, bunches', end);
    if |bunches| == 0 {
      SegmentMapped(g, buckets, buckets', cap, start, end);
    } else {
      var q := bunches[0].position;
      SegmentMapped(g, buckets, buckets', cap, start, q);
      ChunksFromMapped(g, buckets, buckets', cap, q, bunches[1..], bunches'[1..], end);
      var bunch: seq<seq<T>> := if |bunches[0].data| > 0 then [bunches[0].data] else [];
      var bunch': seq<seq<U>> := if |bunches'[0].data| > 0 then [bunches'[0].data] else [];
      assert bunch' == MapChunks(g, bunch);
      var seg := Segment(buckets, cap, start, q);
      MapChunksAppend(g, seg + bunch, ChunksFrom(buckets, cap, q, bunches[1..], end));
      MapChunksAppend(g, seg, bunch);
    }
  }
}

=== FILE: pipeline.dfy ===
/** The particle simulation worker and the GUI worker running together
    over their two pipes, one iteration at a time in any interleaving,
    each pipe delivering its messages in order after an arbitrary delay.

    The flow control this composition keeps: the GUI never has more than
    one update request outstanding, the simulation sends one update per
    request, the k-th update carries the time k steps in, and so the
    GUI's check that an update belongs to the state it is assembling
    never fails. */
module Pipeline {
  import opened Wrappers
  import D = Dynamics
  import A = Application

  datatype State = State(
    sim: A.SimWorker,
    gui: A.GuiWorker,
    toSim: seq<A.Message>,        // in the pipe from the GUI to the simulation
    toGui: seq<A.Delivery>,       // in the pipe from the simulation to the GUI
    requests: nat,                // update requests the GUI has sent
    sent: seq<A.Message>,         // update messages the simulation has sent
    received: nat)                // updates the GUI has read

  /** Who runs an iteration next, and what it finds: the simulation sees
      the first `available` waiting messages; the GUI reads the pipe only
      when `read` holds (otherwise the update has not arrived yet). */
  datatype Event =
    | SimTurn(available: nat)
    | GuiTurn(callbacks: seq<A.InterCallback>, read: bool, due: bool)

  function Renders(ps: seq<D.Particle>): (rs: seq<A.RenderParticle>)
    ensures |rs| == |ps|
    ensures forall i :: 0 <= i < |ps| ==> rs[i] == A.Render(ps[i])
  {
    seq(|ps|, i requires 0 <= i < |ps| => A.Render(ps[i]))
  }

  /** Both workers at the start of their loops, with the GUI holding the
      initial state of the simulation. */
  function Start(sim: D.Sim, presolve: Option<D.Callback>, postsolve: Option<D.Callback>, blank: A.RenderParticle)
    : (st: State)
    requires D.Valid(sim)
    ensures sim.time == 0.0 && sim.timeStep > 0.0 ==> Inv(st)
    ensures st.sim.sim == sim && st.gui.current == A.SceneState(0.0, Renders(D.Stored(sim)))
  {
    State(A.SimWorkerStart(sim, presolve, postsolve, blank), A.GuiStart(sim.timeStep, Renders(D.Stored(sim))),
          [], [], 0, [], 0)
  }

  /** The messages of the deliveries, in order. */
  function Messages(out: seq<A.Delivery>): (ms: seq<A.Message>)
    ensures |ms| == |out|
    ensures forall i :: 0 <= i < |out| ==> ms[i] == out[i].message
  {
    seq(|out|, i requires 0 <= i < |out| => out[i].message)
  }

  /** The state after a simulation iteration that went on running. */
  function AfterSim(st: State, k: nat, w: A.SimWorker, out: seq<A.Delivery>): State
    requires k <= |st.toSim|
  {
    st.(sim := w, toSim := st.toSim[k..], toGui := st.toGui + out, sent := st.sent + Messages(out))
  }

  /** The state after a GUI iteration that went on running. */
  function AfterGui(st: State, g: A.GuiWorker, out: seq<A.Message>, consumed: bool): State
    requires consumed ==> |st.toGui| > 0
  {
    st.(gui := g, toSim := st.toSim + out,
        toGui := if consumed then st.toGui[1..] else st.toGui,
        requests := st.requests + A.CountRequests(out),
        received := st.received + if consumed then 1 else 0)
  }

  /** What a non-blocking read of the pipe to the GUI returns. */
  function Incoming(st: State, read: bool): Option<A.Delivery> {
    if read && |st.toGui| > 0 then Some(st.toGui[0]) else None
  }

  /** One iteration of one worker. A failure is the worker raising. */
  function Next(st: State, e: Event): (r: Result<State>)
    requires A.SimWorkerValid(st.sim) && A.GuiWorkerValid(st.gui)
  {
    match e
    case SimTurn(n) =>
      var k := if n <= |st.toSim| then n else |st.toSim|;
      var turn :- A.SimIteration(st.sim, None, st.toSim[..k]);
      (match turn
       case SimStopped => Success(st)   // not taken: nobody sends a stop here
       case SimRunning(w, out) => Success(AfterSim(st, k, w, out)))
    case GuiTurn(callbacks, read, due) =>
      var turn :- A.GuiIteration(st.gui, None, A.GuiInput(false, callbacks, Incoming(st, read), due));
      (match turn
       case GuiStopped(_) => Success(st)   // not taken: the window is not closed here
       case GuiRunning(g, out, consumed) => Success(AfterGui(st, g, out, consumed)))
  }

  /** The time `n` steps of `dt` in, as the simulation's clock adds
      them up. */
  function At(n: nat, dt: real): real {
    if n == 0 then 0.0 else At(n - 1, dt) + dt
  }

  /** Added up, the steps give `n` times the step. */
  lemma {:induction false} AtIsProduct(n: nat, dt: real)
    ensures At(n, dt) == n as real * dt
  {
    if n > 0 {
      AtIsProduct(n - 1, dt);
    }
  }

  /** The GUI's part of the invariant: the state under assembly is the
      one after the last update read, and a completed one re-arms the
      request. */
  predicate GuiInv(g: A.GuiWorker, received: nat, dt: real)
    requires A.GuiWorkerValid(g)
  {
    && (g.next.Some? <==> "particles" in g.partial)
    && (g.next.Some? ==> g.requestSimUpdates && g.next.value.time == At(received, dt))
    && g.partial["time"].t == At(received + (if g.next.Some? then 0 else 1), dt)
  }

  /** The updates carry the times dt, 2 dt, and so on. */
  predicate UpdatesAtSteps(log: seq<A.Message>, dt: real) {
    forall j :: 0 <= j < |log| ==> log[j].SimUpdate? && log[j].time == At(j + 1, dt)
  }

  /** The simulation's clock: the updates sent so far carry the times
      dt, 2 dt, and so on, and the clock is one step past the last update
      once it has stepped again. */
  predicate SimClock(time: real, dt: real, step: bool, send: bool, sent: seq<A.Message>) {
    && dt > 0.0 && !send
    && UpdatesAtSteps(sent, dt)
    && time == At(|sent| + (if step then 0 else 1), dt)
  }

  /** The simulation's part of the invariant. */
  predicate SimSide(w: A.SimWorker, sent: seq<A.Message>) {
    A.SimWorkerValid(w) && SimClock(w.sim.time, w.sim.timeStep, w.step, w.send, sent)
  }

  /** What is in flight between the two: at most the latest update, and one
      request exactly while the GUI is not re-armed. */
  predicate InFlight(toSim: seq<A.Message>, toGui: seq<A.Delivery>, requests: nat, sentCount: nat,
                     received: nat, rearmed: bool, dt: real) {
    var waiting := if rearmed then 0 else 1;
    && |toGui| <= 1
    && (|toGui| == 1 ==> toGui[0].message == A.SimUpdate(At(sentCount, dt)))
    && received + |toGui| == sentCount
    && A.CountRequests(toSim) + |toGui| == waiting
    && requests == received + waiting
  }

  /** The GUI's part of the invariant. */
  predicate GuiSide(g: A.GuiWorker, received: nat, dt: real) {
    A.GuiWorkerValid(g) && g.timeStep == dt && GuiInv(g, received, dt)
  }

  /** The invariant of the composition. */
  predicate Inv(st: State) {
    var dt := st.sim.sim.timeStep;
    && SimSide(st.sim, st.sent)
    && InFlight(st.toSim, st.toGui, st.requests, |st.sent|, st.received, st.gui.requestSimUpdates, dt)
    && GuiSide(st.gui, st.received, dt)
  }

  /** What a simulation iteration does to the composition, read off its
      contract. */
  lemma SimTurnFacts(st: State, n: nat) returns (k: nat, w: A.SimWorker, out: seq<A.Delivery>)
    requires Inv(st)
    requires Next(st, SimTurn(n)).Success?
    ensures k <= |st.toSim| && Next(st, SimTurn(n)) == Success(AfterSim(st, k, w, out))
    ensures A.SimWorkerValid(w) && w.sim.timeStep == st.sim.sim.timeStep && !w.send
    ensures w.sim.time == if st.sim.step then st.sim.sim.time + st.sim.sim.timeStep else st.sim.sim.time
    ensures |out| <= 1 && w.step == (|out| == 1)
    ensures |out| == 1 <==> A.CountRequests(st.toSim[..k]) > 0
    ensures |out| == 1 ==> out[0].message == A.SimUpdate(w.sim.time)
  {
    k := if n <= |st.toSim| then n else |st.toSim|;
    var inbox := st.toSim[..k];
    A.CountRequestsConcat(inbox, []);
    var res := A.SimIteration(st.sim, None, inbox);
    assert res.Success? && res.value.SimRunning?;
    w := res.value.worker;
    out := res.value.sent;
  }

  /** A simulation iteration keeps the invariant: it answers the one
      waiting request, if it sees it, with the update of the next time. */
  lemma SimTurnKeepsInv(st: State, n: nat)
    requires Inv(st)
    requires Next(st, SimTurn(n)).Success?
    ensures Inv(Next(st, SimTurn(n)).value)
    ensures Next(st, SimTurn(n)).value.sim.sim.timeStep == st.sim.sim.timeStep
  {
    var k, w, out := SimTurnFacts(st, n);
    AfterSimKeepsInv(st, k, w, out);
  }

  lemma AfterSimKeepsInv(st: State, k: nat, w: A.SimWorker, out: seq<A.Delivery>)
    requires Inv(st) && k <= |st.toSim|
    requires A.SimWorkerValid(w) && w.sim.timeStep == st.sim.sim.timeStep && !w.send
    requires w.sim.time == if st.sim.step then st.sim.sim.time + st.sim.sim.timeStep else st.sim.sim.time
    requires |out| <= 1 && w.step == (|out| == 1)
    requires |out| == 1 <==> A.CountRequests(st.toSim[..k]) > 0
    requires |out| == 1 ==> out[0].message == A.SimUpdate(w.sim.time)
    ensures Inv(AfterSim(st, k, w, out))
  {
    SimAnswers(st.sim.sim.time, st.sim.sim.timeStep, st.sim.step, st.sent, st.toSim, st.toGui,
               st.requests, st.received, st.gui.requestSimUpdates, k, w.sim.time, w.step, out);
  }

  /** The clock and the pipes after a simulation iteration that saw the
      first `k` waiting messages. */
  lemma SimAnswers(time: real, dt: real, step: bool, sent: seq<A.Message>,
                   toSim: seq<A.Message>, toGui: seq<A.Delivery>, requests: nat, received: nat, rearmed: bool,
                   k: nat, time': real, step': bool, out: seq<A.Delivery>)
    requires SimClock(time, dt, step, false, sent)
    requires InFlight(toSim, toGui, requests, |sent|, received, rearmed, dt)
    requires k <= |toSim|
    requires time' == if step then time + dt else time
    requires |out| <= 1 && step' == (|out| == 1)
    requires |out| == 1 <==> A.CountRequests(toSim[..k]) > 0
    requires |out| == 1 ==> out[0].message == A.SimUpdate(time')
    ensures SimClock(time', dt, step', false, sent + Messages(out))
    ensures InFlight(toSim[k..], toGui + out, requests, |sent + Messages(out)|, received, rearmed, dt)
  {
    var inbox := toSim[..k];
    var rest := toSim[k..];
    assert toSim == inbox + rest;
    A.CountRequestsConcat(inbox, rest);
    assert At(|sent| + 1, dt) == At(|sent|, dt) + dt;
    if |out| == 1 {
      var m := A.SimUpdate(At(|sent| + 1, dt));
      assert Messages(out) == [m];
      LogExtended(sent, m, dt);
    } else {
      assert Messages(out) == [] && toGui + out == toGui;
    }
  }

  /** An update for the next time extends a log of updates for the
      times dt, 2 dt, and so on. */
  lemma LogExtended(log: seq<A.Message>, m: A.Message, dt: real)
    requires UpdatesAtSteps(log, dt)
    requires m == A.SimUpdate(At(|log| + 1, dt))
    ensures UpdatesAtSteps(log + [m], dt)
  {
    forall j | 0 <= j < |log| + 1
      ensures (log + [m])[j].SimUpdate? && (log + [m])[j].time == At(j + 1, dt)
    {
      if j < |log| {
        assert (log + [m])[j] == log[j];
      }
    }
  }

  /** The callback message a GUI iteration sends first, if the events
      produced any callback. */
  function RunMessage(callbacks: seq<A.InterCallback>): seq<A.Message> {
    if |callbacks| > 0 then [A.RunCallbacks(callbacks)] else []
  }

  /** A GUI iteration in the composition never fails and goes on running,
      with the worker and messages its steps compute. */
  lemma GuiTurnResult(st: State, callbacks: seq<A.InterCallback>, read: bool, due: bool)
    returns (g': A.GuiWorker, out: seq<A.Message>, consumed: bool)
    requires Inv(st)
    ensures A.Fetch(st.gui, Incoming(st, read)).Success?
    ensures var (g1, request, c) := A.Fetch(st.gui, Incoming(st, read)).value;
      g' == A.Show(A.Complete(g1), due) && out == RunMessage(callbacks) + request && consumed == c
    ensures consumed ==> |st.toGui| > 0
    ensures Next(st, GuiTurn(callbacks, read, due)) == Success(AfterGui(st, g', out, consumed))
  {
    var incoming := Incoming(st, read);
    GuiReadMatches(st, read);
    var turn := A.GuiIteration(st.gui, None, A.GuiInput(false, callbacks, incoming, due));
    g', out, consumed := turn.value.worker, turn.value.toSim, turn.value.consumed;
  }

  /** What a GUI iteration does to the composition: it asks for an update
      only when re-armed, reads the update in flight only while it waits
      for one, and re-arms on reading it. */
  lemma GuiTurnFacts(st: State, callbacks: seq<A.InterCallback>, read: bool, due: bool)
    requires Inv(st)
    requires A.Fetch(st.gui, Incoming(st, read)).Success?
    ensures var (g1, request, consumed) := A.Fetch(st.gui, Incoming(st, read)).value;
      var g' := A.Show(A.Complete(g1), due);
      var out := RunMessage(callbacks) + request;
      && (consumed ==> |st.toGui| > 0 && !st.gui.requestSimUpdates)
      && A.GuiWorkerValid(g') && g'.timeStep == st.gui.timeStep
      && A.CountRequests(out) == (if st.gui.next.None? && st.gui.requestSimUpdates then 1 else 0)
      && g'.requestSimUpdates == (st.gui.next.Some? || consumed)
      && GuiInv(g', st.received + (if consumed then 1 else 0), st.sim.sim.timeStep)
  {
    var (g1, request, consumed) := A.Fetch(st.gui, Incoming(st, read)).value;
    A.CountRequestsConcat(RunMessage(callbacks), request);
    GuiReadsOnlyWhenWaiting(st, read);
    GuiInvAfterTurn(st, read, due);
  }

  /** An update in flight is the one the GUI is assembling, so its check
      that the times match holds. */
  lemma GuiReadMatches(st: State, read: bool)
    requires Inv(st)
    ensures A.Fetch(st.gui, Incoming(st, read)).Success?
  {
    var g := st.gui;
    var incoming := Incoming(st, read);
    if incoming.Some? && g.next.None? && "particles" !in g.partial {
      assert st.received + 1 == |st.sent|;
      assert incoming.value.message.time == g.partial["time"].t;
      assert A.Matches(g, incoming.value.message.time);
    }
  }

  /** An update is in flight only while the GUI waits for one, with no
      next state and no particles under assembly. */
  lemma GuiReadsOnlyWhenWaiting(st: State, read: bool)
    requires Inv(st)
    ensures Incoming(st, read).Some? ==>
      !st.gui.requestSimUpdates && st.gui.next.None? && "particles" !in st.gui.partial
    ensures Incoming(st, read).Some? <==> read && |st.toGui| > 0
  {
  }

  /** The GUI's part of the invariant after an iteration, and when it
      re-arms its request. */
  lemma GuiInvAfterTurn(st: State, read: bool, due: bool)
    requires Inv(st)
    requires A.Fetch(st.gui, Incoming(st, read)).Success?
    ensures var (g1, _, consumed) := A.Fetch(st.gui, Incoming(st, read)).value;
      var g' := A.Show(A.Complete(g1), due);
      && g'.requestSimUpdates == (st.gui.next.Some? || consumed)
      && GuiInv(g', st.received + (if consumed then 1 else 0), st.sim.sim.timeStep)
  {
    var g := st.gui;
    var (g1, _, consumed) := A.Fetch(g, Incoming(st, read)).value;
    GuiReadsOnlyWhenWaiting(st, read);
    if g.next.Some? {
      GuiCompleteThenShow(g1, st.received, st.sim.sim.timeStep, due);
    } else if consumed {
      assert Incoming(st, read).value.message == A.SimUpdate(At(st.received + 1, st.sim.sim.timeStep));
      GuiCompleteThenShow(g1, st.received + 1, st.sim.sim.timeStep, due);
    } else {
      assert !A.IsSceneStateComplete(g1.partial);
    }
  }

  /** A state under assembly with every field, at the time of the last
      update read, becomes the next state; shown or not, the GUI's part
      of the invariant holds and the request is re-armed. */
  lemma GuiCompleteThenShow(g1: A.GuiWorker, received: nat, dt: real, due: bool)
    requires A.GuiWorkerValid(g1) && g1.timeStep == dt
    requires "particles" in g1.partial && g1.partial["time"].t == At(received, dt)
    ensures var g' := A.Show(A.Complete(g1), due);
      g'.requestSimUpdates && GuiInv(g', received, dt)
  {
    var g2 := A.Complete(g1);
    assert g2.next.value.time == At(received, dt);
    assert At(received + 1, dt) == At(received, dt) + dt;
  }

  lemma GuiTurnKeepsInv(st: State, callbacks: seq<A.InterCallback>, read: bool, due: bool)
    requires Inv(st)
    ensures Next(st, GuiTurn(callbacks, read, due)).Success?
    ensures Inv(Next(st, GuiTurn(callbacks, read, due)).value)
    ensures Next(st, GuiTurn(callbacks, read, due)).value.sim == st.sim
  {
    var g', out, consumed := GuiTurnResult(st, callbacks, read, due);
    GuiTurnFacts(st, callbacks, read, due);
    AfterGuiKeepsInv(st, g', out, consumed);
  }

  lemma AfterGuiKeepsInv(st: State, g': A.GuiWorker, out: seq<A.Message>, consumed: bool)
    requires Inv(st)
    requires consumed ==> |st.toGui| > 0
    requires A.GuiWorkerValid(g') && g'.timeStep == st.gui.timeStep
    requires consumed ==> !st.gui.requestSimUpdates
    requires A.CountRequests(out) == if st.gui.next.None? && st.gui.requestSimUpdates then 1 else 0
    requires g'.requestSimUpdates == (st.gui.next.Some? || consumed)
    requires GuiInv(g', st.received + if consumed then 1 else 0, st.sim.sim.timeStep)
    ensures Inv(AfterGui(st, g', out, consumed))
  {
    var st' := AfterGui(st, g', out, consumed);
    assert SimSide(st'.sim, st'.sent) by {
      assert st'.sim == st.sim && st'.sent == st.sent;
    }
    GuiAsks(st.toSim, st.toGui, st.requests, |st.sent|, st.received, st.gui.requestSimUpdates,
            st.sim.sim.timeStep, st.gui.next.Some?, g'.requestSimUpdates, out, consumed);
  }

  /** The pipes after a GUI iteration: a request sent un-arms the GUI, an
      update read re-arms it. */
  lemma GuiAsks(toSim: seq<A.Message>, toGui: seq<A.Delivery>, requests: nat, sentCount: nat,
                received: nat, rearmed: bool, dt: real, ready: bool, rearmed': bool,
                out: seq<A.Message>, consumed: bool)
    requires InFlight(toSim, toGui, requests, sentCount, received, rearmed, dt)
    requires ready ==> rearmed
    requires consumed ==> |toGui| > 0 && !rearmed
    requires A.CountRequests(out) == if !ready && rearmed then 1 else 0
    requires rearmed' == (ready || consumed)
    ensures InFlight(toSim + out, if consumed then toGui[1..] else toGui, requests + A.CountRequests(out),
                     sentCount, received + (if consumed then 1 else 0), rearmed', dt)
  {
    A.CountRequestsConcat(toSim, out);
  }

  /** Run the events in order; a worker that raises ends the run. */
  function Run(st: State, events: seq<Event>): (r: State)
    requires Inv(st)
    ensures Inv(r)
    ensures r.sim.sim.timeStep == st.sim.sim.timeStep
    decreases |events|
  {
    if |events| == 0 then st
    else
      match events[0]
      case SimTurn(n) =>
        (match Next(st, events[0])
         case Failure(_) => st
         case Success(st') => SimTurnKeepsInv(st, n); Run(st', events[1..]))
      case GuiTurn(callbacks, read, due) =>
        GuiTurnKeepsInv(st, callbacks, read, due);
        Run(Next(st, events[0]).value, events[1..])
  }

  /** Flow control, whatever the interleaving and the delays: the GUI
      asks for at most one update more than it was sent, the simulation
      sends no update that was not asked for, and the k-th update carries
      the time k steps in. */
  lemma FlowControl(sim: D.Sim, presolve: Option<D.Callback>, postsolve: Option<D.Callback>,
                    blank: A.RenderParticle, events: seq<Event>)
    requires D.Valid(sim) && sim.time == 0.0 && sim.timeStep > 0.0
    ensures var st := Run(Start(sim, presolve, postsolve, blank), events);
      && |st.sent| <= st.requests <= |st.sent| + 1
      && forall j :: 0 <= j < |st.sent| ==> st.sent[j] == A.SimUpdate(At(j + 1, sim.timeStep))
  {
  }
}

=== FILE: seqs.dfy ===
/** Small sequence helpers shared by the store, the buffer and the index. */
module Seqs {

  /** The concatenation of a sequence of chunks. */
  function Flatten<T>(chunks: seq<seq<T>>): seq<T>
  {
    if |chunks| == 0 then [] else chunks[0] + Flatten(chunks[1..])
  }

  /** The total number of elements held by a sequence of chunks. */
  function TotalLength<T>(chunks: seq<seq<T>>): nat
  {
    if |chunks| == 0 then 0 else |chunks[0]| + TotalLength(chunks[1..])
  }

  lemma {:induction false} FlattenAppend<T>(a: seq<seq<T>>, b: seq<seq<T>>)
    ensures Flatten(a + b) == Flatten(a) + Flatten(b)
  {
    if |a| == 0 {
      assert a + b == b;
    } else {
      assert (a + b)[1..] == a[1..] + b;
      FlattenAppend(a[1..], b);
    }
  }

  lemma {:induction false} FlattenLength<T>(chunks: seq<seq<T>>)
    ensures |Flatten(chunks)| == TotalLength(chunks)
  {
    if |chunks| > 0 {
      FlattenLength(chunks[1..]);
    }
  }

  /** A position holding an element of the sequence's multiset. */
  lemma IndexOf<T>(s: seq<T>, x: T) returns (i: nat)
    requires x in multiset(s)
    ensures i < |s| && s[i] == x
  {
    assert x in s;
    i :| 0 <= i < |s| && s[i] == x;
  }

  /** Dropping the head removes one copy of it from the multiset. */
  lemma MultisetTail<T>(s: seq<T>)
    requires |s| >= 1
    ensures multiset(s[1..]) == multiset(s) - multiset{s[0]}
  {
    assert s == [s[0]] + s[1..];
  }

  /** The number of occurrences of `x` in `s`; it is the multiplicity of
      `x` in `multiset(s)`, but proofs by induction over it stay small. */
  function Count<T(==)>(s: seq<T>, x: T): nat
    decreases |s|
  {
    if |s| == 0 then 0 else (if s[0] == x then 1 else 0) + Count(s[1..], x)
  }

  lemma {:induction false} CountIsMultiplicity<T>(s: seq<T>, x: T)
    ensures multiset(s)[x] == Count(s, x)
    decreases |s|
  {
    if |s| > 0 {
      CountIsMultiplicity(s[1..], x);
      assert s == [s[0]] + s[1..];
    }
  }

  lemma {:induction false} CountAppend<T>(a: seq<T>, b: seq<T>, x: T)
    ensures Count(a + b, x) == Count(a, x) + Count(b, x)
    decreases |a|
  {
    if |a| > 0 {
      CountAppend(a[1..], b, x);
      assert (a + b)[1..] == a[1..] + b;
    } else {
      assert a + b == b;
    }
  }

  /** The greater of two integers. */
  function Max(a: int, b: int): (r: int)
    ensures r >= a && r >= b
    ensures r == a || r == b
  {
    if a >= b then a else b
  }

  function Min(a: int, b: int): (r: int)
    ensures r <= a && r <= b
    ensures r == a || r == b
  {
    if a <= b then a else b
  }
}

=== FILE: wrappers.dfy ===
/** Failure-compatible wrappers used across the model: an optional value and
    a value-or-error result standing for the source's raised exceptions. */
module Wrappers {

  datatype Option<+T> = None | Some(value: T) {

    /** The wrapped value, or `default` when there is none. */
    function GetOr(default: T): T {
      match this
      case Some(v) => v
      case None => default
    }
  }

  /** Errors the modelled operations raise in the source. */
  datatype Error =
    | ValueError(reason: string)   // invalid argument or absent id
    | EmptyInput                   // a reduction over no element (numpy.amin on an empty array)
    | Diverges                     // the source loops forever instead of returning
    | IndexError                   // indexing the last element of an empty array
    | AssertionError               // a failed `assert` statement

  datatype Result<+R> = Success(value: R) | Failure(error: Error) {

    predicate IsFailure() {
      Failure?
    }

    function PropagateFailure<U>(): Result<U>
      requires Failure?
    {
      Failure(error)
    }

    function Extract(): R
      requires Success?
    {
      value
    }
  }
}
